=== FILE: README.md ===
# Survey accelerator retrieval, highlighting and ingestion core in Dafny

This project models the pure logic of the survey accelerator backend. That backend searches survey questionnaires page by page and renders highlighted copies of the matching PDFs. The model covers:

- **Search result assembly** (`hybrid_search`). The semantic and keyword hits are merged into one list with no repeated row id. The reranker's answer becomes matches with global ranks. Matches are grouped by row id, groups are ordered by best score, and matches inside a group by rank.
- **Highlight keyphrase extraction** (`extract_highlight_keyphrase`). This covers section parsing, validation of the model's reply, and the fallback chain. It also covers the fallback text of `generate_query_match_explanation`.
- **PDF highlight planning**. This covers the cache key, the file name and public URL, the choice between modes, page-key conversion, and term splitting and filtering. It also covers the wrapping of failures into HTTP 500.
- **The search endpoint** (`search_documents`). It validates the query and chooses the response message.
- **The ingestion page pipeline**. This covers `parse_file`, `process_file` and `create_metadata_string`, plus the page rows and question/answer pairs of `save_document_to_db`, `save_single_document` and `save_all_to_db`.
- **The small parsers**. These are both `extract_file_id` variants, `determine_file_type` and the `get_airtable_records` map.

External services appear as function parameters or oracle inputs:

- the Cohere reranker;
- the OpenAI chat model;
- the database searches and commits;
- PyPDF2 page extraction;
- the PyMuPDF page search;
- tiktoken;
- md5;
- `json.dumps`;
- the file system's `exists`;
- the HTTP download;
- the Airtable API.

Python's string semantics are modelled in `strings.dfy`. This covers `split`, `join`, `strip` on the `isspace` set, `find`, `in` and ASCII `lower`. `int()` and `str()` are in `numerals.dfy`, `strptime("%Y-%m-%d")` is in `dates.dfy`, and the stable `sorted` is in `stable_sort.dfy`.

The code's behaviour in a few places that are easy to assume otherwise:

- ranks are global positions in the reranker's answer, never renumbered within a document;
- results carry no match-type classification and no strength tier;
- each stored row is one page, with no overlapping chunk windows;
- no external call is retried;
- rendering is not single-flight: concurrent requests for one file each render it;
- a failed render is an HTTP 500, with no fallback to the unhighlighted source;
- the metadata conversion of a search result rejects every stored row, so every search that finds anything ends in HTTP 500 (see "## Findings"). The rest of the model describes the search with that conversion corrected.

## Model

| member | source | states |
|---|---|---|
| HybridSearch.MergeIsFirstOccurrences | backend/app/search/utils.py:130-138 | The merged candidate list holds every row id of the semantic and keyword hits once. Each is the row of its first occurrence in semantic-then-keyword order, listed in order of first occurrence. |
| HybridSearch.MergeSemanticFirst | backend/app/search/utils.py:130-138 | The merged list has no repeated id, and its id set is the union of both hit lists. Every semantic row comes before every keyword-only row. |
| HybridSearch.PrecisionCandidatesCover | backend/app/search/utils.py:232-252 | Each precision candidate is a question/answer pair of a merged row, and every pair of every row is a candidate. There are none exactly when no row has a pair. |
| HybridSearch.PrecisionCandidatesSound | backend/app/search/utils.py:232-252 | Each precision candidate pairs a merged row with one of that row's own question/answer pairs. |
| HybridSearch.PrecisionCandidatesComplete | backend/app/search/utils.py:232-252 | Each question/answer pair of each merged row becomes a candidate. |
| HybridSearch.PrecisionCandidatesEmpty | backend/app/search/utils.py:232-252 | The candidate list is empty exactly when no merged row has a question/answer pair. |
| HybridSearch.ResolveIndex | backend/app/search/utils.py:167-169 | Python list indexing: a negative index counts from the end, and any other index outside the list is an IndexError. |
| HybridSearch.CollectMatches | backend/app/search/utils.py:164-180 | Collection succeeds exactly when every reranker index resolves. The k-th entry becomes the match of rank k+1, taking its row, page and chunk from the candidate at that index. |
| HybridSearch.CollectMatchesFailure | backend/app/search/utils.py:166-169 | A failed collection reports the first entry whose index is outside the candidates. |
| HybridSearch.MaxBy | backend/app/search/utils.py:186-195 | The best score is a score of one of the matches and is at least every match's score. |
| HybridSearch.GroupMatchesSpec | backend/app/search/utils.py:182-195 | Grouping makes one group per row id, in order of first appearance. Each group holds exactly that id's matches in order, with the maximum of their scores as best score. |
| HybridSearch.GroupSortIsIdentity | backend/app/search/utils.py:209-210 | Because ranks count positions from 1, sorting a group's matches by rank leaves them in their collected order. |
| HybridSearch.MatchesOfRanks | backend/app/search/utils.py:178-210 | An id's matches have strictly increasing ranks, and each is the match at its rank's position in the reranker's answer. |
| HybridSearch.RankedResultAt | backend/app/search/utils.py:197-228 | The i-th result is built from the i-th group after the descending best-score sort. Its top score is that group's best score. |
| HybridSearch.RankedTies | backend/app/search/utils.py:198-202 | Groups with equal best scores keep the order in which their row ids first appeared, because the sort is stable. |
| HybridSearch.RankedComplete | backend/app/search/utils.py:183-228 | Every collected match appears in the result of its row id. Nothing is dropped. |
| HybridSearch.RankedHold | backend/app/search/utils.py:204-228 | Each result shows exactly its id's matches, in ascending rank, with the metadata of the id's first match. No result is empty. |
| HybridSearch.RankedDistinct | backend/app/search/utils.py:183-228 | No two results share a row id, so no match is shown twice. |
| HybridSearch.RankedOrder | backend/app/search/utils.py:197-202 | Results stand in non-increasing best-score order. On equal scores, the result whose first match ranks higher comes first. |
| HybridSearch.RankResultsSpec | backend/app/search/utils.py:182-230 | The whole grouping and ordering stage meets the result contract (`RankedFrom`) with respect to the collected matches. |
| HybridSearch.SearchSpec | backend/app/search/utils.py:102-338 | The reranker is skipped, giving [], exactly when precision mode finds no pair. Otherwise it sees one text per candidate. The search fails with the reranker's exception text exactly when the reranker raises. It fails with an IndexError exactly when the reranker answers and one of its indices is out of range. A successful search's results meet `RankedFrom`. |
| HybridSearch.SearchSkips | backend/app/search/utils.py:232-252 | The reranker is skipped, giving [], exactly when precision mode finds no question/answer pair. When it is called, it sees one text per candidate, in candidate order. |
| HybridSearch.SearchFails | backend/app/search/utils.py:156-180 | An exception from the reranker is re-raised with its text, and an index outside the candidates raises an IndexError. Each happens exactly in its case. |
| HybridSearch.SearchSucceeds | backend/app/search/utils.py:156-230 | A search that called the reranker and succeeded had a full answer whose every index resolved. Its results meet `RankedFrom` for the matches collected from that answer. |
| HybridSearch.RegularSearchResults | backend/app/search/utils.py:140-230 | Definition in lemma form: a successful regular-mode search's results are `RankResults` of the collected matches. What they mean is stated by `RankResultsSpec` and `RegularSingleMatches`. |
| HybridSearch.RegularSingleMatches | backend/app/search/utils.py:140-230 | In regular mode, when the reranker names each candidate at most once, every result holds exactly one match and ranks are not renumbered. |
| HybridSearch.ResultsAsWrittenFail | backend/app/search/utils.py:207-228 | With the conversion as written, building the results fails with the validation error exactly when there is at least one group. |
| HybridSearch.AsWrittenLosesResults | backend/app/search/utils.py:140-228 | The search as written raises the validation error exactly where the corrected search returns results. Where the corrected search has no result or fails earlier, both agree. |
| HybridSearch.ResultsWithIntended | backend/app/search/utils.py:207-228 | With a conversion that accepts every row, the results loop builds one result per group, from that group, in order. |
| HybridSearch.IntendedIsRankResults | backend/app/search/utils.py:197-228 | The corrected search is the same loop over the best-score-sorted groups, with the conversion taking the row's own fields. |
| StableSort.SortBySorted | backend/app/search/utils.py:198-202 | Python's `sorted` with a key returns its input ordered by the key, ascending or with `reverse=True` descending. |
| StableSort.SortByStable | backend/app/search/utils.py:198-202 | The sort is stable: elements with equal keys keep their input order. |
| StableSort.SortByDistinct | backend/app/search/utils.py:198-202 | Sorting neither duplicates nor loses elements: an injective tag stays injective. |
| StableSort.SortBySortedInput | backend/app/search/utils.py:210 | Sorting an already ordered list returns it unchanged. |
| StableSort.SortByTies | backend/app/search/utils.py:198-202 | Two sorted elements with equal keys come from input positions in the same order. |
| Strings.SplitJoin | backend/app/search/pdf_highlight_utils.py:261 | `str.split` undoes `str.join` for pieces free of the one-character separator. |
| Strings.Strip | backend/app/search/routers.py:30 | `str.strip()` returns a string that neither starts nor ends with whitespace. It is a slice of its argument, and everything removed before and after that slice is whitespace. |
| Strings.StripByShape | backend/app/search/routers.py:30 | `str.strip(chars)` removes only a run of the given characters at each end. |
| Strings.StripContained | backend/app/search/routers.py:30 | `str.strip()` returns a substring of its argument. |
| Strings.StripIdempotent | backend/app/search/routers.py:30 | Stripping twice is the same as stripping once. |
| Strings.StripEmpty | backend/app/search/routers.py:30-33 | A string strips to "" exactly when every character is whitespace. |
| Strings.Lower | backend/app/search/openai_utils.py:159-166 | Definition: ASCII `lower()`, character by character, keeping the length. Its meaning for the fallback is carried by `Keyphrase.Spelling` and `Keyphrase.FoundWordsLowered`. |
| Strings.Words | backend/app/search/openai_utils.py:159 | `str.split()` yields non-empty words that hold no whitespace. |
| Strings.WordsCover | backend/app/search/openai_utils.py:159 | `str.split()` loses only whitespace: its words, run together, are the argument's non-whitespace characters in order. |
| Strings.WordsEmpty | backend/app/search/openai_utils.py:181 | `str.split()` gives [] exactly when the argument is all whitespace. |
| Strings.WordsOfJoin | backend/app/search/openai_utils.py:181 | Splitting the single-space join of non-empty words without whitespace gives those words back. |
| StableSort.SortBy | backend/app/search/utils.py:198-202 | `sorted` returns a permutation of its input. |
| Keyphrase.Explanation | backend/app/search/openai_utils.py:47-51 | A provider failure gives "Unable to generate explanation.". Otherwise the explanation is a substring of the reply with no surrounding whitespace. |
| Keyphrase.RawTextSpec | backend/app/search/openai_utils.py:72-91 | Without "METADATA:" and "RAW TEXT:" markers, or with an empty RAW TEXT section, the raw text is the whole chunk. Otherwise it is the stripped segment after the first "RAW TEXT:" up to any second one. It is always a substring of the chunk. |
| Keyphrase.ContextSpec | backend/app/search/openai_utils.py:77-88 | The context is the stripped text after the first "CONTEXT:", cut at the next "CONTEXT:" and then at "RAW TEXT:". It is empty without markers. |
| Keyphrase.StripAll | backend/app/search/openai_utils.py:137 | Each comma-separated keyword of the reply is stripped, in order. |
| Keyphrase.ValidKeywords | backend/app/search/openai_utils.py:139-146 | A keyword is kept exactly when it is non-empty, a literal substring of the raw text, and at least 3 characters once stripped. |
| Keyphrase.ValidKeywordsAppend | backend/app/search/openai_utils.py:139-146 | A further reply keyword is appended to the validated list when it passes and changes nothing otherwise. With `ValidKeywordsNone`, this fixes the list completely: the kept keywords stand in reply order, repeats included. |
| Sequences.FilterAppend | backend/app/search/openai_utils.py:139-146 | A list comprehension with a condition distributes over concatenation. |
| Keyphrase.ValidKeywordsAllPass | backend/app/search/openai_utils.py:139-146 | When every keyword passes, the validated list is the reply's list unchanged, in reply order. |
| Keyphrase.KeyphraseOnNoMatch | backend/app/search/openai_utils.py:131-193 | A "NO_MATCH_FOUND" reply or a provider failure returns the first min(30, \|raw text\|) characters of the raw text. |
| Keyphrase.FromReplyKeywords | backend/app/search/openai_utils.py:137-154 | With at least one valid keyword, the result is the valid keywords joined with ",". Each is at least 3 characters, a substring of the raw text, free of "," and already stripped. |
| Keyphrase.LongLoweredSpec | backend/app/search/openai_utils.py:159-162 | The query words are exactly the lowered query words longer than 3 characters. |
| Keyphrase.Spelling | backend/app/search/openai_utils.py:165-170 | The word taken from the raw text is the raw text's slice at the first case-insensitive occurrence of the query word, and it lowers to that word. |
| Keyphrase.FoundWords | backend/app/search/openai_utils.py:163-172 | Each word found by the query fallback is a literal substring of the raw text. |
| Keyphrase.FoundWordsLowered | backend/app/search/openai_utils.py:163-172 | Each found word lowers to one of the query words searched for. |
| Keyphrase.FallbackFromQuery | backend/app/search/openai_utils.py:159-175 | When query words are found, the result is their join with ",". Each is a substring of the raw text, longer than 3 characters, and lowers to a query word. |
| Keyphrase.SentenceCandidates | backend/app/search/openai_utils.py:180-184 | First-sentence words are longer than 3 characters and not in the stop list. |
| Keyphrase.SentenceWordsSpec | backend/app/search/openai_utils.py:178-184 | First-sentence words exist only when a "." occurs at an index from 6 to 99 within the first 100 characters, and each is a substring of the raw text. |
| Keyphrase.SentenceChoiceSpec | backend/app/search/openai_utils.py:178-189 | The sentence fallback returns at most 5 of those words joined with ",". Failing that, it returns the stripped first 30 characters. |
| Keyphrase.FallbackFromSentence | backend/app/search/openai_utils.py:159-189 | Only when no query word is found does the sentence fallback apply. |
| Keyphrase.Head | backend/app/search/openai_utils.py:133 | Definition: `raw[:30]`, the prefix of length min(30, \|raw text\|). Where it is returned is stated by `KeyphraseOnNoMatch` and `SentenceChoiceSpec`. |
| Keyphrase.KeyphrasePiecesInText | backend/app/search/openai_utils.py:54-193 | Whatever branch is taken, every comma-separated piece of the keyphrase is a literal substring of the raw text. |
| PdfHighlight.CacheKeySpec | backend/app/search/pdf_highlight_utils.py:50-57 | With page keywords, the key depends only on the URL and the sorted-key serialisation, and the search term is ignored. Without them, the key is url + "_" + term. |
| PdfHighlight.TermKeysCanCollide | backend/app/search/pdf_highlight_utils.py:56-57 | Two different (url, term) requests can share a cache key, because "_" may occur on either side. |
| PdfHighlight.PathJoin | backend/app/search/pdf_highlight_utils.py:60 | The highlighted path ends with the file name. |
| PdfHighlight.PublicUrl | backend/app/search/pdf_highlight_utils.py:64-97 | The URL is "/highlighted_pdfs/<name>" without a prefix, and "<prefix>/<name>" with a non-empty one. |
| PdfHighlight.HitsOf | backend/app/search/pdf_highlight_utils.py:198-203 | One annotation per hit of a term on a page, and nothing else. |
| PdfHighlight.PageAnnotations | backend/app/search/pdf_highlight_utils.py:194-204 | A page's annotations are exactly the hits of its terms of at least 2 characters. |
| PdfHighlight.AllPagesFrom | backend/app/search/pdf_highlight_utils.py:278-291 | In search-term mode, an annotation exists exactly for each hit of each term of at least 2 characters on each page, in page order. |
| PdfHighlight.PageIndex | backend/app/search/pdf_highlight_utils.py:181-188 | A key selects a page exactly when `int()` accepts it and its value lies in 1..page count. The page is that value minus 1. Other keys are skipped. |
| PdfHighlight.PagePlanSound | backend/app/search/pdf_highlight_utils.py:178-204 | Every page-specific annotation is on an existing page, for a term of at least 2 characters, and is a real hit. |
| PdfHighlight.PagePlanSpec | backend/app/search/pdf_highlight_utils.py:178-230 | An annotation is planned exactly when some entry's key selects its page and lists its term, the term has at least 2 characters, and the hit exists. |
| PdfHighlight.SkippedKeyAddsNothing | backend/app/search/pdf_highlight_utils.py:181-230 | An out-of-range or non-integer key adds no annotation and raises no error. |
| PdfHighlight.TermsList | backend/app/search/pdf_highlight_utils.py:259-268 | A term containing "," is split on "," and each piece stripped. Otherwise it is used whole. |
| PdfHighlight.TermsOfJoin | backend/app/search/pdf_highlight_utils.py:259-268 | Splitting a ","-join of stripped, comma-free terms gives back exactly those terms. |
| PdfHighlight.TermsOfValidKeyphrase | backend/app/search/pdf_highlight_utils.py:259-268 | Splitting a validated keyphrase recovers exactly its keywords, and none is filtered out as too short. |
| PdfHighlight.KeyphraseTermsInText | backend/app/search/pdf_highlight_utils.py:259-268 | Every highlight term split from any extracted keyphrase is a substring of the chunk's raw text. |
| PdfHighlight.CacheHitSpec | backend/app/search/pdf_highlight_utils.py:59-97 | A successful call returns the URL of the cache file. When the file exists, it returns at once, without a render and whatever the download would do. |
| PdfHighlight.FailureIs500 | backend/app/search/pdf_highlight_utils.py:98-102 | Every failure, including an HTTPException from a bad download status, surfaces as HTTP 500 "Failed to create highlighted PDF: ...". |
| PdfHighlight.RenderWritesOutput | backend/app/search/pdf_highlight_utils.py:139-148 | On a cache miss with a readable download, the output file is written even when it has no annotations. Page-specific mode is chosen exactly when page keywords are present. |
| SearchRouter.BlankQueryRejected | backend/app/search/routers.py:30-33 | A query that is empty after stripping gets HTTP 400 "Query cannot be empty." before any search, and only such a query gets it. Every error is a 400 or a 500. |
| SearchRouter.ResponseSpec | backend/app/search/routers.py:35-46 | A response echoes the unstripped query and carries the search's results unchanged. Its message is "No matching documents found." exactly when they are empty, and "Search completed successfully." otherwise. |
| SearchRouter.PrecisionIgnored | backend/app/search/routers.py:35 | The request's precision flag has no effect, because it is never forwarded. |
| SearchRouter.OneMatchPerResult | backend/app/search/routers.py:35-46 | Through the endpoint, each result holds one match when the reranker's answer names each candidate at most once. |
| SearchRouter.RespondStatus | backend/app/search/routers.py:47-52 | A search that raises is answered with HTTP 500, and only such a search. The detail is the reranker's exception text, "list index out of range" for a bad index, or the validation error's text. |
| SearchRouter.AsWrittenNeverFinds | backend/app/search/routers.py:35-52 | With the metadata conversion as written, the endpoint never answers with results: where the corrected endpoint has results, it answers 500 with the validation error, and otherwise it agrees with the corrected one. |
| SearchRouter.RespondResults | backend/app/search/routers.py:37-46 | A successful response carries exactly the results of a successful search. |
| FileProcessing.ParseFile | backend/app/ingestion/utils/file_processing_utils.py:32-34 | A non-PDF type yields no chunks. |
| FileProcessing.ParseFileFails | backend/app/ingestion/utils/file_processing_utils.py:21-31 | Parsing a PDF raises exactly when no page has non-whitespace text. |
| FileProcessing.ParseFileChunks | backend/app/ingestion/utils/file_processing_utils.py:21-29 | The chunks are the stripped texts of exactly the pages with non-whitespace text, in page order. |
| FileProcessing.ParseFileStripped | backend/app/ingestion/utils/file_processing_utils.py:28-29 | Every chunk is non-empty with no surrounding whitespace. |
| FileProcessing.Truncate | backend/app/ingestion/utils/file_processing_utils.py:102-108 | Definition: a fitting document is passed on untouched, a longer one is replaced by the decoding of its first `available` tokens. Its meaning is stated by `TruncateFits` and `TruncateIdempotent`. |
| FileProcessing.TruncateFits | backend/app/ingestion/utils/file_processing_utils.py:102-108 | Under the re-encoding assumption in "Left out", the text handed on encodes to at most `available` tokens. |
| FileProcessing.TruncateIdempotent | backend/app/ingestion/utils/file_processing_utils.py:102-108 | Under the same assumption, cutting an already cut document to the same budget changes nothing. |
| FileProcessing.PageStep | backend/app/ingestion/utils/file_processing_utils.py:87-133 | A page kept from chunk i is numbered i+1, counting chunks and not physical pages. |
| FileProcessing.ProcessedPageSpec | backend/app/ingestion/utils/file_processing_utils.py:87-137 | Page numbers strictly increase and lie within 1..number of chunks. Each page's contextualized chunk is context + "\n\n" + text with a non-empty context and a positive budget, and its embedding is the embedder's answer. |
| FileProcessing.PageKeptIff | backend/app/ingestion/utils/file_processing_utils.py:95-129 | A chunk yields a page exactly when its budget is positive, its context is non-empty, and its embedding exists. A skipped page does not stop the others. |
| FileProcessing.ContextBudget | backend/app/ingestion/utils/file_processing_utils.py:92-111 | The summariser sees the whole joined document when it fits the page's available tokens. Otherwise it sees the decoding of the first available tokens. |
| FileProcessing.ContextFits | backend/app/ingestion/utils/file_processing_utils.py:98-111 | Under the re-encoding assumption, the document the summariser receives for a page fits in that page's available tokens. |
| FileProcessing.NothingToProcess | backend/app/ingestion/utils/file_processing_utils.py:45-52 | A missing buffer or a non-PDF file gives no pages. |
| FileProcessing.ListText | backend/app/ingestion/utils/file_processing_utils.py:156-160 | A missing or empty list shows its "unknown ..." fallback. |
| FileProcessing.ListTextJoins | backend/app/ingestion/utils/file_processing_utils.py:156-160 | A list with a non-empty entry shows the ", "-join of its entries. |
| FileProcessing.MetadataStringLayout | backend/app/ingestion/utils/file_processing_utils.py:155-170 | The metadata string is the f-string's pieces laid end to end in order: the fixed texts, and between them the year, countries, regions, organizations, date, notes and drive link, or their defaults. Nothing else is in the string: its length is the pieces' total, and each piece starts right after the ones before it. |
| FileProcessing.MetadataStringMentions | backend/app/ingestion/utils/file_processing_utils.py:155-170 | The metadata string mentions the year, countries, regions, organizations, date, notes and drive link, or their defaults. |
| DocumentStore.AnswerText | backend/app/ingestion/models.py:173-181 | A single answer is wrapped and stored as is, and a list is stored as its ", "-join. A missing answers key gives the empty answer, and a non-string answer makes the pair fail. A missing question becomes "", and a question present as `None` stays `None` without failing the pair. |
| DocumentStore.NullQuestionRollsBack | backend/app/ingestion/models.py:183-201 | A page with a buildable pair whose question is `None` is never saved, whatever the database would do otherwise: the NOT NULL question column fails the commit and the page is rolled back. |
| DocumentStore.PairsSpec | backend/app/ingestion/models.py:163-190 | A non-list field yields no pairs. In a list, the pairs that fail are dropped and the others are kept in order. |
| DocumentStore.BadDateAborts | backend/app/ingestion/models.py:120-134 | The save aborts before any page exactly when a non-empty "Date added" is not a YYYY-MM-DD date. |
| DocumentStore.RowsShareMetadata | backend/app/ingestion/models.py:126-160 | Every saved row carries the same document-level fields, taken from the metadata and the call. The document id comes from "ID", and changing the `document_id` argument changes nothing. |
| DocumentStore.MissingIdRollsBack | backend/app/ingestion/models.py:131-201 | A page of a document whose metadata has no "ID" is never saved, whatever the database would do otherwise: the NOT NULL `document_id` column fails the commit and the page is rolled back. |
| DocumentStore.MissingIdSavesNothing | backend/app/ingestion/models.py:119-203 | A document whose metadata has no "ID" saves no row: the save either aborts on its date or commits nothing. |
| DocumentStore.SavedPagesSpec | backend/app/ingestion/models.py:137-203 | The rows saved are exactly those of the pages whose row builds, whose document id and questions are all present, and whose commit succeeds, in page order. A failing page is rolled back and later pages are still attempted. |
| DocumentStore.SaveAllSpec | backend/app/ingestion/models.py:207-254 | The returned documents are exactly those whose save succeeded, in input order. |
| Dates.ParseIsoDate | backend/app/ingestion/models.py:121-124 | An accepted "Date added" is a real calendar date. |
| Dates.ParseFormatDate | backend/app/ingestion/models.py:121-124 | Every valid date written as YYYY-MM-DD is read back as itself. |
| Dates.ParsePadded | backend/app/ingestion/models.py:121-124 | A zero-padded YYYY-MM-DD text with year 1..9999, month 1..12 and day 1..31 is read field by field. Only the calendar check decides whether it is accepted. |
| Dates.RejectsDayPastMonthEnd | backend/app/ingestion/models.py:121-124 | Every well-shaped date whose day lies past the end of its month, such as 2024-02-30 or 2023-04-31, is rejected. |
| Numerals.ParseFormat | backend/app/search/pdf_highlight_utils.py:181 | `int()` reads back every integer written by `str()`. |
| Numerals.ParseNeedsDigit | backend/app/search/pdf_highlight_utils.py:181-230 | A key without a digit is not an integer, so its page is skipped. |
| DriveLinks.IdQuerySpec | backend/app/ingestion/utils/google_drive_utils.py:30-31 | The "id=" branch gives the text after the first "id=", cut at the next "&" or next "id=". The id holds neither and may be empty. |
| DriveLinks.LenientFileId | backend/app/ingestion/utils/google_drive_utils.py:29-43 | Every lenient failure carries the one message "Invalid Google Drive URL format.". |
| DriveLinks.LenientPathSpec | backend/app/ingestion/utils/google_drive_utils.py:33-43 | Without "id=", the id is the segment after the first "d" segment, and it holds no "/". The URL is refused exactly when there is no "d" segment or it is the last one. |
| DriveLinks.StrictFileId | backend/app/ingestion/fetch_utils/google_drive_utils.py:37-67 | A returned id is never empty. |
| DriveLinks.StrictPathErrors | backend/app/ingestion/fetch_utils/google_drive_utils.py:48-67 | After stripping "/", a URL with no "d" segment is refused as unrecognised, and one whose "d" is the last segment as incomplete. |
| DriveLinks.StrictPathSegment | backend/app/ingestion/fetch_utils/google_drive_utils.py:48-58 | The strict path branch accepts exactly a non-empty segment after the first "d" of the stripped URL. |
| DriveLinks.StrictRefinesLenient | backend/app/ingestion/fetch_utils/google_drive_utils.py:37-67 | The strict variant accepts exactly the URLs for which the lenient one returns a non-empty id, and then returns the same id. A trailing slash never yields an empty id. |
| DriveLinks.ExtensionShape | backend/app/ingestion/utils/google_drive_utils.py:50 | The extension `os.path.splitext` finds is empty, or a final slice of the name that starts with its only "." and holds no "/". |
| DriveLinks.FileType | backend/app/ingestion/utils/google_drive_utils.py:46-56 | The type is one of "pdf", "xlsx" and "other". |
| DriveLinks.FileTypeIgnoresCase | backend/app/ingestion/fetch_utils/google_drive_utils.py:74-80 | The mapping ignores letter case. |
| DriveLinks.FileTypeSound | backend/app/ingestion/utils/google_drive_utils.py:50-56 | "pdf" means the name ends in ".pdf" in any case, and "xlsx" that it ends in ".xlsx". |
| DriveLinks.FileTypeComplete | backend/app/ingestion/fetch_utils/google_drive_utils.py:74-80 | A name ending in ".pdf" or ".xlsx" in any case, after a character of its own that is neither "." nor "/", gets that type. |
| Airtable.RecordMap | backend/app/ingestion/utils/airtable_utils.py:36-44 | Each map value is a fields dict whose "File Name" is its non-empty key. |
| Airtable.RecordMapSpec | backend/app/ingestion/utils/airtable_utils.py:37-43 | A name is a key exactly when some record carries it as a truthy "File Name". Its value is the fields of the last such record, so later records overwrite earlier ones. |
| Airtable.FailuresGiveEmptyMap | backend/app/ingestion/utils/airtable_utils.py:20-48 | A missing or empty configuration, a missing base id or table name, or a failing fetch gives {}. |

## Findings

| source | as written | input that shows it | evidently intended | confidence | as-written member | corrected member |
|---|---|---|---|---|---|---|
| backend/app/search/utils.py:222 | `DocumentMetadata.from_orm(doc)` validates a stored row against a schema that requires `file_id` (backend/app/search/schemas.py:20). `DocumentDB` has no such column, so validation fails, `hybrid_search` re-raises, and the endpoint answers 500. | Any non-blank query whose search collects at least one match, in either mode. | The result carries the row's id, file name, title, summary and PDF URL, and the endpoint answers "Search completed successfully." | not executed; follows from the schema and the table definition | SearchRouter.AsWrittenNeverFinds | SearchRouter.ResponseSpec |

## Left out

- **External services** are oracles. This covers embedding, reranking, chat completion, summarisation, tiktoken, PyPDF2 extraction, PyMuPDF search, annotation and saving, md5, `json.dumps`, the HTTP download, file existence, the database and Airtable. Only their use is modelled.
- **The SQL queries** `perform_semantic_search` and `perform_keyword_search` are left out. Their results are inputs in result order.
- **Concurrency** is left out. This covers the `processing_pdfs` task map (pdf_highlight_utils.py:26, 72-87), the semaphore fan-out of the embedding and storage utilities, and async scheduling. The code awaits an in-flight render and then renders again, so it is not single-flight; the model has no second caller to show this.
- **Temporary files** are left out: the download's temporary file and its removal (pdf_highlight_utils.py:150-153).
- **The printed text formats** are left out. This covers the prompt texts, log messages and the exact text of exceptions from services.
- **Pydantic and ORM validation** is not modelled in general. Its one effect on the search, that `DocumentMetadata.from_orm` rejects every row for lacking `file_id`, is modelled by `HybridSearch.MetadataAsWritten` (see "## Findings"). The rest of the model converts a row to its metadata fields, as the code evidently intends.
- **Timestamps** are left out: `created_datetime_utc` and `updated_datetime_utc` come from the clock.
- **Stale orchestration and unrelated code** are not part of this model. This covers `record_processing.py`, `ingestion/routers.py`, the auth, users, contributions and feedback packages, migrations, config and static file serving. These call signatures no longer match their callees, or the code lies outside retrieval.
- **The LLM wrappers** in `ingestion/utils/openai_utils.py` and `ingestion/process_utils/openai_utils.py` are not part of this model. They are thin LLM wrappers.
- **Strings.Lower** lowers ASCII letters only. Python's `lower()` also maps other letters, and it can change a string's length, for example "İ". The keyphrase query fallback slices the raw text at the position found in the lowered text, so with such letters its spelling can be off. The model does not cover this.
- **Numerals.ParseInt** accepts ASCII digits with single underscores between them, an optional sign and surrounding whitespace. Python's `int()` also accepts non-ASCII decimal digits, and the model does not.
- **Dates.ParseIsoDate** reads only ASCII digits. The `\d` in the patterns `strptime` builds also matches other Unicode decimal digits.
- **FileProcessing.TruncateFits**, **FileProcessing.TruncateIdempotent** and **FileProcessing.ContextFits** assume that decoding tokens and encoding the text again never gives more tokens. tiktoken does not promise this: a cut inside a multibyte character can decode to a replacement character that encodes to more tokens. Without the assumption the model does not bound the summariser's input.
- **Page-keyword keys** are modelled as strings, as they arrive from JSON. A `None` `page_keywords` is treated like an empty dict.
- **PdfHighlight.Describe** renders a bad download status the way Starlette's `HTTPException` prints ("<status>: <detail>"). That library is not part of this model.
- **DocumentStore.SharedFields** treats an Airtable field present with the value `None` like a missing one. In the code such a value replaces the default and is stored as null.
- **Airtable record values** are modelled as strings. A non-string "File Name" is not modelled.
- **The Airtable API-key check** at import time (airtable_utils.py:11-13) raises when the module loads and is left out.
- **HybridSearch.SearchSpec**, **SearchRouter.ResponseSpec**, **SearchRouter.RespondResults** and the other search lemmas describe the search with the metadata conversion corrected. With the code as written, every search that finds anything ends in a 500, as `AsWrittenNeverFinds` states. The exact text of pydantic's validation error is not modelled.
- **HybridSearch.RerankHit**, **HybridSearch.Match**, **HybridSearch.Group** and **HybridSearch.Matched** hold Cohere's `relevance_score` as a `real`. This is exact for every finite float, because the code only compares and sorts scores. A NaN score is not modelled. Every comparison with NaN is false, so a NaN would never be replaced as a best score, and the sort could leave groups out of order.
- **HybridSearch.RankedOrder** and **HybridSearch.GroupMatchesSpec** are proved with scores as `real`, so they say nothing about a reranker answer that holds a NaN score.
- **Column lengths** are not modelled. `file_name` and `title` are `String(150)` columns (models.py:72-73), so the database can refuse a longer value at commit. The model leaves that to the commit function.
- **DocumentStore.PairOf** takes a question to be missing, `None` or a string. A question of another type is not modelled.
- **HybridSearch.RegularSingleMatches** assumes the reranker names each candidate at most once, as Cohere does. An answer that repeats an index would put two matches in one result.
- **`download_file`** and `get_drive_service` in both Drive utilities are left out. They are Drive I/O.

=== FILE: airtable.dfy ===
/** `get_airtable_records`: the configuration checks and the loop that keys
    each record's fields by its "File Name". The Airtable API is the `fetch`
    oracle; field values are modelled as strings. */
module Airtable {
  import opened Wrappers

  const FileNameField: string := "File Name"
  const BaseIdKey: string := "AIRTABLE_BASE_ID"
  const TableNameKey: string := "TABLE_NAME"

  type Fields = map<string, string>

  /** A record's "fields" dict; a missing one is the empty dict. */
  datatype AirtableRecord = AirtableRecord(id: Option<string>, fields: Fields)

  /** The rows of a table, or the error the API raised. */
  type Fetch = (string, string) -> Result<seq<AirtableRecord>, string>

  /** Whether `fields` has a truthy "File Name" equal to `name`. */
  predicate NamedAs(fields: Fields, name: string)
  {
    FileNameField in fields && fields[FileNameField] == name && name != ""
  }

  /** The loop over `records`, in order: a record with a truthy "File Name"
      sets that entry to its fields, overwriting any earlier one. */
  function RecordMap(records: seq<AirtableRecord>): (r: map<string, Fields>)
    ensures forall k :: k in r ==> NamedAs(r[k], k)
    decreases |records|
  {
    if |records| == 0 then map[]
    else
      var m := RecordMap(records[..|records| - 1]);
      var f := records[|records| - 1].fields;
      if FileNameField in f && f[FileNameField] != "" then m[f[FileNameField] := f] else m
  }

  /** A value found in the configuration, counting an empty one as missing. */
  function Setting(config: map<string, string>, key: string): Option<string>
  {
    if key in config && config[key] != "" then Some(config[key]) else None
  }

  /** The whole function: `{}` when the "default" configuration is missing or
      empty, when it lacks a base id or table name, or when fetching fails;
      otherwise the record map. */
  function AirtableRecords(defaultConfig: Option<map<string, string>>, fetch: Fetch): map<string, Fields>
  {
    if defaultConfig.None? || |defaultConfig.value| == 0 then map[]
    else
      var base := Setting(defaultConfig.value, BaseIdKey);
      var table := Setting(defaultConfig.value, TableNameKey);
      if base.None? || table.None? then map[]
      else
        match fetch(base.value, table.value)
        case Failure(_) => map[]
        case Success(records) => RecordMap(records)
  }

  /** The position of the last record carrying `name`, or -1. */
  function LastNamed(records: seq<AirtableRecord>, name: string): (r: int)
    ensures -1 <= r < |records|
    ensures r >= 0 ==> NamedAs(records[r].fields, name)
    ensures forall j :: r < j < |records| ==> !NamedAs(records[j].fields, name)
    decreases |records|
  {
    if |records| == 0 then -1
    else if NamedAs(records[|records| - 1].fields, name) then |records| - 1
    else
      var init := records[..|records| - 1];
      assert forall j :: 0 <= j < |init| ==> init[j] == records[j];
      LastNamed(init, name)
  }

  /** A name is a key exactly when some record carries it, and its value is
      the fields of the last record that does. */
  lemma {:induction false} RecordMapSpec(records: seq<AirtableRecord>, name: string)
    ensures var i := LastNamed(records, name);
            && (name in RecordMap(records) <==> i >= 0)
            && (i >= 0 ==> RecordMap(records)[name] == records[i].fields)
    decreases |records|
  {
    if |records| > 0 {
      var n := |records| - 1;
      var init := records[..n];
      RecordMapSpec(init, name);
      var i := LastNamed(init, name);
      if !NamedAs(records[n].fields, name) && i >= 0 {
        assert init[i] == records[i];
      }
    }
  }

  /** Any failure before the loop gives the empty map. */
  lemma FailuresGiveEmptyMap(defaultConfig: Option<map<string, string>>, fetch: Fetch)
    ensures defaultConfig.None? || |defaultConfig.value| == 0 ==> AirtableRecords(defaultConfig, fetch) == map[]
    ensures (defaultConfig.Some? && (Setting(defaultConfig.value, BaseIdKey).None? || Setting(defaultConfig.value, TableNameKey).None?))
            ==> AirtableRecords(defaultConfig, fetch) == map[]
    ensures (defaultConfig.Some? && Setting(defaultConfig.value, BaseIdKey).Some? && Setting(defaultConfig.value, TableNameKey).Some?
             && fetch(defaultConfig.value[BaseIdKey], defaultConfig.value[TableNameKey]).Failure?)
            ==> AirtableRecords(defaultConfig, fetch) == map[]
  {
  }
}

=== FILE: dates.dfy ===
/** `datetime.strptime(text, "%Y-%m-%d")`: the regular expressions Python's
    `_strptime` builds for the three directives, the "unconverted data
    remains" check, and the calendar check of the `datetime` constructor. */
module Dates {
  import opened Wrappers
  import opened Numerals

  datatype Date = Date(year: int, month: int, day: int)

  predicate IsLeap(y: int) {
    y % 4 == 0 && (y % 100 != 0 || y % 400 == 0)
  }

  function DaysInMonth(y: int, m: int): (n: int)
    requires 1 <= m <= 12
    ensures 28 <= n <= 31
  {
    if m == 2 then (if IsLeap(y) then 29 else 28)
    else if m == 4 || m == 6 || m == 9 || m == 11 then 30
    else 31
  }

  /** What the `datetime` constructor accepts. */
  predicate ValidDate(d: Date) {
    1 <= d.year <= 9999 && 1 <= d.month <= 12 && 1 <= d.day <= DaysInMonth(d.year, d.month)
  }

  /** `%m` followed by the literal `-`: the alternatives `1[0-2]`, `0[1-9]`
      and `[1-9]` in that order; yields the month and the characters consumed,
      the `-` included. */
  function MonthDash(s: string): Option<(int, nat)>
  {
    if |s| >= 3 && s[0] == '1' && '0' <= s[1] <= '2' && s[2] == '-' then
      Some((10 + DigitValue(s[1]), 3))
    else if |s| >= 3 && s[0] == '0' && '1' <= s[1] <= '9' && s[2] == '-' then
      Some((DigitValue(s[1]), 3))
    else if |s| >= 2 && '1' <= s[0] <= '9' && s[1] == '-' then
      Some((DigitValue(s[0]), 2))
    else None
  }

  /** `%d` at the end of the pattern: the first of `3[01]`, `[12]\d`,
      `0[1-9]`, `[1-9]` and ` [1-9]` that matches. */
  function DayToken(s: string): Option<(int, nat)>
  {
    if |s| >= 2 && s[0] == '3' && '0' <= s[1] <= '1' then Some((30 + DigitValue(s[1]), 2))
    else if |s| >= 2 && '1' <= s[0] <= '2' && IsDigit(s[1]) then
      Some((10 * DigitValue(s[0]) + DigitValue(s[1]), 2))
    else if |s| >= 2 && s[0] == '0' && '1' <= s[1] <= '9' then Some((DigitValue(s[1]), 2))
    else if |s| >= 1 && '1' <= s[0] <= '9' then Some((DigitValue(s[0]), 1))
    else if |s| >= 2 && s[0] == ' ' && '1' <= s[1] <= '9' then Some((DigitValue(s[1]), 2))
    else None
  }

  /** `datetime.strptime(text, "%Y-%m-%d")`; `None` where Python raises
      `ValueError`. Only ASCII digits are modelled. */
  function ParseIsoDate(text: string): (r: Option<Date>)
    ensures r.Some? ==> ValidDate(r.value)
  {
    if |text| < 5 || !AllDigits(text[..4]) || text[4] != '-' then None
    else
      var rest := text[5..];
      match MonthDash(rest)
      case None => None
      case Some((month, used)) =>
        match DayToken(rest[used..])
        case None => None
        case Some((day, dayLen)) =>
          var d := Date(BodyValue(text[..4]), month, day);
          if 5 + used + dayLen != |text| then None
          else if ValidDate(d) then Some(d)
          else None
  }

  /** The last `width` decimal digits of `n`, zero-padded. */
  function Padded(n: nat, width: nat): (s: string)
    ensures |s| == width && AllDigits(s)
    decreases width
  {
    if width == 0 then "" else Padded(n / 10, width - 1) + [DigitChar(n % 10)]
  }

  lemma {:induction false} PaddedValue(n: nat, width: nat)
    requires n < Pow10(width)
    ensures BodyValue(Padded(n, width)) == n
    decreases width
  {
    if width > 0 {
      var s := Padded(n, width);
      assert s[..|s| - 1] == Padded(n / 10, width - 1);
      PaddedValue(n / 10, width - 1);
    }
  }

  function Pow10(k: nat): nat
  {
    if k == 0 then 1 else 10 * Pow10(k - 1)
  }

  /** The `YYYY-MM-DD` text of a date. */
  function FormatIsoDate(d: Date): string
    requires ValidDate(d)
  {
    Padded(d.year, 4) + "-" + Padded(d.month, 2) + "-" + Padded(d.day, 2)
  }

  /** Parsing the `YYYY-MM-DD` text of a valid date gives the date back. */
  lemma ParseFormatDate(d: Date)
    requires ValidDate(d)
    ensures ParseIsoDate(FormatIsoDate(d)) == Some(d)
  {
    ParsePadded(d.year, d.month, d.day);
  }

  /** Zero-padded fields in range are all read back, and the calendar check
      alone decides the outcome. */
  lemma ParsePadded(year: nat, month: nat, day: nat)
    requires 1 <= year <= 9999 && 1 <= month <= 12 && 1 <= day <= 31
    ensures var text := Padded(year, 4) + "-" + Padded(month, 2) + "-" + Padded(day, 2);
      ParseIsoDate(text) == if ValidDate(Date(year, month, day)) then Some(Date(year, month, day)) else None
  {
    var y := Padded(year, 4);
    var m := Padded(month, 2);
    var dd := Padded(day, 2);
    var text := y + ("-" + (m + ("-" + dd)));
    assert text == y + "-" + m + "-" + dd;
    assert Pow10(4) == 10000;
    PaddedValue(year, 4);
    assert text[..4] == y;
    var rest := text[5..];
    assert rest == m + ("-" + dd);
    MonthDashOf(month, dd);
    DayTokenOf(day);
    assert rest[3..] == dd;
    ParseFields(text, month, day);
  }

  /** A text of ten characters whose fields are read whole parses to the
      date they spell, if the calendar allows it. */
  lemma ParseFields(text: string, month: int, day: int)
    requires |text| == 10 && AllDigits(text[..4]) && text[4] == '-'
    requires MonthDash(text[5..]) == Some((month, 3))
    requires DayToken(text[5..][3..]) == Some((day, 2))
    ensures var d := Date(BodyValue(text[..4]), month, day);
      ParseIsoDate(text) == if ValidDate(d) then Some(d) else None
  {
  }

  /** Two-digit padding writes the tens digit, then the units digit. */
  lemma PaddedTwo(n: nat)
    requires n < 100
    ensures Padded(n, 2) == [DigitChar(n / 10), DigitChar(n % 10)]
  {
    var t := n / 10;
    assert t < 10 && t % 10 == t && t / 10 == 0;
    assert Padded(t, 1) == [DigitChar(t)];
    assert Padded(n, 2) == Padded(t, 1) + [DigitChar(n % 10)];
  }

  /** A padded month followed by "-" is read back whole. */
  lemma MonthDashOf(month: nat, t: string)
    requires 1 <= month <= 12
    ensures MonthDash(Padded(month, 2) + ("-" + t)) == Some((month, 3))
  {
    PaddedTwo(month);
  }

  /** A padded day of the month is read back whole. */
  lemma DayTokenOf(day: nat)
    requires 1 <= day <= 31
    ensures DayToken(Padded(day, 2)) == Some((day, 2))
  {
    PaddedTwo(day);
  }

  /** A well-formed `YYYY-MM-DD` text whose day lies past the end of its
      month (the 30th of February, the 31st of April) is rejected. */
  lemma RejectsDayPastMonthEnd(year: nat, month: nat, day: nat)
    requires 1 <= year <= 9999 && 1 <= month <= 12
    requires DaysInMonth(year, month) < day <= 31
    ensures ParseIsoDate(Padded(year, 4) + "-" + Padded(month, 2) + "-" + Padded(day, 2)) == None
  {
    ParsePadded(year, month, day);
  }
}

=== FILE: document_store.dfy ===
/** `save_document_to_db`, `save_single_document` and `save_all_to_db`:
    turning processed pages into stored page rows with their question/answer
    pairs. The database is reduced to whether the commit of a page's row
    succeeds; timestamps are left out. */
module DocumentStore {
  import opened Wrappers
  import opened Strings
  import opened Dates
  import opened Sequences

  const AnswerSeparator: string := ", "

  /** The Airtable fields the save reads; `None` is a missing key. */
  datatype MetadataInput = MetadataInput(
    dateAdded: Option<string>,
    countries: Option<seq<string>>,
    organizations: Option<seq<string>>,
    regions: Option<seq<string>>,
    driveLink: Option<string>,
    year: Option<int>,
    id: Option<int>)

  /** The `answers` value of an extracted pair: a list, or a single value;
      an element that is not a string is `None`. */
  datatype Answers = AnswerList(items: seq<Option<string>>) | SingleAnswer(item: Option<string>)

  /** The `question` value of an extracted pair: the key missing, present
      as `None`, or a string. */
  datatype Question = NoQuestion | NullQuestion | QuestionText(text: string)

  /** One extracted pair: not a dict, or a dict with optional keys. */
  datatype QAItem = NotADict | QAEntry(question: Question, answers: Option<Answers>)

  /** `extracted_question_answers`: not a list, or a list of items. */
  datatype QAField = NotAList | QAItems(items: seq<QAItem>)

  /** One processed page; `None` is a missing key. */
  datatype PageInput = PageInput(
    pageNumber: Option<int>,
    contextualizedChunk: Option<string>,
    chunkSummary: Option<string>,
    embedding: Option<seq<real>>,
    extracted: Option<QAField>)

  /** A built `QAPairDB`; a `None` question is what the row would store as
      NULL. */
  datatype QAPair = QAPair(question: Option<string>, answer: string)

  /** The document-level values every page row shares. */
  datatype DocumentFields = DocumentFields(
    fileName: string,
    countries: seq<string>,
    organizations: seq<string>,
    regions: seq<string>,
    driveLink: string,
    year: Option<int>,
    dateAdded: Option<Date>,
    documentId: Option<int>,
    pdfUrl: string,
    summary: string,
    title: string)

  datatype PageRow = PageRow(
    shared: DocumentFields,
    pageNumber: int,
    contextualizedChunk: string,
    chunkSummary: string,
    embedding: seq<real>,
    qaPairs: seq<QAPair>)

  /** Whether the commit of the row built for page `idx` succeeds. */
  type Commit = (nat, PageRow) -> bool

  function ListOr(v: Option<seq<string>>): seq<string>
  {
    if v.Some? then v.value else []
  }

  /** The metadata block: `None` where `strptime` raises on a non-empty
      "Date added"; the argument `document_id` is replaced by the "ID" field. */
  function SharedFields(fileName: string, md: MetadataInput, pdfUrl: string, summary: string, title: string): Option<DocumentFields>
  {
    var date :=
      if md.dateAdded.Some? && md.dateAdded.value != "" then
        (match ParseIsoDate(md.dateAdded.value) case None => None case Some(d) => Some(Some(d)))
      else Some(None);
    match date
    case None => None
    case Some(dateAdded) =>
      Some(DocumentFields(fileName, ListOr(md.countries), ListOr(md.organizations), ListOr(md.regions),
                          if md.driveLink.Some? then md.driveLink.value else "", md.year, dateAdded, md.id,
                          pdfUrl, summary, title))
  }

  // ---------------------------------------------------------------------------
  // Question/answer pairs
  // ---------------------------------------------------------------------------

  function AllStrings(xs: seq<Option<string>>): bool
  {
    forall i :: 0 <= i < |xs| ==> xs[i].Some?
  }

  function Values(xs: seq<Option<string>>): (r: seq<string>)
    requires AllStrings(xs)
    ensures |r| == |xs| && forall i :: 0 <= i < |xs| ==> r[i] == xs[i].value
  {
    seq(|xs|, i requires 0 <= i < |xs| => xs[i].value)
  }

  /** One pair, or `None` where building it raises: the item is not a dict
      or an answer is not a string. A single answer is wrapped in a list;
      the answers are joined with ", ". */
  function PairOf(item: QAItem): Option<QAPair>
  {
    match item
    case NotADict => None
    case QAEntry(question, answers) =>
      var list := match answers
                  case None => []
                  case Some(AnswerList(items)) => items
                  case Some(SingleAnswer(x)) => [x];
      if AllStrings(list) then Some(QAPair(QuestionOf(question), Join(Values(list), AnswerSeparator)))
      else None
  }

  /** `qa_pair.get("question", "")`: "" for a missing key, `None` for a
      present `None`. */
  function QuestionOf(q: Question): Option<string>
  {
    match q
    case NoQuestion => Some("")
    case NullQuestion => None
    case QuestionText(text) => Some(text)
  }

  /** The pairs of a page: none unless the field is a list; within the list,
      the pairs that build, in order. */
  function PairsOf(field: Option<QAField>): seq<QAPair>
  {
    match field
    case Some(QAItems(items)) => Somes(seq(|items|, i requires 0 <= i < |items| => PairOf(items[i])))
    case _ => []
  }

  /** What the answer text is: a string answer is stored as is, a list of
      strings joined with ", ", a missing key as the empty answer. The
      question defaults to "" when missing and stays `None` when present as
      `None`; neither makes the pair fail. */
  lemma AnswerText(question: Question, answers: Option<Answers>)
    ensures answers.Some? && answers.value.SingleAnswer? && answers.value.item.Some? ==>
              PairOf(QAEntry(question, answers)) == Some(QAPair(QuestionOf(question), answers.value.item.value))
    ensures answers.None? ==> PairOf(QAEntry(question, answers)) == Some(QAPair(QuestionOf(question), ""))
    ensures answers.Some? && answers.value.AnswerList? && AllStrings(answers.value.items) ==>
              PairOf(QAEntry(question, answers)) == Some(QAPair(QuestionOf(question), Join(Values(answers.value.items), ", ")))
    ensures answers.Some? && answers.value.AnswerList? && !AllStrings(answers.value.items) ==>
              PairOf(QAEntry(question, answers)).None?
    ensures answers.Some? && answers.value.SingleAnswer? && answers.value.item.None? ==>
              PairOf(QAEntry(question, answers)).None?
    ensures question == NoQuestion && PairOf(QAEntry(question, answers)).Some? ==>
              PairOf(QAEntry(question, answers)).value.question == Some("")
    ensures question == NullQuestion && PairOf(QAEntry(question, answers)).Some? ==>
              PairOf(QAEntry(question, answers)).value.question.None?
  {
  }

  /** A non-list field gives no pairs; in a list, a pair that fails is
      dropped and the others are kept in order. */
  lemma PairsSpec(field: Option<QAField>)
    ensures field.None? || field.value.NotAList? ==> PairsOf(field) == []
    ensures field.Some? && field.value.QAItems? ==>
              var items := field.value.items;
              var built := seq(|items|, i requires 0 <= i < |items| => PairOf(items[i]));
              var idx := SomeIndices(built, 0);
              && |PairsOf(field)| == |idx|
              && (forall k :: 0 <= k < |idx| ==> Some(PairsOf(field)[k]) == PairOf(items[idx[k]]))
              && (forall i :: 0 <= i < |items| && PairOf(items[i]).Some? ==> i in idx)
  {
    if field.Some? && field.value.QAItems? {
      var items := field.value.items;
      var built := seq(|items|, i requires 0 <= i < |items| => PairOf(items[i]));
      SomesSpec(built);
      forall i | 0 <= i < |items| && PairOf(items[i]).Some? ensures i in SomeIndices(built, 0) {
        SomeIndicesComplete(built, 0, i);
      }
    }
  }

  // ---------------------------------------------------------------------------
  // Pages
  // ---------------------------------------------------------------------------

  /** The row for a page, or `None` where building it raises (a missing key). */
  function RowOf(shared: DocumentFields, page: PageInput): Option<PageRow>
  {
    if page.pageNumber.None? || page.contextualizedChunk.None? || page.chunkSummary.None? || page.embedding.None? then None
    else Some(PageRow(shared, page.pageNumber.value, page.contextualizedChunk.value, page.chunkSummary.value,
                      page.embedding.value, PairsOf(page.extracted)))
  }

  /** The row has a document id, and every pair of it a question, that the
      NOT NULL columns accept. */
  predicate Storable(row: PageRow)
  {
    && row.shared.documentId.Some?
    && forall k :: 0 <= k < |row.qaPairs| ==> row.qaPairs[k].question.Some?
  }

  /** Page `idx`: saved when its row builds and commits; otherwise rolled
      back. A NULL document id or question makes the commit fail whatever
      else the database would do. */
  function SavedPage(shared: DocumentFields, pages: seq<PageInput>, idx: nat, commit: Commit): Option<PageRow>
    requires idx < |pages|
  {
    match RowOf(shared, pages[idx])
    case None => None
    case Some(row) => if Storable(row) && commit(idx, row) then Some(row) else None
  }

  function PageOutcomes(shared: DocumentFields, pages: seq<PageInput>, commit: Commit): seq<Option<PageRow>>
  {
    seq(|pages|, i requires 0 <= i < |pages| => SavedPage(shared, pages, i, commit))
  }

  /** `save_document_to_db`: the rows committed, or `None` when the metadata
      block raised and no page was attempted. */
  function SaveDocument(pages: seq<PageInput>, fileName: string, md: MetadataInput, pdfUrl: string,
                        summary: string, title: string, documentId: int, commit: Commit): Option<seq<PageRow>>
  {
    match SharedFields(fileName, md, pdfUrl, summary, title)
    case None => None
    case Some(shared) => Some(Somes(PageOutcomes(shared, pages, commit)))
  }

  /** A non-empty "Date added" that is not a date aborts the whole save. */
  lemma BadDateAborts(pages: seq<PageInput>, fileName: string, md: MetadataInput, pdfUrl: string,
                      summary: string, title: string, documentId: int, commit: Commit)
    ensures SaveDocument(pages, fileName, md, pdfUrl, summary, title, documentId, commit).None? <==>
              md.dateAdded.Some? && md.dateAdded.value != "" && ParseIsoDate(md.dateAdded.value).None?
  {
  }

  /** Every saved row carries the same document-level values, taken from the
      metadata and the call, with the document id from the "ID" field
      whatever the `document_id` argument says. */
  lemma RowsShareMetadata(pages: seq<PageInput>, fileName: string, md: MetadataInput, pdfUrl: string,
                          summary: string, title: string, documentId: int, otherId: int, commit: Commit)
    requires SaveDocument(pages, fileName, md, pdfUrl, summary, title, documentId, commit).Some?
    ensures var rows := SaveDocument(pages, fileName, md, pdfUrl, summary, title, documentId, commit).value;
            && rows == SaveDocument(pages, fileName, md, pdfUrl, summary, title, otherId, commit).value
            && forall k :: 0 <= k < |rows| ==>
                 var f := rows[k].shared;
                 && f.fileName == fileName && f.pdfUrl == pdfUrl && f.summary == summary && f.title == title
                 && f.countries == ListOr(md.countries) && f.organizations == ListOr(md.organizations)
                 && f.regions == ListOr(md.regions) && f.year == md.year && f.documentId == md.id
                 && f == rows[0].shared
  {
    var shared := SharedFields(fileName, md, pdfUrl, summary, title).value;
    var outcomes := PageOutcomes(shared, pages, commit);
    OutcomesShare(shared, pages, commit);
    SomesAll(outcomes, (row: PageRow) => row.shared == shared);
  }

  lemma OutcomesShare(shared: DocumentFields, pages: seq<PageInput>, commit: Commit)
    ensures var outcomes := PageOutcomes(shared, pages, commit);
            forall i :: 0 <= i < |outcomes| && outcomes[i].Some? ==> outcomes[i].value.shared == shared
  {
  }

  /** Page `i`'s row builds, it has a document id and every question in it
      is a string, and the commit succeeds. */
  predicate SavesAt(shared: DocumentFields, pages: seq<PageInput>, i: nat, commit: Commit)
    requires i < |pages|
  {
    RowOf(shared, pages[i]).Some? && Storable(RowOf(shared, pages[i]).value) && commit(i, RowOf(shared, pages[i]).value)
  }

  /** The rows saved are those of the pages whose row builds and commits, in
      page order; a failing page does not stop the later ones. */
  lemma SavedPagesSpec(shared: DocumentFields, pages: seq<PageInput>, commit: Commit)
    ensures var outcomes := PageOutcomes(shared, pages, commit);
            var idx := SomeIndices(outcomes, 0);
            var rows := Somes(outcomes);
            && |rows| == |idx|
            && (forall k :: 0 <= k < |idx| ==>
                  RowOf(shared, pages[idx[k]]) == Some(rows[k]) && Storable(rows[k]) && commit(idx[k], rows[k]))
            && (forall i :: 0 <= i < |pages| && SavesAt(shared, pages, i, commit) ==> i in idx)
  {
    var outcomes := PageOutcomes(shared, pages, commit);
    SomesSpec(outcomes);
    forall i | 0 <= i < |pages| && SavesAt(shared, pages, i, commit)
      ensures i in SomeIndices(outcomes, 0)
    {
      SomeIndicesComplete(outcomes, 0, i);
    }
  }

  /** A page with a pair whose question is present as `None` is never
      saved: the pair builds, but the NOT NULL question column rejects the
      commit and the page is rolled back. */
  lemma NullQuestionRollsBack(shared: DocumentFields, pages: seq<PageInput>, idx: nat, commit: Commit, j: nat)
    requires idx < |pages| && pages[idx].extracted.Some? && pages[idx].extracted.value.QAItems?
    requires var items := pages[idx].extracted.value.items;
             j < |items| && items[j].QAEntry? && items[j].question == NullQuestion && PairOf(items[j]).Some?
    ensures SavedPage(shared, pages, idx, commit) == None
  {
    var items := pages[idx].extracted.value.items;
    var built := seq(|items|, i requires 0 <= i < |items| => PairOf(items[i]));
    SomesSpec(built);
    SomeIndicesComplete(built, 0, j);
    var idxs := SomeIndices(built, 0);
    var k :| 0 <= k < |idxs| && idxs[k] == j;
    var pairs := PairsOf(pages[idx].extracted);
    assert pairs[k] == PairOf(items[j]).value;
    assert pairs[k].question.None?;
  }

  /** A page of a document without an "ID" is never saved: the NOT NULL
      `document_id` column rejects the commit and the page is rolled back. */
  lemma MissingIdRollsBack(shared: DocumentFields, pages: seq<PageInput>, idx: nat, commit: Commit)
    requires idx < |pages| && shared.documentId.None?
    ensures SavedPage(shared, pages, idx, commit) == None
  {
  }

  /** A document without an "ID" saves no row at all, whatever the database
      would do: the save either aborts on its date or commits nothing. */
  lemma MissingIdSavesNothing(pages: seq<PageInput>, fileName: string, md: MetadataInput, pdfUrl: string,
                              summary: string, title: string, documentId: int, commit: Commit)
    requires md.id.None?
    ensures var r := SaveDocument(pages, fileName, md, pdfUrl, summary, title, documentId, commit);
            r.None? || r.value == []
  {
    match SharedFields(fileName, md, pdfUrl, summary, title)
    case None =>
    case Some(shared) =>
      var outcomes := PageOutcomes(shared, pages, commit);
      forall i | 0 <= i < |outcomes|
        ensures outcomes[i].None?
      {
        MissingIdRollsBack(shared, pages, i, commit);
      }
      SomesEmpty(outcomes);
  }

  // ---------------------------------------------------------------------------
  // save_all_to_db
  // ---------------------------------------------------------------------------

  /** The `metadata` dict of one document, with the keys the save reads. */
  datatype DocumentInput = DocumentInput(
    fileName: string,
    processedPages: seq<PageInput>,
    fields: MetadataInput,
    pdfUrl: string,
    surveyName: string,
    summary: string,
    documentId: int)

  /** `save_single_document`: true exactly when the save did not raise. */
  function SaveSingle(doc: DocumentInput, commit: Commit): bool
  {
    SaveDocument(doc.processedPages, doc.fileName, doc.fields, doc.pdfUrl, doc.summary, doc.surveyName,
                 doc.documentId, commit).Some?
  }

  /** `save_all_to_db`, with each document's commits given by `commits`. */
  function SaveAll(docs: seq<DocumentInput>, commits: nat -> Commit): seq<DocumentInput>
  {
    Somes(seq(|docs|, i requires 0 <= i < |docs| => if SaveSingle(docs[i], commits(i)) then Some(docs[i]) else None))
  }

  /** The documents returned are exactly those whose save succeeded, in
      input order. */
  lemma SaveAllSpec(docs: seq<DocumentInput>, commits: nat -> Commit)
    ensures var outcomes := seq(|docs|, i requires 0 <= i < |docs| => if SaveSingle(docs[i], commits(i)) then Some(docs[i]) else None);
            var idx := SomeIndices(outcomes, 0);
            var saved := SaveAll(docs, commits);
            && |saved| == |idx|
            && (forall k :: 0 <= k < |idx| ==> saved[k] == docs[idx[k]] && SaveSingle(docs[idx[k]], commits(idx[k])))
            && (forall k, l :: 0 <= k < l < |idx| ==> idx[k] < idx[l])
            && (forall i :: 0 <= i < |docs| && SaveSingle(docs[i], commits(i)) ==> i in idx)
  {
    var outcomes := seq(|docs|, i requires 0 <= i < |docs| => if SaveSingle(docs[i], commits(i)) then Some(docs[i]) else None);
    SomesSpec(outcomes);
    forall i | 0 <= i < |docs| && SaveSingle(docs[i], commits(i)) ensures i in SomeIndices(outcomes, 0) {
      SomeIndicesComplete(outcomes, 0, i);
    }
  }
}

=== FILE: drive_links.dfy ===
/** The two `extract_file_id` variants, lenient (`ingestion/utils`) and strict
    (`ingestion/fetch_utils`), and the shared `determine_file_type`. A raised
    `ValueError` is a `Failure` carrying its message. */
module DriveLinks {
  import opened Wrappers
  import opened Strings
  import opened Sequences

  const IdParam: string := "id="
  const Slash: string := "/"
  const PathMarker: string := "d"

  const LenientError: string := "Invalid Google Drive URL format."
  const MissingIdError: string := "Invalid Google Drive URL format: missing file ID after 'id='."
  const MissingSegmentError: string := "Invalid Google Drive URL format: missing file ID after '/d/'."
  const IncompleteError: string := "Invalid Google Drive URL format: incomplete URL."
  const UnrecognisedError: string :=
    "URL format not recognized. Ensure it contains 'id=' or\n                follows the standard Drive URL format."

  // ---------------------------------------------------------------------------
  // The "id=" branch, shared by both variants
  // ---------------------------------------------------------------------------

  /** `url.split("id=")[1].split("&")[0]`. */
  function IdQuery(url: string): string
    requires Contains(url, IdParam)
  {
    SplitCount(url, IdParam);
    Split(Split(url, IdParam)[1], "&")[0]
  }

  /** The first piece of a split runs up to the first separator. */
  lemma FirstPiece(s: string, sep: string)
    requires |sep| > 0
    ensures var i := IndexOf(s, sep);
            Split(s, sep)[0] == if i < 0 then s else s[..i]
  {
  }

  /** A substring absent from the whole is absent from every prefix. */
  lemma PrefixFree(s: string, n: nat, sub: string)
    requires n <= |s| && !Contains(s, sub)
    ensures !Contains(s[..n], sub)
  {
    if Contains(s[..n], sub) {
      SliceContained(s, 0, n);
      assert s[0..n] == s[..n];
      ContainsTrans(s, s[..n], sub);
    }
  }

  /** The piece of the split on "id=" that the id is cut from. */
  lemma AfterIdPiece(url: string) returns (piece: string)
    requires Contains(url, IdParam)
    ensures |Split(url, IdParam)| > 1 && piece == Split(url, IdParam)[1]
    ensures var rest := url[IndexOf(url, IdParam) + |IdParam|..];
            && |piece| <= |rest| && piece == rest[..|piece|] && !Contains(piece, IdParam)
            && (|piece| == |rest| || OccursAt(rest, IdParam, |piece|))
  {
    var rest := url[IndexOf(url, IdParam) + |IdParam|..];
    SplitCount(url, IdParam);
    SecondPiece(url, IdParam);
    FirstPiece(rest, IdParam);
    piece := Split(url, IdParam)[1];
    FirstPieceShape(rest, IdParam);
  }

  /** The id is the text after the first "id=", cut at the next "&" or the
      next "id=", whichever comes first; it holds neither and may be empty. */
  lemma IdQuerySpec(url: string)
    requires Contains(url, IdParam)
    ensures var rest := url[IndexOf(url, IdParam) + |IdParam|..];
            var r := IdQuery(url);
            && |r| <= |rest| && r == rest[..|r|]
            && !Contains(r, "&") && !Contains(r, IdParam)
            && (|r| == |rest| || rest[|r|] == '&' || OccursAt(rest, IdParam, |r|))
  {
    var rest := url[IndexOf(url, IdParam) + |IdParam|..];
    var piece := AfterIdPiece(url);
    FirstPieceShape(piece, "&");
    var r := IdQuery(url);
    assert r == piece[..|r|] == rest[..|r|];
    PrefixFree(piece, |r|, IdParam);
    if |r| < |piece| {
      assert piece[|r|..|r| + 1] == "&";
      assert rest[|r|] == piece[|r|];
    }
  }


  // ---------------------------------------------------------------------------
  // The two variants
  // ---------------------------------------------------------------------------

  /** The lenient variant: the "id=" text as is, or the segment after the
      first "d" segment; every failure becomes the one generic message. */
  function LenientFileId(url: string): (r: Result<string, string>)
    ensures r.Failure? ==> r.error == LenientError
  {
    if Contains(url, IdParam) then Success(IdQuery(url))
    else
      match SegmentAfterMarker(Split(url, Slash))
      case None => Failure(LenientError)
      case Some(id) => Success(id)
  }

  /** The segment after the first segment equal to "d", if there is one. */
  function SegmentAfterMarker(parts: seq<string>): Option<string>
  {
    var d := FirstIndex(parts, PathMarker);
    if d < 0 || d + 1 >= |parts| then None else Some(parts[d + 1])
  }

  predicate NonEmptySegment(v: Option<string>)
  {
    v.Some? && v.value != ""
  }

  predicate IsSlash(c: char) { c == '/' }

  /** The strict variant: the same two branches, after stripping leading and
      trailing "/" for the path branch, with an empty id refused. */
  function StrictFileId(url: string): (r: Result<string, string>)
    ensures r.Success? ==> r.value != ""
  {
    if Contains(url, IdParam) then
      var id := IdQuery(url);
      if id != "" then Success(id) else Failure(MissingIdError)
    else
      var parts := Split(StripBy(url, IsSlash), Slash);
      var d := FirstIndex(parts, PathMarker);
      if d < 0 then Failure(UnrecognisedError)
      else if d + 1 >= |parts| then Failure(IncompleteError)
      else if parts[d + 1] == "" then Failure(MissingSegmentError)
      else Success(parts[d + 1])
  }

  /** The lenient path branch: the id is the segment after the first segment
      equal to "d", and holds no "/"; the URL is refused exactly when there is
      no such segment or it is the last one. */
  lemma LenientPathSpec(url: string)
    requires !Contains(url, IdParam)
    ensures var parts := Split(url, Slash);
            && (LenientFileId(url).Failure? <==> PathMarker !in parts || FirstIndex(parts, PathMarker) == |parts| - 1)
            && (LenientFileId(url).Success? ==>
                  var d := FirstIndex(parts, PathMarker);
                  && parts[d] == PathMarker && (forall j :: 0 <= j < d ==> parts[j] != PathMarker)
                  && LenientFileId(url).value == parts[d + 1] && !Contains(LenientFileId(url).value, Slash))
  {
    SplitPiecesFree(url, Slash);
  }

  /** The strict path branch refuses a URL with no "d" segment as
      unrecognised and one whose "d" is the last segment as incomplete. */
  lemma StrictPathErrors(url: string)
    requires !Contains(url, IdParam)
    ensures var parts := Split(StripBy(url, IsSlash), Slash);
            && (PathMarker !in parts <==> StrictFileId(url) == Failure(UnrecognisedError))
            && (PathMarker in parts && FirstIndex(parts, PathMarker) == |parts| - 1 <==> StrictFileId(url) == Failure(IncompleteError))
  {
  }

  // ---------------------------------------------------------------------------
  // How the variants relate
  // ---------------------------------------------------------------------------

  /** `n` empty pieces. */
  function Empties(n: nat): seq<string>
  {
    if n == 0 then [] else [""] + Empties(n - 1)
  }

  lemma {:induction false} EmptiesSpec(n: nat)
    ensures |Empties(n)| == n && PathMarker !in Empties(n)
    ensures forall i :: 0 <= i < n ==> Empties(n)[i] == ""
  {
    if n > 0 {
      EmptiesSpec(n - 1);
    }
  }

  lemma {:induction false} EmptiesStep(n: nat)
    ensures Empties(n + 1) == [""] + Empties(n) == Empties(n) + [""]
  {
    if n > 0 {
      EmptiesStep(n - 1);
    }
  }

  lemma SplitAfterSlash(t: string)
    ensures Split(Slash + t, Slash) == [""] + Split(t, Slash)
  {
    SplitConcat("", t, Slash);
    assert "" + Slash + t == Slash + t;
  }

  lemma SplitBeforeSlash(t: string)
    ensures Split(t + Slash, Slash) == Split(t, Slash) + [""]
  {
    SplitConcat(t, "", Slash);
    assert t + Slash + "" == t + Slash;
    assert Split("", Slash) == [""];
  }

  /** `n` slashes. */
  function Slashes(n: nat): string
  {
    if n == 0 then "" else Slash + Slashes(n - 1)
  }

  lemma {:induction false} SlashesStep(n: nat)
    ensures Slashes(n + 1) == Slashes(n) + Slash
  {
    if n > 0 {
      SlashesStep(n - 1);
    }
  }

  /** A string of slashes only is `Slashes` of its length. */
  lemma {:induction false} AllSlashes(s: string)
    requires forall i :: 0 <= i < |s| ==> s[i] == '/'
    ensures s == Slashes(|s|)
  {
    if |s| > 0 {
      AllSlashes(s[1..]);
      assert s == Slash + s[1..];
    }
  }

  /** Leading slashes only add empty pieces in front. */
  lemma {:induction false} SplitSlashPrefix(n: nat, s: string)
    ensures Split(Slashes(n) + s, Slash) == Empties(n) + Split(s, Slash)
  {
    if n > 0 {
      assert Slashes(n) + s == Slash + (Slashes(n - 1) + s);
      SplitAfterSlash(Slashes(n - 1) + s);
      SplitSlashPrefix(n - 1, s);
    } else {
      assert Slashes(0) + s == s;
    }
  }

  /** Trailing slashes only add empty pieces behind. */
  lemma SplitSlashSuffix(s: string, n: nat)
    ensures Split(s + Slashes(n), Slash) == Split(s, Slash) + Empties(n)
  {
    forall t: string ensures Split(t + Slash, Slash) == Split(t, Slash) + [""] {
      SplitBeforeSlash(t);
    }
    SlashSuffix(t => Split(t, Slash), s, n);
  }

  /** A function that answers a trailing slash with one more empty piece
      answers `n` trailing slashes with `n` more. */
  lemma {:induction false} SlashSuffix(f: string -> seq<string>, s: string, n: nat)
    requires forall t :: f(t + Slash) == f(t) + [""]
    ensures f(s + Slashes(n)) == f(s) + Empties(n)
  {
    if n > 0 {
      var t := s + Slashes(n - 1);
      SlashesStep(n - 1);
      assert s + Slashes(n) == t + Slash;
      SlashSuffix(f, s, n - 1);
      EmptiesStep(n - 1);
    } else {
      assert s + Slashes(0) == s;
    }
  }

  /** The same as `TrimStart(s, IsSlash)` and `TrimEnd(s, IsSlash)`,
      without their postconditions, to keep the proofs below small. */
  function DropLeadingSlashes(s: string): string
    decreases |s|
  {
    if |s| > 0 && s[0] == '/' then DropLeadingSlashes(s[1..]) else s
  }

  function DropTrailingSlashes(s: string): string
    decreases |s|
  {
    if |s| > 0 && s[|s| - 1] == '/' then DropTrailingSlashes(s[..|s| - 1]) else s
  }

  lemma {:induction false} DropLeadingIsTrim(s: string)
    ensures DropLeadingSlashes(s) == TrimStart(s, IsSlash)
    decreases |s|
  {
    if |s| > 0 && s[0] == '/' {
      DropLeadingIsTrim(s[1..]);
    }
  }

  lemma {:induction false} DropTrailingIsTrim(s: string)
    ensures DropTrailingSlashes(s) == TrimEnd(s, IsSlash)
    decreases |s|
  {
    if |s| > 0 && s[|s| - 1] == '/' {
      DropTrailingIsTrim(s[..|s| - 1]);
    }
  }

  lemma {:induction false} LeadingSlashes(s: string) returns (k: nat)
    ensures s == Slashes(k) + DropLeadingSlashes(s)
    decreases |s|
  {
    if |s| > 0 && s[0] == '/' {
      var k' := LeadingSlashes(s[1..]);
      k := k' + 1;
      assert s == Slash + s[1..];
    } else {
      k := 0;
      assert s == "" + s;
    }
  }

  lemma {:induction false} TrailingSlashes(s: string) returns (k: nat)
    ensures s == DropTrailingSlashes(s) + Slashes(k)
    decreases |s|
  {
    if |s| > 0 && s[|s| - 1] == '/' {
      var k' := TrailingSlashes(s[..|s| - 1]);
      k := k' + 1;
      SlashesStep(k');
      assert s == s[..|s| - 1] + Slash;
    } else {
      k := 0;
      assert s == s + "";
    }
  }

  /** `url.strip("/")` leaves the URL less some slashes at each end. */
  lemma StripShape(url: string) returns (a: nat, b: nat)
    ensures url == Slashes(a) + (DropTrailingSlashes(DropLeadingSlashes(url)) + Slashes(b))
  {
    a := LeadingSlashes(url);
    b := TrailingSlashes(DropLeadingSlashes(url));
  }

  /** Slashes around a string only add empty pieces around its pieces. */
  lemma SplitAround(a: nat, m: string, b: nat)
    ensures Split(Slashes(a) + (m + Slashes(b)), Slash) == Empties(a) + (Split(m, Slash) + Empties(b))
  {
    SplitSlashPrefix(a, m + Slashes(b));
    SplitSlashSuffix(m, b);
  }

  lemma StripByParts(url: string)
    ensures StripBy(url, IsSlash) == DropTrailingSlashes(DropLeadingSlashes(url))
  {
    DropLeadingIsTrim(url);
    DropTrailingIsTrim(TrimStart(url, IsSlash));
  }

  /** Around empty pieces, the first "d" and the piece after it are those of
      the middle part, when that piece is not empty. */
  lemma MarkerAmidEmpties(a: nat, p: seq<string>, b: nat)
    ensures var whole := Empties(a) + (p + Empties(b));
            && (NonEmptySegment(SegmentAfterMarker(whole)) <==> NonEmptySegment(SegmentAfterMarker(p)))
            && (NonEmptySegment(SegmentAfterMarker(p)) ==> SegmentAfterMarker(whole) == SegmentAfterMarker(p))
  {
    var whole := Empties(a) + (p + Empties(b));
    EmptiesSpec(a);
    EmptiesSpec(b);
    FirstIndexAfter(Empties(a), p + Empties(b), PathMarker);
    if PathMarker in p {
      FirstIndexWithin(p, Empties(b), PathMarker);
      var d := FirstIndex(p, PathMarker);
      assert FirstIndex(whole, PathMarker) == a + d;
      if d + 1 < |p| {
        assert whole[a + d + 1] == p[d + 1];
      } else if a + d + 1 < |whole| {
        assert whole[a + d + 1] == Empties(b)[0];
      }
    }
  }

  /** The strict path branch accepts exactly a non-empty segment after the
      first "d" of the stripped URL. */
  lemma StrictPathSegment(url: string)
    requires !Contains(url, IdParam)
    ensures var seg := SegmentAfterMarker(Split(StripBy(url, IsSlash), Slash));
            && (StrictFileId(url).Success? <==> NonEmptySegment(seg))
            && (StrictFileId(url).Success? ==> StrictFileId(url).value == seg.value)
  {
  }

  /** The strict variant accepts exactly the URLs the lenient one gives a
      non-empty id for, and then returns the same id. */
  lemma StrictRefinesLenient(url: string)
    ensures StrictFileId(url).Success? <==> LenientFileId(url).Success? && LenientFileId(url).value != ""
    ensures StrictFileId(url).Success? ==> StrictFileId(url) == LenientFileId(url)
  {
    if !Contains(url, IdParam) {
      var a, b := StripShape(url);
      SplitAround(a, DropTrailingSlashes(DropLeadingSlashes(url)), b);
      StripByParts(url);
      StrictPathSegment(url);
      MarkerAmidEmpties(a, Split(StripBy(url, IsSlash), Slash), b);
    }
  }

  // ---------------------------------------------------------------------------
  // determine_file_type
  // ---------------------------------------------------------------------------

  /** The last position holding `c`, or -1. */
  function LastIndexOfChar(s: string, c: char): (r: int)
    ensures -1 <= r < |s|
    ensures r >= 0 ==> s[r] == c
    ensures forall j :: r < j < |s| ==> s[j] != c
    decreases |s|
  {
    if |s| == 0 then -1
    else if s[|s| - 1] == c then |s| - 1
    else LastIndexOfChar(s[..|s| - 1], c)
  }

  /** The extension `os.path.splitext` finds: from the last "." of the last
      path component, provided something other than dots precedes it there;
      otherwise empty. */
  function Extension(p: string): string
  {
    var slash := LastIndexOfChar(p, '/');
    var dot := LastIndexOfChar(p, '.');
    if dot > slash && exists k :: slash < k < dot && p[k] != '.' then p[dot..] else ""
  }

  /** What an extension looks like: empty, or a final slice of the path that
      starts with its only "." and holds no "/". */
  lemma ExtensionShape(p: string)
    ensures var r := Extension(p);
            r == "" || (|r| <= |p| && r == p[|p| - |r|..] && r[0] == '.' && '.' !in r[1..] && '/' !in r)
  {
    var r := Extension(p);
    if r != "" {
      var slash := LastIndexOfChar(p, '/');
      var dot := LastIndexOfChar(p, '.');
      assert r == p[dot..];
      assert forall j :: 0 <= j < |r| ==> r[j] == p[dot + j];
    }
  }

  /** "pdf", "xlsx" or "other", by the lowered name's extension. */
  function FileType(name: string): (r: string)
    ensures r in {"pdf", "xlsx", "other"}
  {
    var ext := Extension(Lower(name));
    if ext == ".pdf" then "pdf" else if ext == ".xlsx" then "xlsx" else "other"
  }

  lemma LowerIdempotent(s: string)
    ensures Lower(Lower(s)) == Lower(s)
  {
  }

  /** The mapping ignores case. */
  lemma FileTypeIgnoresCase(name: string)
    ensures FileType(Lower(name)) == FileType(name)
  {
    LowerIdempotent(name);
  }

  /** A "pdf" or "xlsx" answer means the name ends in that extension, in
      any case. */
  lemma FileTypeSound(name: string)
    ensures FileType(name) == "pdf" ==> |name| >= 4 && Lower(name[|name| - 4..]) == ".pdf"
    ensures FileType(name) == "xlsx" ==> |name| >= 5 && Lower(name[|name| - 5..]) == ".xlsx"
  {
    ExtensionShape(Lower(name));
    if |name| >= 4 {
      LowerSlice(name, |name| - 4, |name|);
    }
    if |name| >= 5 {
      LowerSlice(name, |name| - 5, |name|);
    }
  }

  /** A name ending in ".pdf" or ".xlsx", in any case, after a character of
      its own that is neither "." nor "/", has that type. */
  lemma FileTypeComplete(stem: string, suffix: string)
    requires |stem| > 0 && stem[|stem| - 1] != '.' && stem[|stem| - 1] != '/'
    requires Lower(suffix) == ".pdf" || Lower(suffix) == ".xlsx"
    ensures FileType(stem + suffix) == (if Lower(suffix) == ".pdf" then "pdf" else "xlsx")
  {
    var ext := Lower(suffix);
    ExtensionLike(ext);
    LowerAppend(stem, suffix);
    assert Lower(stem)[|stem| - 1] == LowerChar(stem[|stem| - 1]);
    AppendExtension(Lower(stem), ext);
  }

  /** ".pdf" and ".xlsx" start with their only "." and hold no "/". */
  lemma ExtensionLike(ext: string)
    requires ext == ".pdf" || ext == ".xlsx"
    ensures |ext| > 0 && ext[0] == '.' && forall j :: 0 < j < |ext| ==> ext[j] != '.' && ext[j] != '/'
  {
    if ext == ".pdf" {
      assert ext[1] == 'p' && ext[2] == 'd' && ext[3] == 'f';
    } else {
      assert ext[1] == 'x' && ext[2] == 'l' && ext[3] == 's' && ext[4] == 'x';
    }
  }

  /** An extension-like tail after a character other than "." or "/" is
      the extension. */
  lemma AppendExtension(stem: string, ext: string)
    requires |stem| > 0 && stem[|stem| - 1] != '.' && stem[|stem| - 1] != '/'
    requires |ext| > 0 && ext[0] == '.' && forall j :: 0 < j < |ext| ==> ext[j] != '.' && ext[j] != '/'
    ensures Extension(stem + ext) == ext
  {
    var p := stem + ext;
    var n := |stem|;
    assert p[n - 1] == stem[n - 1];
    assert p[n..] == ext;
    forall j | n < j < |p|
      ensures p[j] != '.' && p[j] != '/'
    {
      assert p[j] == ext[j - n];
    }
    ExtensionAt(p, n);
  }

  /** The extension begins at a "." that follows a character other than
      "." or "/" when nothing after it is a "." or a "/". */
  lemma ExtensionAt(p: string, n: int)
    requires 0 < n < |p| && p[n] == '.' && p[n - 1] != '.' && p[n - 1] != '/'
    requires forall j :: n < j < |p| ==> p[j] != '.' && p[j] != '/'
    ensures Extension(p) == p[n..]
  {
    var slash := LastIndexOfChar(p, '/');
    var dot := LastIndexOfChar(p, '.');
    assert dot == n;
    assert slash < n - 1;
    assert slash < n - 1 < dot && p[n - 1] != '.';
  }

}

=== FILE: file_processing.dfy ===
/** `parse_file`, `process_file` and `create_metadata_string`: turning an
    uploaded PDF into page chunks, each with a generated context and an
    embedding. PyPDF2 is reduced to the text `extract_text` gives for each
    page (`None` for no text); tiktoken, the summariser and the embedding
    service are parameters. */
module FileProcessing {
  import opened Wrappers
  import opened Strings
  import opened Sequences

  const MaxContextLength: int := 128000
  const NoTextMessage: string := "No text could be extracted from the uploaded PDF file."
  const PageSeparator: string := "\n\n"

  // ---------------------------------------------------------------------------
  // parse_file
  // ---------------------------------------------------------------------------

  /** `page_text and page_text.strip()`. */
  predicate HasText(page: Option<string>) {
    page.Some? && Strip(page.value) != ""
  }

  /** Per page, its stripped text when it has any. */
  function PageTexts(pages: seq<Option<string>>): seq<Option<string>>
  {
    seq(|pages|, i requires 0 <= i < |pages| => if HasText(pages[i]) then Some(Strip(pages[i].value)) else None)
  }

  /** `parse_file`: for a PDF, the stripped text of each page with text, and
      an error when there is none; for any other type, nothing. The PDF
      reader's own failure is `Failure` in `pages`. */
  function ParseFile(pages: Result<seq<Option<string>>, string>, fileType: string): (r: Result<seq<string>, string>)
    ensures fileType != "pdf" ==> r == Success([])
  {
    if fileType != "pdf" then Success([])
    else match pages
      case Failure(e) => Failure(e)
      case Success(ps) =>
        var chunks := Somes(PageTexts(ps));
        if |chunks| == 0 then Failure(NoTextMessage) else Success(chunks)
  }

  /** A readable PDF fails to parse exactly when no page has text. */
  lemma ParseFileFails(pages: seq<Option<string>>)
    ensures ParseFile(Success(pages), "pdf") == Failure(NoTextMessage) <==> forall i :: 0 <= i < |pages| ==> !HasText(pages[i])
  {
    var texts := PageTexts(pages);
    SomesEmpty(texts);
    assert forall i :: 0 <= i < |pages| ==> (texts[i].None? <==> !HasText(pages[i]));
  }

  /** Otherwise its chunks are the stripped texts of exactly the pages with
      text, in page order. */
  lemma ParseFileChunks(pages: seq<Option<string>>)
    requires ParseFile(Success(pages), "pdf").Success?
    ensures var chunks := ParseFile(Success(pages), "pdf").value;
            var idx := SomeIndices(PageTexts(pages), 0);
            && |chunks| == |idx|
            && (forall k :: 0 <= k < |idx| ==> HasText(pages[idx[k]]) && chunks[k] == Strip(pages[idx[k]].value))
            && (forall k, l :: 0 <= k < l < |idx| ==> idx[k] < idx[l])
            && (forall i :: 0 <= i < |pages| && HasText(pages[i]) ==> i in idx)
  {
    var texts := PageTexts(pages);
    SomesSpec(texts);
    forall i | 0 <= i < |pages| && HasText(pages[i]) ensures i in SomeIndices(texts, 0) {
      SomeIndicesComplete(texts, 0, i);
    }
  }

  /** Non-empty, with no surrounding whitespace. */
  predicate IsClean(c: string) {
    c != "" && NotSpace(c[0]) && NotSpace(c[|c| - 1])
  }

  lemma PageTextsClean(pages: seq<Option<string>>)
    ensures var texts := PageTexts(pages);
            forall i :: 0 <= i < |texts| && texts[i].Some? ==> IsClean(texts[i].value)
  {
  }

  /** Each chunk is non-empty and has no surrounding whitespace. */
  lemma ParseFileStripped(pages: seq<Option<string>>)
    requires ParseFile(Success(pages), "pdf").Success?
    ensures var chunks := ParseFile(Success(pages), "pdf").value;
            forall k :: 0 <= k < |chunks| ==> chunks[k] != "" && NotSpace(chunks[k][0]) && NotSpace(chunks[k][|chunks[k]| - 1])
  {
    var texts := PageTexts(pages);
    PageTextsClean(pages);
    SomesAll(texts, IsClean);
    assert ParseFile(Success(pages), "pdf").value == Somes(texts);
  }


  // ---------------------------------------------------------------------------
  // process_file
  // ---------------------------------------------------------------------------

  datatype Tokenizer = Tokenizer(encode: string -> seq<int>, decode: seq<int> -> string)

  /** The collaborators of `process_file`: the tokenizer, the prompt
      template with empty slots, `generate_contextual_summary` ("" on
      failure) and `create_embedding` (`None` on failure). */
  datatype Ingestors = Ingestors(
    tokenizer: Tokenizer,
    emptyPrompt: string,
    summarise: (string, string) -> string,
    embed: string -> Option<seq<real>>)

  datatype ProcessedPage = ProcessedPage(pageNumber: int, contextualizedChunk: string, embedding: seq<real>)

  /** The tokens left for the document once the prompt and the page are counted. */
  function AvailableTokens(page: string, svc: Ingestors): int
  {
    MaxContextLength - |svc.tokenizer.encode(svc.emptyPrompt)| - |svc.tokenizer.encode(page)|
  }

  /** The document cut to its first `available` tokens when it has more. */
  function Truncate(document: string, available: nat, tok: Tokenizer): (r: string)
    ensures |tok.encode(document)| <= available ==> r == document
    ensures |tok.encode(document)| > available ==>
              exists t :: |t| == available && t == tok.encode(document)[..available] && r == tok.decode(t)
  {
    var tokens := tok.encode(document);
    if |tokens| > available then tok.decode(tokens[..available]) else document
  }

  /** Decoding any tokens and encoding the text again never gives more
      tokens than were decoded. */
  ghost predicate ReencodeShrinks(tok: Tokenizer) {
    forall t :: |tok.encode(tok.decode(t))| <= |t|
  }

  /** A tokenizer whose re-encoding never grows keeps the cut document within
      the `available` tokens. */
  lemma TruncateFits(document: string, available: nat, tok: Tokenizer)
    requires ReencodeShrinks(tok)
    ensures |tok.encode(Truncate(document, available, tok))| <= available
  {
    var tokens := tok.encode(document);
    if |tokens| > available {
      assert |tok.encode(tok.decode(tokens[..available]))| <= |tokens[..available]|;
    }
  }

  /** With such a tokenizer, cutting a cut document to the same budget
      changes nothing. */
  lemma TruncateIdempotent(document: string, available: nat, tok: Tokenizer)
    requires ReencodeShrinks(tok)
    ensures Truncate(Truncate(document, available, tok), available, tok) == Truncate(document, available, tok)
  {
    TruncateFits(document, available, tok);
  }

  /** The document text the summariser receives for page `i`. */
  function SummariserInput(chunks: seq<string>, i: nat, svc: Ingestors): string
    requires i < |chunks| && AvailableTokens(chunks[i], svc) > 0
  {
    Truncate(Join(chunks, PageSeparator), AvailableTokens(chunks[i], svc), svc.tokenizer)
  }

  /** The context generated for page `i`, from the document cut to the
      tokens left; "" when none are left. */
  function ContextFor(chunks: seq<string>, i: nat, svc: Ingestors): string
    requires i < |chunks|
  {
    if AvailableTokens(chunks[i], svc) <= 0 then ""
    else svc.summarise(SummariserInput(chunks, i, svc), chunks[i])
  }

  /** One page of the loop: skipped (`None`) when no tokens are left, the
      context is empty or the embedding fails. */
  function PageStep(chunks: seq<string>, i: nat, svc: Ingestors): (r: Option<ProcessedPage>)
    requires i < |chunks|
    ensures r.Some? ==> r.value.pageNumber == i + 1
  {
    if AvailableTokens(chunks[i], svc) <= 0 then None
    else
      var context := ContextFor(chunks, i, svc);
      if context == "" then None
      else
        var chunk := context + PageSeparator + chunks[i];
        match svc.embed(chunk)
        case None => None
        case Some(embedding) => Some(ProcessedPage(i + 1, chunk, embedding))
  }

  function Steps(chunks: seq<string>, svc: Ingestors): seq<Option<ProcessedPage>>
  {
    seq(|chunks|, i requires 0 <= i < |chunks| => PageStep(chunks, i, svc))
  }

  /** `process_file`: nothing for a missing buffer or no chunks; a parse
      error propagates; otherwise the pages the loop keeps. */
  function ProcessFile(buffer: Option<Result<seq<Option<string>>, string>>, fileType: string, svc: Ingestors): Result<seq<ProcessedPage>, string>
  {
    match buffer
    case None => Success([])
    case Some(pages) =>
      match ParseFile(pages, fileType)
      case Failure(e) => Failure(e)
      case Success(chunks) => Success(Somes(Steps(chunks, svc)))
  }

  /** What the loop keeps: page numbers count the chunks (not the physical
      pages), strictly increase and lie in 1..chunk count; each page holds
      its non-empty context, a blank line and its chunk, with the embedding
      of that text. */
  lemma ProcessedPageSpec(chunks: seq<string>, svc: Ingestors)
    ensures var r := Somes(Steps(chunks, svc));
            && (forall k, l :: 0 <= k < l < |r| ==> r[k].pageNumber < r[l].pageNumber)
            && forall k :: 0 <= k < |r| ==>
                 var i := r[k].pageNumber - 1;
                 && 0 <= i < |chunks|
                 && AvailableTokens(chunks[i], svc) > 0
                 && ContextFor(chunks, i, svc) != ""
                 && r[k].contextualizedChunk == ContextFor(chunks, i, svc) + PageSeparator + chunks[i]
                 && svc.embed(r[k].contextualizedChunk) == Some(r[k].embedding)
  {
    var steps := Steps(chunks, svc);
    SomesSpec(steps);
  }

  /** A page is kept exactly when tokens are left for the document, its
      context is non-empty and the embedding succeeds; a skipped page does
      not stop the later ones. */
  lemma PageKeptIff(chunks: seq<string>, i: nat, svc: Ingestors)
    requires i < |chunks|
    ensures (exists k :: 0 <= k < |Somes(Steps(chunks, svc))| && Somes(Steps(chunks, svc))[k].pageNumber == i + 1)
            <==> && AvailableTokens(chunks[i], svc) > 0
                 && ContextFor(chunks, i, svc) != ""
                 && svc.embed(ContextFor(chunks, i, svc) + PageSeparator + chunks[i]).Some?
  {
    var steps := Steps(chunks, svc);
    var r := Somes(steps);
    if steps[i].Some? {
      var k := SomesAt(steps, i);
      assert r[k].pageNumber == i + 1;
    }
    if exists k :: 0 <= k < |r| && r[k].pageNumber == i + 1 {
      var k :| 0 <= k < |r| && r[k].pageNumber == i + 1;
      var j := SomesFrom(steps, k);
      assert steps[j] == PageStep(chunks, j, svc);
    }
    assert steps[i] == PageStep(chunks, i, svc);
  }

  /** The document handed to the summariser is whole when it fits in the
      tokens left, and otherwise the decoding of exactly that many of its
      first tokens. */
  lemma ContextBudget(chunks: seq<string>, i: nat, svc: Ingestors)
    requires i < |chunks| && AvailableTokens(chunks[i], svc) > 0
    ensures var available := AvailableTokens(chunks[i], svc);
            var document := Join(chunks, PageSeparator);
            var tokens := svc.tokenizer.encode(document);
            && (|tokens| <= available ==> ContextFor(chunks, i, svc) == svc.summarise(document, chunks[i]))
            && (|tokens| > available ==>
                  ContextFor(chunks, i, svc) == svc.summarise(svc.tokenizer.decode(tokens[..available]), chunks[i]))
  {
  }

  /** What the summariser receives for a page with tokens left fits in those
      tokens, for a tokenizer whose re-encoding never grows. */
  lemma ContextFits(chunks: seq<string>, i: nat, svc: Ingestors)
    requires i < |chunks| && AvailableTokens(chunks[i], svc) > 0 && ReencodeShrinks(svc.tokenizer)
    ensures ContextFor(chunks, i, svc) == svc.summarise(SummariserInput(chunks, i, svc), chunks[i])
    ensures |svc.tokenizer.encode(SummariserInput(chunks, i, svc))| <= AvailableTokens(chunks[i], svc)
  {
    TruncateFits(Join(chunks, PageSeparator), AvailableTokens(chunks[i], svc), svc.tokenizer);
  }

  /** A missing buffer and a non-PDF file give no pages. */
  lemma NothingToProcess(buffer: Option<Result<seq<Option<string>>, string>>, fileType: string, svc: Ingestors)
    requires buffer.None? || fileType != "pdf"
    ensures ProcessFile(buffer, fileType, svc) == Success([])
  {
  }

  // ---------------------------------------------------------------------------
  // create_metadata_string
  // ---------------------------------------------------------------------------

  /** The Airtable fields the metadata string reads; a missing key is `None`. */
  datatype MetadataFields = MetadataFields(
    year: Option<string>,
    countries: Option<seq<string>>,
    regions: Option<seq<string>>,
    organizations: Option<seq<string>>,
    dateAdded: Option<string>,
    notes: Option<string>,
    driveLink: Option<string>)

  function OrElse(v: Option<string>, fallback: string): string
  {
    if v.Some? then v.value else fallback
  }

  /** `", ".join(xs) or fallback`, with a missing list read as `[]`. */
  function ListText(xs: Option<seq<string>>, fallback: string): (r: string)
    ensures xs.None? || |xs.value| == 0 ==> r == fallback
  {
    var joined := Join(if xs.Some? then xs.value else [], ", ");
    if joined == "" then fallback else joined
  }

  /** A list with a non-empty element is written out joined by ", ". */
  lemma ListTextJoins(xs: seq<string>, fallback: string, i: nat)
    requires i < |xs| && xs[i] != ""
    ensures ListText(Some(xs), fallback) == Join(xs, ", ")
  {
    JoinNonEmpty(xs, ", ", i);
  }

  lemma {:induction false} JoinNonEmpty(xs: seq<string>, sep: string, i: nat)
    requires i < |xs| && xs[i] != ""
    ensures Join(xs, sep) != ""
    decreases |xs|
  {
    if |xs| > 1 && i > 0 {
      JoinNonEmpty(xs[1..], sep, i - 1);
    }
  }

  /** The pieces of the f-string in order: fixed text at even positions,
      field texts at odd ones. */
  function MetadataParts(m: MetadataFields): seq<string>
  {
    [ "This document was made in ", OrElse(m.year, "an unknown year"),
      ", relates to ", ListText(m.countries, "unknown countries"),
      ", within the ", ListText(m.regions, "unknown regions"),
      " region and was created by ", ListText(m.organizations, "unknown organizations"),
      ". It was added to our system on ", OrElse(m.dateAdded, "an unknown date"),
      ". Notes about it are: ", OrElse(m.notes, "No notes available"),
      ". Drive link: ", OrElse(m.driveLink, "No drive link available"), "." ]
  }

  /** `create_metadata_string`. */
  function MetadataString(m: MetadataFields): string
  {
    Concat(MetadataParts(m))
  }

  /** The metadata string is the f-string's pieces laid end to end, with
      nothing else in between: its length is the pieces' total, and piece k
      sits right after the pieces before it. */
  lemma MetadataStringLayout(m: MetadataFields)
    ensures var s := MetadataString(m);
            var parts := MetadataParts(m);
            && |s| == TotalLength(parts)
            && forall k :: 0 <= k < |parts| ==>
                 TotalLength(parts[..k]) + |parts[k]| <= |s| &&
                 s[TotalLength(parts[..k])..TotalLength(parts[..k]) + |parts[k]|] == parts[k]
  {
    ConcatLayout(MetadataParts(m));
  }

  lemma ConcatLayout(parts: seq<string>)
    ensures |Concat(parts)| == TotalLength(parts)
    ensures forall k :: 0 <= k < |parts| ==>
              TotalLength(parts[..k]) + |parts[k]| <= |Concat(parts)| &&
              Concat(parts)[TotalLength(parts[..k])..TotalLength(parts[..k]) + |parts[k]|] == parts[k]
  {
    ConcatLength(parts);
    forall k | 0 <= k < |parts|
      ensures TotalLength(parts[..k]) + |parts[k]| <= |Concat(parts)|
      ensures Concat(parts)[TotalLength(parts[..k])..TotalLength(parts[..k]) + |parts[k]|] == parts[k]
    {
      ConcatAt(parts, k);
    }
  }

  /** The number of characters in a list of strings. */
  function TotalLength(parts: seq<string>): nat
    decreases |parts|
  {
    if |parts| == 0 then 0 else |parts[0]| + TotalLength(parts[1..])
  }

  lemma {:induction false} ConcatLength(parts: seq<string>)
    ensures |Concat(parts)| == TotalLength(parts)
    decreases |parts|
  {
    if |parts| > 0 {
      ConcatLength(parts[1..]);
    }
  }

  /** Piece k of a concatenation starts after the pieces before it. */
  lemma {:induction false} ConcatAt(parts: seq<string>, k: nat)
    requires k < |parts|
    ensures TotalLength(parts[..k]) + |parts[k]| <= |Concat(parts)|
    ensures Concat(parts)[TotalLength(parts[..k])..TotalLength(parts[..k]) + |parts[k]|] == parts[k]
    decreases k
  {
    var head := parts[0];
    var rest := Concat(parts[1..]);
    assert Concat(parts) == head + rest;
    ConcatLength(parts[1..]);
    if k == 0 {
      assert parts[..0] == [];
      SliceOfAppend(head, rest, 0, 0);
    } else {
      ConcatAt(parts[1..], k - 1);
      assert parts[..k][1..] == parts[1..][..k - 1];
      var o := TotalLength(parts[1..][..k - 1]);
      assert TotalLength(parts[..k]) == |head| + o;
      SliceOfAppend(head, rest, o, |parts[k]|);
    }
  }

  /** A slice past the first operand is a slice of the second. */
  lemma SliceOfAppend(a: string, b: string, i: nat, n: nat)
    requires i + n <= |b|
    ensures (a + b)[|a| + i..|a| + i + n] == b[i..i + n]
  {
  }

  /** Every field, or its stand-in text, appears in the metadata string. */
  lemma MetadataStringMentions(m: MetadataFields)
    ensures var s := MetadataString(m);
            && Contains(s, OrElse(m.year, "an unknown year"))
            && Contains(s, ListText(m.countries, "unknown countries"))
            && Contains(s, ListText(m.regions, "unknown regions"))
            && Contains(s, ListText(m.organizations, "unknown organizations"))
            && Contains(s, OrElse(m.dateAdded, "an unknown date"))
            && Contains(s, OrElse(m.notes, "No notes available"))
            && Contains(s, OrElse(m.driveLink, "No drive link available"))
  {
    var parts := MetadataParts(m);
    ConcatMember(parts, 1);
    ConcatMember(parts, 3);
    ConcatMember(parts, 5);
    ConcatMember(parts, 7);
    ConcatMember(parts, 9);
    ConcatMember(parts, 11);
    ConcatMember(parts, 13);
  }

  lemma {:induction false} ConcatMember(parts: seq<string>, k: nat)
    requires k < |parts|
    ensures Contains(Concat(parts), parts[k])
    decreases k
  {
    var s := Concat(parts);
    if k == 0 {
      assert s[0..|parts[0]|] == parts[0];
      SliceContained(s, 0, |parts[0]|);
    } else {
      ConcatMember(parts[1..], k - 1);
      assert s[|parts[0]|..] == Concat(parts[1..]);
      ContainsInSuffix(s, |parts[0]|, parts[k]);
    }
  }
}

=== FILE: http.dfy ===
/** FastAPI's `HTTPException`, as a value: the status code and the detail text. */
module Http {

  datatype HttpError = HttpError(status: int, detail: string)
}

=== FILE: hybrid_search.dfy ===
/** `hybrid_search`: merges the semantic and keyword hits into one candidate
    list, hands the candidate texts to the reranker, turns the reranker's
    `(index, score)` list into ranked matches, groups the matches by row,
    and orders the groups by their best score.

    The embedding call, the two SQL searches and the reranker are not
    modelled: their results are inputs (`semantic`, `keyword`) and a function
    parameter (`rerank`). */
module HybridSearch {
  import opened Wrappers
  import opened StableSort

  // ---------------------------------------------------------------------------
  // Data
  // ---------------------------------------------------------------------------

  datatype QAPair = QAPair(question: string, answer: string)

  /** A row of the `documents` table: one page of one ingested file. */
  datatype DocumentRow = DocumentRow(
    id: int,
    fileName: string,
    title: Option<string>,
    summary: Option<string>,
    pdfUrl: Option<string>,
    pageNumber: int,
    contextualizedChunk: string,
    chunkSummary: Option<string>,
    qaPairs: seq<QAPair>)

  /** `DocumentMetadata`: the row fields a search result carries. */
  datatype DocumentMetadata = DocumentMetadata(
    id: int, fileName: string, title: Option<string>, summary: Option<string>, pdfUrl: Option<string>)

  /** One entry of the reranker's answer: an index into the texts it was
      given, and a relevance score. */
  datatype RerankHit = RerankHit(index: int, score: real)

  /** What a match shows: the page's chunk (regular mode) or one of its
      question/answer pairs (precision mode). */
  datatype Hit = ChunkHit(chunk: string) | QAHit(question: string, answer: string)

  /** An entry of `match_info`: the row a reranked text came from and what it shows. */
  datatype Candidate = Candidate(doc: DocumentRow, hit: Hit)

  /** A reranked match before grouping; `rank` counts from 1 in reranker order. */
  datatype Match = Match(doc: DocumentRow, hit: Hit, score: real, rank: int)

  /** The matches of one row id, the row of the first of them, and the best score. */
  datatype Group = Group(doc: DocumentRow, matches: seq<Match>, bestScore: real)

  /** `MatchedChunk` / `MatchedQAPair`. */
  datatype Matched = Matched(pageNumber: int, hit: Hit, score: real, rank: int)

  datatype DocumentSearchResult = DocumentSearchResult(metadata: DocumentMetadata, matches: seq<Matched>)

  /** Why a search raised: the reranker call failed with the given text,
      `match_info[index]` raised `IndexError` for an index outside the texts,
      or `DocumentMetadata.from_orm` rejected a row. */
  datatype SearchError = RerankFailed(text: string) | RerankIndexOutOfRange(index: int) | MetadataInvalid(text: string)

  /** The reranker: its answer for a query and the texts, or the text of the
      exception the call raised. */
  type Reranker = (string, seq<string>) -> Result<seq<RerankHit>, string>

  /** The outcome of one search: the results, and the texts handed to the
      reranker (`None` when it was not called). */
  datatype SearchRun = SearchRun(results: seq<DocumentSearchResult>, rerankedTexts: Option<seq<string>>)

  // ---------------------------------------------------------------------------
  // Merging the semantic and keyword hits
  // ---------------------------------------------------------------------------

  ghost function Ids(rows: seq<DocumentRow>): set<int> {
    set r | r in rows :: r.id
  }

  predicate DistinctIds(rows: seq<DocumentRow>) {
    forall i, j :: 0 <= i < j < |rows| ==> rows[i].id != rows[j].id
  }

  predicate HasId(rows: seq<DocumentRow>, id: int) {
    exists r | r in rows :: r.id == id
  }

  /** Appends, in order, each row of `rows` whose id `acc` does not hold yet:
      one of the two `OrderedDict` loops. */
  function Absorb(acc: seq<DocumentRow>, rows: seq<DocumentRow>): seq<DocumentRow>
    decreases |rows|
  {
    if |rows| == 0 then acc
    else
      var a := Absorb(acc, rows[..|rows| - 1]);
      var x := rows[|rows| - 1];
      if HasId(a, x.id) then a else a + [x]
  }

  /** `combined_results`: the semantic hits, then the keyword hits, each row
      id kept once, at its first occurrence. */
  function MergeCandidates(semantic: seq<DocumentRow>, keyword: seq<DocumentRow>): seq<DocumentRow>
  {
    Absorb(Absorb([], semantic), keyword)
  }

  /** The position of the first row with id `id`. */
  function FirstIndex(rows: seq<DocumentRow>, id: int): (r: nat)
    requires id in Ids(rows)
    ensures r < |rows| && rows[r].id == id
    ensures forall j :: 0 <= j < r ==> rows[j].id != id
  {
    if rows[0].id == id then 0
    else
      assert id in Ids(rows[1..]) by {
        var x :| x in rows && x.id == id;
        var k :| 0 <= k < |rows| && rows[k] == x;
        assert rows[1..][k - 1] == x;
      }
      1 + FirstIndex(rows[1..], id)
  }

  /** `r` lists each id of `all` once, as the row at its first occurrence,
      in the order of first occurrence. */
  ghost predicate FirstOccurrences(all: seq<DocumentRow>, r: seq<DocumentRow>) {
    && DistinctIds(r)
    && Ids(r) == Ids(all)
    && (forall k :: 0 <= k < |r| ==> r[k].id in Ids(all) && r[k] == all[FirstIndex(all, r[k].id)])
    && (forall k, l :: 0 <= k < l < |r| && r[k].id in Ids(all) && r[l].id in Ids(all) ==>
          FirstIndex(all, r[k].id) < FirstIndex(all, r[l].id))
  }

  lemma HasIdIff(rows: seq<DocumentRow>, id: int)
    ensures HasId(rows, id) <==> id in Ids(rows)
  {
  }

  lemma {:induction false} AbsorbAppend(acc: seq<DocumentRow>, a: seq<DocumentRow>, b: seq<DocumentRow>)
    ensures Absorb(Absorb(acc, a), b) == Absorb(acc, a + b)
    decreases |b|
  {
    if |b| > 0 {
      assert (a + b)[..|a + b| - 1] == a + b[..|b| - 1];
      assert (a + b)[|a + b| - 1] == b[|b| - 1];
      AbsorbAppend(acc, a, b[..|b| - 1]);
    } else {
      assert a + b == a;
    }
  }

  lemma FirstIndexExtend(s: seq<DocumentRow>, x: DocumentRow, id: int)
    requires id in Ids(s)
    ensures id in Ids(s + [x]) && FirstIndex(s + [x], id) == FirstIndex(s, id)
  {
    var all := s + [x];
    var f := FirstIndex(s, id);
    assert all[f] == s[f];
    assert id in Ids(all);
    var g := FirstIndex(all, id);
    assert g <= f;
    assert g < |s| ==> all[g] == s[g];
  }

  lemma FirstIndexNew(s: seq<DocumentRow>, x: DocumentRow)
    requires x.id !in Ids(s)
    ensures x.id in Ids(s + [x]) && FirstIndex(s + [x], x.id) == |s|
  {
    var all := s + [x];
    assert all[|s|] == x;
    assert forall j :: 0 <= j < |s| ==> all[j] == s[j] && s[j] in s;
  }

  /** A row whose id was already seen leaves the first occurrences unchanged. */
  lemma FirstOccurrencesKeep(p: seq<DocumentRow>, x: DocumentRow, a: seq<DocumentRow>)
    requires FirstOccurrences(p, a) && x.id in Ids(p)
    ensures FirstOccurrences(p + [x], a)
  {
    var s := p + [x];
    assert Ids(s) == Ids(p) + {x.id};
    forall id | id in Ids(p)
      ensures id in Ids(s) && FirstIndex(s, id) == FirstIndex(p, id)
    {
      FirstIndexExtend(p, x, id);
    }
    assert forall k :: 0 <= k < |p| ==> s[k] == p[k];
  }

  /** The rows kept so far keep their first-occurrence positions once `x` is appended. */
  lemma KeptRowsUnmoved(p: seq<DocumentRow>, x: DocumentRow, a: seq<DocumentRow>)
    requires FirstOccurrences(p, a) && x.id !in Ids(p)
    ensures forall k :: 0 <= k < |a| ==>
              && a[k].id in Ids(p) && a[k].id != x.id && a[k].id in Ids(p + [x])
              && FirstIndex(p + [x], a[k].id) == FirstIndex(p, a[k].id) < |p|
              && a[k] == (p + [x])[FirstIndex(p + [x], a[k].id)]
  {
    var s := p + [x];
    forall k | 0 <= k < |a|
      ensures a[k].id in Ids(p) && a[k].id != x.id && a[k].id in Ids(s)
      ensures FirstIndex(s, a[k].id) == FirstIndex(p, a[k].id) < |p|
      ensures a[k] == s[FirstIndex(s, a[k].id)]
    {
      assert a[k] in a;
      FirstIndexExtend(p, x, a[k].id);
      assert s[FirstIndex(p, a[k].id)] == p[FirstIndex(p, a[k].id)];
    }
  }

  /** A row with a new id joins the first occurrences at the end. */
  lemma FirstOccurrencesAdd(p: seq<DocumentRow>, x: DocumentRow, a: seq<DocumentRow>)
    requires FirstOccurrences(p, a) && x.id !in Ids(p)
    ensures FirstOccurrences(p + [x], a + [x])
  {
    var s := p + [x];
    var r := a + [x];
    FirstIndexNew(p, x);
    KeptRowsUnmoved(p, x, a);
    AppendDistinct(a, x);
    IdsAppend(a, x);
    IdsAppend(p, x);
    forall k | 0 <= k < |r|
      ensures r[k].id in Ids(s) && r[k] == s[FirstIndex(s, r[k].id)]
    {
      if k < |a| {
        assert r[k] == a[k];
      }
    }
    forall k, l | 0 <= k < l < |r| && r[k].id in Ids(s) && r[l].id in Ids(s)
      ensures FirstIndex(s, r[k].id) < FirstIndex(s, r[l].id)
    {
      assert r[k] == a[k];
      if l < |a| {
        assert r[l] == a[l];
      }
    }
  }

  lemma IdsAppend(rows: seq<DocumentRow>, x: DocumentRow)
    ensures Ids(rows + [x]) == Ids(rows) + {x.id}
  {
    assert forall r :: r in rows + [x] <==> r in rows || r == x;
  }

  lemma AppendDistinct(rows: seq<DocumentRow>, x: DocumentRow)
    requires DistinctIds(rows) && x.id !in Ids(rows)
    ensures DistinctIds(rows + [x])
  {
    var r := rows + [x];
    forall i, j | 0 <= i < j < |r| ensures r[i].id != r[j].id {
      assert r[i] == rows[i] && rows[i] in rows;
      if j < |rows| {
        assert r[j] == rows[j];
      }
    }
  }


  /** The fold from an empty accumulator keeps exactly the first occurrences. */
  lemma {:induction false} AbsorbFirstOccurrences(s: seq<DocumentRow>)
    ensures FirstOccurrences(s, Absorb([], s))
    decreases |s|
  {
    if |s| > 0 {
      var p := s[..|s| - 1];
      var x := s[|s| - 1];
      assert s == p + [x];
      AbsorbFirstOccurrences(p);
      var a := Absorb([], p);
      HasIdIff(a, x.id);
      if x.id in Ids(a) {
        FirstOccurrencesKeep(p, x, a);
      } else {
        FirstOccurrencesAdd(p, x, a);
      }
    } else {
      assert Ids(s) == {};
    }
  }

  /** Characterises the merge: every row id of either hit list appears once,
      as the row of its first occurrence in `semantic + keyword`, in the order
      of first occurrence. */
  lemma MergeIsFirstOccurrences(semantic: seq<DocumentRow>, keyword: seq<DocumentRow>)
    ensures FirstOccurrences(semantic + keyword, MergeCandidates(semantic, keyword))
  {
    AbsorbAppend([], semantic, keyword);
    AbsorbFirstOccurrences(semantic + keyword);
  }

  lemma FirstIndexInPrefix(a: seq<DocumentRow>, b: seq<DocumentRow>, id: int)
    requires id in Ids(a + b)
    ensures FirstIndex(a + b, id) < |a| <==> id in Ids(a)
  {
    var f := FirstIndex(a + b, id);
    if f < |a| {
      assert (a + b)[f] == a[f];
    }
    if id in Ids(a) {
      var x :| x in a && x.id == id;
      var k :| 0 <= k < |a| && a[k] == x;
      assert (a + b)[k] == x;
    }
  }

  /** All rows found by the semantic search come before every row found only
      by the keyword search, and both lists together supply every row id. */
  lemma MergeSemanticFirst(semantic: seq<DocumentRow>, keyword: seq<DocumentRow>)
    ensures var r := MergeCandidates(semantic, keyword);
            && DistinctIds(r)
            && Ids(r) == Ids(semantic) + Ids(keyword)
            && forall k, l :: 0 <= k < l < |r| && r[l].id in Ids(semantic) ==> r[k].id in Ids(semantic)
  {
    var all := semantic + keyword;
    var r := MergeCandidates(semantic, keyword);
    MergeIsFirstOccurrences(semantic, keyword);
    assert Ids(all) == Ids(semantic) + Ids(keyword);
    forall k, l | 0 <= k < l < |r| && r[l].id in Ids(semantic)
      ensures r[k].id in Ids(semantic)
    {
      FirstIndexInPrefix(semantic, keyword, r[l].id);
      FirstIndexInPrefix(semantic, keyword, r[k].id);
    }
  }

  // ---------------------------------------------------------------------------
  // The texts handed to the reranker
  // ---------------------------------------------------------------------------

  /** Regular mode: one candidate per merged row, showing its chunk. */
  function RegularCandidates(rows: seq<DocumentRow>): seq<Candidate>
  {
    seq(|rows|, k requires 0 <= k < |rows| => Candidate(rows[k], ChunkHit(rows[k].contextualizedChunk)))
  }

  /** The question/answer candidates of one row, in the row's order. */
  function PairCandidates(doc: DocumentRow): seq<Candidate>
  {
    seq(|doc.qaPairs|, j requires 0 <= j < |doc.qaPairs| =>
      Candidate(doc, QAHit(doc.qaPairs[j].question, doc.qaPairs[j].answer)))
  }

  /** Precision mode: one candidate per question/answer pair, row by row. */
  function PrecisionCandidates(rows: seq<DocumentRow>): seq<Candidate>
    decreases |rows|
  {
    if |rows| == 0 then []
    else PrecisionCandidates(rows[..|rows| - 1]) + PairCandidates(rows[|rows| - 1])
  }

  function Candidates(rows: seq<DocumentRow>, precision: bool): seq<Candidate>
  {
    if precision then PrecisionCandidates(rows) else RegularCandidates(rows)
  }

  /** `doc.chunk_summary or ""`. */
  function SummaryText(doc: DocumentRow): string
  {
    match doc.chunkSummary
    case None => ""
    case Some(t) => t
  }

  /** The indentation the triple-quoted f-string puts before `Answer:`. */
  const AnswerIndent: string := "                    "

  /** The text the reranker scores for a candidate. */
  function CandidateText(c: Candidate): string
  {
    match c.hit
    case ChunkHit(chunk) => chunk
    case QAHit(q, a) => SummaryText(c.doc) + " Question: " + q + "\n" + AnswerIndent + "Answer: " + a
  }

  function Texts(cands: seq<Candidate>): (r: seq<string>)
    ensures |r| == |cands|
  {
    seq(|cands|, k requires 0 <= k < |cands| => CandidateText(cands[k]))
  }

  /** The precision candidates are exactly the question/answer pairs of the
      merged rows: each candidate is a pair of its row, every pair of every
      row is a candidate, and there are none exactly when no row has a pair. */
  lemma PrecisionCandidatesCover(rows: seq<DocumentRow>)
    ensures var cs := PrecisionCandidates(rows);
            && (forall k :: 0 <= k < |cs| ==>
                  && cs[k].doc in rows && cs[k].hit.QAHit?
                  && QAPair(cs[k].hit.question, cs[k].hit.answer) in cs[k].doc.qaPairs)
            && (forall i, j :: 0 <= i < |rows| && 0 <= j < |rows[i].qaPairs| ==>
                  Candidate(rows[i], QAHit(rows[i].qaPairs[j].question, rows[i].qaPairs[j].answer)) in cs)
            && (|cs| == 0 <==> forall i :: 0 <= i < |rows| ==> |rows[i].qaPairs| == 0)
  {
    PrecisionCandidatesSound(rows);
    PrecisionCandidatesComplete(rows);
    PrecisionCandidatesEmpty(rows);
  }

  /** Every precision candidate is a pair of one of the rows. */
  lemma {:induction false} PrecisionCandidatesSound(rows: seq<DocumentRow>)
    ensures var cs := PrecisionCandidates(rows);
            forall k :: 0 <= k < |cs| ==>
              && cs[k].doc in rows && cs[k].hit.QAHit?
              && QAPair(cs[k].hit.question, cs[k].hit.answer) in cs[k].doc.qaPairs
    decreases |rows|
  {
    if |rows| > 0 {
      var p := rows[..|rows| - 1];
      var d := rows[|rows| - 1];
      PrecisionCandidatesSound(p);
      var cs := PrecisionCandidates(rows);
      var a := PrecisionCandidates(p);
      assert var cs := PrecisionCandidates(p);
            forall k :: 0 <= k < |cs| ==>
              && cs[k].doc in p && cs[k].hit.QAHit?
              && QAPair(cs[k].hit.question, cs[k].hit.answer) in cs[k].doc.qaPairs;
      var b := PairCandidates(d);
      assert cs == a + b;
      forall k | 0 <= k < |cs|
        ensures cs[k].doc in rows && cs[k].hit.QAHit?
        ensures QAPair(cs[k].hit.question, cs[k].hit.answer) in cs[k].doc.qaPairs
      {
        if k < |a| {
          assert cs[k] == a[k];
          assert a[k].doc in p;
          var m :| 0 <= m < |p| && p[m] == a[k].doc;
          assert rows[m] == p[m];
        } else {
          var j := k - |a|;
          assert cs[k] == b[j];
          assert d.qaPairs[j] == QAPair(d.qaPairs[j].question, d.qaPairs[j].answer);
        }
      }
    }
  }

  /** Every pair of every row is a precision candidate. */
  lemma {:induction false} PrecisionCandidatesComplete(rows: seq<DocumentRow>)
    ensures var cs := PrecisionCandidates(rows);
            forall i, j :: 0 <= i < |rows| && 0 <= j < |rows[i].qaPairs| ==>
              Candidate(rows[i], QAHit(rows[i].qaPairs[j].question, rows[i].qaPairs[j].answer)) in cs
    decreases |rows|
  {
    if |rows| > 0 {
      var p := rows[..|rows| - 1];
      var d := rows[|rows| - 1];
      PrecisionCandidatesComplete(p);
      var cs := PrecisionCandidates(rows);
      var a := PrecisionCandidates(p);
      var b := PairCandidates(d);
      assert cs == a + b;
      forall i, j | 0 <= i < |rows| && 0 <= j < |rows[i].qaPairs|
        ensures Candidate(rows[i], QAHit(rows[i].qaPairs[j].question, rows[i].qaPairs[j].answer)) in cs
      {
        if i < |p| {
          assert rows[i] == p[i];
        } else {
          assert b[j] == cs[|a| + j];
        }
      }
    }
  }

  /** There are no precision candidates exactly when no row has a pair. */
  lemma {:induction false} PrecisionCandidatesEmpty(rows: seq<DocumentRow>)
    ensures |PrecisionCandidates(rows)| == 0 <==> forall i :: 0 <= i < |rows| ==> |rows[i].qaPairs| == 0
    decreases |rows|
  {
    if |rows| > 0 {
      var p := rows[..|rows| - 1];
      PrecisionCandidatesEmpty(p);
      assert |PrecisionCandidates(rows)| == |PrecisionCandidates(p)| + |rows[|rows| - 1].qaPairs|;
      if |PrecisionCandidates(rows)| == 0 {
        forall i | 0 <= i < |rows| ensures |rows[i].qaPairs| == 0 {
          if i < |p| { assert rows[i] == p[i]; }
        }
      } else if |PrecisionCandidates(p)| > 0 {
        var i :| 0 <= i < |p| && |p[i].qaPairs| > 0;
        assert rows[i] == p[i];
      }
    }
  }

  // ---------------------------------------------------------------------------
  // Collecting the reranked matches
  // ---------------------------------------------------------------------------

  /** Python's `xs[i]` on a list of length `n`: a negative index counts from
      the end; anything else outside the list raises `IndexError`. */
  function ResolveIndex(n: nat, i: int): (r: Option<nat>)
    ensures r.Some? <==> 0 <= i + n && i < n
    ensures r.Some? ==> r.value < n && (if i >= 0 then r.value == i else r.value == i + n)
  {
    if 0 <= i < n then Some(i)
    else if 0 <= i + n && i < 0 then Some(i + n)
    else None
  }

  predicate Resolves(cands: seq<Candidate>, h: RerankHit) {
    ResolveIndex(|cands|, h.index).Some?
  }

  /** The match built from a reranker entry and its position `rank` (from 1). */
  function MatchOf(cands: seq<Candidate>, h: RerankHit, rank: int): Match
    requires Resolves(cands, h)
  {
    var c := cands[ResolveIndex(|cands|, h.index).value];
    Match(c.doc, c.hit, h.score, rank)
  }

  /** The loop over `rerank_response.results`: the `k`-th entry becomes a
      match of rank `k + 1`, and the first entry whose index falls outside the
      candidates aborts the search. */
  function CollectMatches(cands: seq<Candidate>, hits: seq<RerankHit>): (r: Result<seq<Match>, SearchError>)
    ensures r.Success? <==> forall k :: 0 <= k < |hits| ==> Resolves(cands, hits[k])
    ensures r.Success? ==> |r.value| == |hits|
    ensures r.Success? ==> forall k :: 0 <= k < |hits| ==> r.value[k] == MatchOf(cands, hits[k], k + 1)
    ensures r.Failure? ==> r.error.RerankIndexOutOfRange?
    decreases |hits|
  {
    if |hits| == 0 then Success([])
    else
      var h := hits[|hits| - 1];
      match CollectMatches(cands, hits[..|hits| - 1])
      case Failure(e) => Failure(e)
      case Success(ms) =>
        if Resolves(cands, h) then Success(ms + [MatchOf(cands, h, |hits|)])
        else Failure(RerankIndexOutOfRange(h.index))
  }

  /** A failed collection reports the index of the first entry outside the candidates. */
  lemma {:induction false} CollectMatchesFailure(cands: seq<Candidate>, hits: seq<RerankHit>)
    requires CollectMatches(cands, hits).Failure?
    ensures exists k :: 0 <= k < |hits| && !Resolves(cands, hits[k])
              && (forall j :: 0 <= j < k ==> Resolves(cands, hits[j]))
              && CollectMatches(cands, hits).error == RerankIndexOutOfRange(hits[k].index)
    decreases |hits|
  {
    var p := hits[..|hits| - 1];
    var n := |hits| - 1;
    assert forall j :: 0 <= j < n ==> p[j] == hits[j];
    if CollectMatches(cands, p).Failure? {
      CollectMatchesFailure(cands, p);
      var k :| 0 <= k < |p| && !Resolves(cands, p[k])
               && (forall j :: 0 <= j < k ==> Resolves(cands, p[j]))
               && CollectMatches(cands, p).error == RerankIndexOutOfRange(p[k].index);
      assert hits[k] == p[k];
    } else {
      assert !Resolves(cands, hits[n]);
    }
  }

  // ---------------------------------------------------------------------------
  // Grouping the matches by row id
  // ---------------------------------------------------------------------------

  /** The rows the matches came from, in match order. */
  function Docs(ms: seq<Match>): (r: seq<DocumentRow>)
    ensures |r| == |ms|
  {
    seq(|ms|, k requires 0 <= k < |ms| => ms[k].doc)
  }

  /** The matches whose row has id `id`, in match order. */
  function MatchesOf(ms: seq<Match>, id: int): seq<Match>
    decreases |ms|
  {
    if |ms| == 0 then []
    else MatchesOf(ms[..|ms| - 1], id) + (if ms[|ms| - 1].doc.id == id then [ms[|ms| - 1]] else [])
  }

  /** The largest key of a non-empty sequence, kept as the grouping loop
      keeps its best score: a later key replaces the best only when it is
      strictly greater. */
  function MaxBy<T>(s: seq<T>, key: T -> real): (r: real)
    requires |s| > 0
    ensures exists k :: 0 <= k < |s| && key(s[k]) == r
    ensures forall k :: 0 <= k < |s| ==> key(s[k]) <= r
    decreases |s|
  {
    if |s| == 1 then key(s[0])
    else
      var b := MaxBy(s[..|s| - 1], key);
      var x := key(s[|s| - 1]);
      assert forall k :: 0 <= k < |s| - 1 ==> s[..|s| - 1][k] == s[k];
      if x > b then x else b
  }

  function MatchScore(m: Match): real { m.score }

  /** The position of the group for `id`, or -1. */
  function GroupIndex(gs: seq<Group>, id: int): (r: int)
    ensures -1 <= r < |gs|
    ensures r >= 0 ==> gs[r].doc.id == id
    ensures r < 0 ==> forall i :: 0 <= i < |gs| ==> gs[i].doc.id != id
    decreases |gs|
  {
    if |gs| == 0 then -1
    else if gs[0].doc.id == id then 0
    else
      var j := GroupIndex(gs[1..], id);
      if j < 0 then -1 else j + 1
  }

  /** One step of the grouping loop: a new id opens a group whose best score
      is the match's; a known id gets the match appended and its best raised
      when the new score is strictly greater. */
  function AddToGroups(gs: seq<Group>, m: Match): seq<Group>
  {
    var i := GroupIndex(gs, m.doc.id);
    if i < 0 then gs + [Group(m.doc, [m], m.score)]
    else
      var g := gs[i];
      gs[i := Group(g.doc, g.matches + [m], if m.score > g.bestScore then m.score else g.bestScore)]
  }

  /** The `documents` dictionary, in insertion order. */
  function GroupMatches(ms: seq<Match>): seq<Group>
    decreases |ms|
  {
    if |ms| == 0 then []
    else AddToGroups(GroupMatches(ms[..|ms| - 1]), ms[|ms| - 1])
  }

  ghost function GroupIds(gs: seq<Group>): set<int> {
    set g | g in gs :: g.doc.id
  }

  predicate DistinctGroups(gs: seq<Group>) {
    forall i, j :: 0 <= i < j < |gs| ==> gs[i].doc.id != gs[j].doc.id
  }

  /** Every group holds exactly the matches of its id, in match order, starts
      with the match its row came from, and carries their best score. */
  ghost predicate GroupsHoldMatches(ms: seq<Match>, gs: seq<Group>) {
    forall i :: 0 <= i < |gs| ==>
      && gs[i].doc.id in Ids(Docs(ms))
      && gs[i].matches == MatchesOf(ms, gs[i].doc.id)
      && |gs[i].matches| > 0
      && gs[i].doc == gs[i].matches[0].doc
      && gs[i].bestScore == MaxBy(gs[i].matches, MatchScore)
  }

  /** The groups stand in the order their ids first appear among the matches. */
  ghost predicate GroupsInFirstOrder(ms: seq<Match>, gs: seq<Group>) {
    forall i, j :: 0 <= i < j < |gs| && gs[i].doc.id in Ids(Docs(ms)) && gs[j].doc.id in Ids(Docs(ms)) ==>
      FirstIndex(Docs(ms), gs[i].doc.id) < FirstIndex(Docs(ms), gs[j].doc.id)
  }

  ghost predicate GroupsOf(ms: seq<Match>, gs: seq<Group>) {
    && DistinctGroups(gs)
    && GroupIds(gs) == Ids(Docs(ms))
    && GroupsHoldMatches(ms, gs)
    && GroupsInFirstOrder(ms, gs)
  }

  lemma DocsAppend(ms: seq<Match>, m: Match)
    ensures Docs(ms + [m]) == Docs(ms) + [m.doc]
  {
  }

  lemma MatchesOfAppend(ms: seq<Match>, m: Match, id: int)
    ensures MatchesOf(ms + [m], id) == MatchesOf(ms, id) + (if m.doc.id == id then [m] else [])
  {
    assert (ms + [m])[..|ms|] == ms;
  }

  /** `MatchesOf` keeps every match of the id and nothing else. */
  lemma {:induction false} MatchesOfMembers(ms: seq<Match>, id: int)
    ensures forall x :: x in MatchesOf(ms, id) <==> x in ms && x.doc.id == id
    decreases |ms|
  {
    if |ms| > 0 {
      var p := ms[..|ms| - 1];
      MatchesOfMembers(p, id);
      assert ms == p + [ms[|ms| - 1]];
    }
  }

  lemma MatchesOfAbsent(ms: seq<Match>, id: int)
    requires id !in Ids(Docs(ms))
    ensures MatchesOf(ms, id) == []
  {
    MatchesOfMembers(ms, id);
    assert forall k :: 0 <= k < |ms| ==> Docs(ms)[k] in Docs(ms) && ms[k].doc.id != id;
    assert forall x :: x in ms ==> x.doc.id != id;
    assert forall x :: x !in MatchesOf(ms, id);
  }

  lemma MaxScoreAppend(s: seq<Match>, m: Match)
    requires |s| > 0
    ensures MaxBy(s + [m], MatchScore) == if m.score > MaxBy(s, MatchScore) then m.score else MaxBy(s, MatchScore)
  {
    assert (s + [m])[..|s|] == s;
  }

  lemma GroupIdsMember(gs: seq<Group>, i: int)
    requires 0 <= i < |gs|
    ensures gs[i].doc.id in GroupIds(gs)
  {
    assert gs[i] in gs;
  }

  /** The facts about the known groups that survive appending a match `m`
      whose id none of them has. */
  lemma OtherGroupsUnchanged(ms: seq<Match>, gs: seq<Group>, m: Match, skip: int)
    requires GroupsHoldMatches(ms, gs)
    requires forall i :: 0 <= i < |gs| && i != skip ==> gs[i].doc.id != m.doc.id
    ensures forall i :: 0 <= i < |gs| && i != skip ==>
              && gs[i].doc.id in Ids(Docs(ms + [m]))
              && MatchesOf(ms + [m], gs[i].doc.id) == MatchesOf(ms, gs[i].doc.id)
  {
    DocsAppend(ms, m);
    forall i | 0 <= i < |gs| && i != skip
      ensures gs[i].doc.id in Ids(Docs(ms + [m]))
      ensures MatchesOf(ms + [m], gs[i].doc.id) == MatchesOf(ms, gs[i].doc.id)
    {
      MatchesOfAppend(ms, m, gs[i].doc.id);
      var f := FirstIndex(Docs(ms), gs[i].doc.id);
      assert Docs(ms + [m])[f] == Docs(ms)[f];
      assert Docs(ms + [m])[f] in Docs(ms + [m]);
    }
  }

  /** Appending a match keeps the first positions of the ids already seen. */
  lemma FirstPositionsKept(ms: seq<Match>, gs: seq<Group>, m: Match)
    requires GroupsHoldMatches(ms, gs)
    ensures forall i :: 0 <= i < |gs| ==>
              && gs[i].doc.id in Ids(Docs(ms + [m]))
              && FirstIndex(Docs(ms + [m]), gs[i].doc.id) == FirstIndex(Docs(ms), gs[i].doc.id) < |ms|
  {
    DocsAppend(ms, m);
    forall i | 0 <= i < |gs|
      ensures gs[i].doc.id in Ids(Docs(ms + [m]))
      ensures FirstIndex(Docs(ms + [m]), gs[i].doc.id) == FirstIndex(Docs(ms), gs[i].doc.id) < |ms|
    {
      FirstIndexExtend(Docs(ms), m.doc, gs[i].doc.id);
    }
  }

  lemma NewGroupHolds(ms: seq<Match>, gs: seq<Group>, m: Match)
    requires GroupsHoldMatches(ms, gs) && m.doc.id !in Ids(Docs(ms))
    requires forall i :: 0 <= i < |gs| ==> gs[i].doc.id != m.doc.id
    ensures GroupsHoldMatches(ms + [m], gs + [Group(m.doc, [m], m.score)])
  {
    var hs := gs + [Group(m.doc, [m], m.score)];
    OtherGroupsUnchanged(ms, gs, m, -1);
    MatchesOfAppend(ms, m, m.doc.id);
    MatchesOfAbsent(ms, m.doc.id);
    DocsAppend(ms, m);
    assert Docs(ms + [m])[|ms|] == m.doc;
    assert m.doc in Docs(ms + [m]);
    assert forall i :: 0 <= i < |gs| ==> hs[i] == gs[i];
  }

  lemma NewGroupInOrder(ms: seq<Match>, gs: seq<Group>, m: Match)
    requires GroupsHoldMatches(ms, gs) && GroupsInFirstOrder(ms, gs) && m.doc.id !in Ids(Docs(ms))
    ensures GroupsInFirstOrder(ms + [m], gs + [Group(m.doc, [m], m.score)])
  {
    var hs := gs + [Group(m.doc, [m], m.score)];
    FirstPositionsKept(ms, gs, m);
    FirstIndexNew(Docs(ms), m.doc);
    DocsAppend(ms, m);
    assert forall i :: 0 <= i < |gs| ==> hs[i] == gs[i];
  }

  /** A match with an unseen id opens a new group at the end. */
  lemma AddNewGroup(ms: seq<Match>, gs: seq<Group>, m: Match)
    requires GroupsOf(ms, gs) && m.doc.id !in Ids(Docs(ms))
    ensures GroupsOf(ms + [m], AddToGroups(gs, m))
  {
    var hs := gs + [Group(m.doc, [m], m.score)];
    forall i | 0 <= i < |gs| ensures gs[i].doc.id != m.doc.id {
      GroupIdsMember(gs, i);
    }
    assert GroupIndex(gs, m.doc.id) < 0;
    assert AddToGroups(gs, m) == hs;
    NewGroupHolds(ms, gs, m);
    NewGroupInOrder(ms, gs, m);
    DocsAppend(ms, m);
    assert Ids(Docs(ms + [m])) == Ids(Docs(ms)) + {m.doc.id};
    assert GroupIds(hs) == GroupIds(gs) + {m.doc.id};
    assert forall i :: 0 <= i < |gs| ==> hs[i] == gs[i];
  }

  lemma KnownGroupHolds(ms: seq<Match>, gs: seq<Group>, m: Match)
    requires GroupsHoldMatches(ms, gs) && DistinctGroups(gs) && GroupIndex(gs, m.doc.id) >= 0
    ensures GroupsHoldMatches(ms + [m], AddToGroups(gs, m))
  {
    var i0 := GroupIndex(gs, m.doc.id);
    var g := gs[i0];
    var hs := AddToGroups(gs, m);
    OtherGroupsUnchanged(ms, gs, m, i0);
    MatchesOfAppend(ms, m, m.doc.id);
    MaxScoreAppend(g.matches, m);
    DocsAppend(ms, m);
    assert Docs(ms + [m])[|ms|] == m.doc;
    assert m.doc in Docs(ms + [m]);
    assert hs[i0].matches == MatchesOf(ms + [m], m.doc.id);
    assert hs[i0].matches[0] == g.matches[0];
  }

  lemma KnownGroupInOrder(ms: seq<Match>, gs: seq<Group>, m: Match)
    requires GroupsHoldMatches(ms, gs) && GroupsInFirstOrder(ms, gs) && GroupIndex(gs, m.doc.id) >= 0
    ensures GroupsInFirstOrder(ms + [m], AddToGroups(gs, m))
  {
    FirstPositionsKept(ms, gs, m);
    KnownGroupDocs(gs, m);
  }

  lemma GroupIdsPointwise(gs: seq<Group>, hs: seq<Group>)
    requires |gs| == |hs| && forall i :: 0 <= i < |gs| ==> hs[i].doc.id == gs[i].doc.id
    ensures GroupIds(hs) == GroupIds(gs)
  {
    forall x | x in GroupIds(hs) ensures x in GroupIds(gs) {
      var h :| h in hs && h.doc.id == x;
      var i :| 0 <= i < |hs| && hs[i] == h;
      GroupIdsMember(gs, i);
    }
    forall x | x in GroupIds(gs) ensures x in GroupIds(hs) {
      var h :| h in gs && h.doc.id == x;
      var i :| 0 <= i < |gs| && gs[i] == h;
      GroupIdsMember(hs, i);
    }
  }

  /** A match with a known id joins that group, which keeps its place. */
  lemma AddToKnownGroup(ms: seq<Match>, gs: seq<Group>, m: Match)
    requires GroupsOf(ms, gs) && GroupIndex(gs, m.doc.id) >= 0
    ensures GroupsOf(ms + [m], AddToGroups(gs, m))
  {
    KnownGroupHolds(ms, gs, m);
    KnownGroupInOrder(ms, gs, m);
    KnownGroupDistinct(gs, m);
    KnownGroupIds(ms, gs, m);
  }

  /** Adding to a known group changes no group's row. */
  lemma KnownGroupDocs(gs: seq<Group>, m: Match)
    requires GroupIndex(gs, m.doc.id) >= 0
    ensures |AddToGroups(gs, m)| == |gs|
    ensures forall i :: 0 <= i < |gs| ==> AddToGroups(gs, m)[i].doc == gs[i].doc
  {
  }

  lemma KnownGroupDistinct(gs: seq<Group>, m: Match)
    requires DistinctGroups(gs) && GroupIndex(gs, m.doc.id) >= 0
    ensures DistinctGroups(AddToGroups(gs, m))
  {
    KnownGroupDocs(gs, m);
  }

  lemma KnownGroupIds(ms: seq<Match>, gs: seq<Group>, m: Match)
    requires GroupIds(gs) == Ids(Docs(ms)) && GroupIndex(gs, m.doc.id) >= 0
    ensures GroupIds(AddToGroups(gs, m)) == Ids(Docs(ms + [m]))
  {
    GroupIdsMember(gs, GroupIndex(gs, m.doc.id));
    IdsKnownAppend(ms, m);
    KnownGroupDocs(gs, m);
    GroupIdsPointwise(gs, AddToGroups(gs, m));
  }

  lemma IdsKnownAppend(ms: seq<Match>, m: Match)
    requires m.doc.id in Ids(Docs(ms))
    ensures Ids(Docs(ms + [m])) == Ids(Docs(ms))
  {
    DocsAppend(ms, m);
    assert Ids(Docs(ms + [m])) == Ids(Docs(ms)) + {m.doc.id};
  }

  /** The grouping loop builds exactly one group per row id, in order of
      first appearance, each holding that id's matches and their best score. */
  lemma {:induction false} GroupMatchesSpec(ms: seq<Match>)
    ensures GroupsOf(ms, GroupMatches(ms))
    decreases |ms|
  {
    if |ms| == 0 {
      assert Ids(Docs(ms)) == {};
      assert GroupIds([]) == {};
    } else {
      var p := ms[..|ms| - 1];
      var m := ms[|ms| - 1];
      assert ms == p + [m];
      GroupMatchesSpec(p);
      var gs := GroupMatches(p);
      if GroupIndex(gs, m.doc.id) < 0 {
        forall h | h in gs ensures h.doc.id != m.doc.id {
          var i :| 0 <= i < |gs| && gs[i] == h;
        }
        AddNewGroup(p, gs, m);
      } else {
        AddToKnownGroup(p, gs, m);
      }
    }
  }

  // ---------------------------------------------------------------------------
  // Ordering the groups and building the results
  // ---------------------------------------------------------------------------

  function BestScoreKey(g: Group): real { g.bestScore }

  function RankKey(m: Match): real { m.rank as real }

  function GroupTag(g: Group): int { g.doc.id }

  /** `DocumentMetadata.from_orm(doc)`. */
  function MetadataOf(row: DocumentRow): DocumentMetadata
  {
    DocumentMetadata(row.id, row.fileName, row.title, row.summary, row.pdfUrl)
  }

  /** `MatchedChunk(...)` / `MatchedQAPair(...)` from a match. */
  function Project(m: Match): Matched
  {
    Matched(m.doc.pageNumber, m.hit, m.score, m.rank)
  }

  function ProjectAll(ms: seq<Match>): (r: seq<Matched>)
    ensures |r| == |ms|
  {
    seq(|ms|, k requires 0 <= k < |ms| => Project(ms[k]))
  }

  /** One entry of `final_results`: the group's matches sorted by rank. */
  function ResultOf(g: Group): DocumentSearchResult
  {
    DocumentSearchResult(MetadataOf(g.doc), ProjectAll(SortBy(g.matches, RankKey, false)))
  }

  /** Grouping, sorting the groups by best score (highest first, ties in
      insertion order), and building one result per group. */
  function RankResults(ms: seq<Match>): (r: seq<DocumentSearchResult>)
    ensures |r| == |GroupMatches(ms)|
  {
    var sorted := SortBy(GroupMatches(ms), BestScoreKey, true);
    seq(|sorted|, i requires 0 <= i < |sorted| => ResultOf(sorted[i]))
  }

  /** The matches as `CollectMatches` builds them: the `k`-th has rank `k + 1`. */
  predicate RanksFromOne(ms: seq<Match>) {
    forall k :: 0 <= k < |ms| ==> ms[k].rank == k + 1
  }

  /** The first match of an id is the one at its first position. */
  lemma {:induction false} MatchesOfFirst(ms: seq<Match>, id: int)
    requires id in Ids(Docs(ms))
    ensures |MatchesOf(ms, id)| > 0 && MatchesOf(ms, id)[0] == ms[FirstIndex(Docs(ms), id)]
    decreases |ms|
  {
    var p := ms[..|ms| - 1];
    var m := ms[|ms| - 1];
    assert ms == p + [m];
    DocsAppend(p, m);
    MatchesOfAppend(p, m, id);
    if id in Ids(Docs(p)) {
      MatchesOfFirst(p, id);
      FirstIndexExtend(Docs(p), m.doc, id);
      assert ms[FirstIndex(Docs(p), id)] == p[FirstIndex(Docs(p), id)];
    } else {
      assert Ids(Docs(ms)) == Ids(Docs(p)) + {m.doc.id};
      MatchesOfAbsent(p, id);
      FirstIndexNew(Docs(p), m.doc);
    }
  }

  /** Each of `s` is a match of `id`, and the match at its rank's position. */
  predicate AtTheirRanks(ms: seq<Match>, s: seq<Match>, id: int) {
    forall a :: 0 <= a < |s| ==> 1 <= s[a].rank <= |ms| && ms[s[a].rank - 1] == s[a] && s[a].doc.id == id
  }

  predicate AscendingRanks(s: seq<Match>) {
    forall a, b :: 0 <= a < b < |s| ==> s[a].rank < s[b].rank
  }

  /** With ranks counted from one, an id's matches are in strictly
      increasing rank, and each is the match at its rank's position. */
  lemma MatchesOfRanks(ms: seq<Match>, id: int)
    requires RanksFromOne(ms)
    ensures AtTheirRanks(ms, MatchesOf(ms, id), id)
    ensures AscendingRanks(MatchesOf(ms, id))
  {
    MatchesOfRanksAt(ms, id);
  }

  lemma {:induction false} MatchesOfRanksAt(ms: seq<Match>, id: int)
    requires RanksFromOne(ms)
    ensures AtTheirRanks(ms, MatchesOf(ms, id), id)
    ensures AscendingRanks(MatchesOf(ms, id))
    decreases |ms|
  {
    if |ms| > 0 {
      var p := ms[..|ms| - 1];
      var m := ms[|ms| - 1];
      assert ms == p + [m];
      assert RanksFromOne(p);
      MatchesOfRanksAt(p, id);
      MatchesOfAppend(p, m, id);
      var s := MatchesOf(p, id);
      var t := if m.doc.id == id then [m] else [];
      RanksStepAt(ms, p, m, s, t, id);
      RanksStepAscending(ms, p, m, s, t, id);
    }
  }

  /** Appending the last match keeps each earlier match at its rank. */
  lemma RanksStepAt(ms: seq<Match>, p: seq<Match>, m: Match, s: seq<Match>, t: seq<Match>, id: int)
    requires ms == p + [m] && RanksFromOne(ms)
    requires AtTheirRanks(p, s, id)
    requires t == if m.doc.id == id then [m] else []
    ensures AtTheirRanks(ms, s + t, id)
  {
    assert |ms| == |p| + 1 && ms[|p|] == m && m.rank == |p| + 1;
    forall a | 0 <= a < |s + t|
      ensures 1 <= (s + t)[a].rank <= |ms| && ms[(s + t)[a].rank - 1] == (s + t)[a] && (s + t)[a].doc.id == id
    {
      if a < |s| {
        assert (s + t)[a] == s[a];
        assert ms[s[a].rank - 1] == p[s[a].rank - 1];
      } else {
        assert (s + t)[a] == m;
      }
    }
  }

  /** Appending the last match keeps ranks strictly increasing. */
  lemma RanksStepAscending(ms: seq<Match>, p: seq<Match>, m: Match, s: seq<Match>, t: seq<Match>, id: int)
    requires ms == p + [m] && RanksFromOne(ms)
    requires AtTheirRanks(p, s, id) && AscendingRanks(s)
    requires t == if m.doc.id == id then [m] else []
    ensures AscendingRanks(s + t)
  {
    assert ms[|p|] == m && m.rank == |p| + 1;
    forall a, b | 0 <= a < b < |s + t|
      ensures (s + t)[a].rank < (s + t)[b].rank
    {
      assert (s + t)[a] == s[a];
      if b >= |s| {
        assert (s + t)[b] == m;
      }
    }
  }

  /** Sorting a group's matches by rank leaves them as they are. */
  lemma GroupSortIsIdentity(ms: seq<Match>, id: int)
    requires RanksFromOne(ms)
    ensures SortBy(MatchesOf(ms, id), RankKey, false) == MatchesOf(ms, id)
  {
    MatchesOfRanks(ms, id);
    var s := MatchesOf(ms, id);
    assert Sorted(s, RankKey, false) by {
      forall a, b | 0 <= a < b < |s| ensures RankKey(s[a]) <= RankKey(s[b]) {
        assert s[a].rank < s[b].rank;
      }
    }
    SortBySortedInput(s, RankKey, false);
  }

  function MatchedScore(m: Matched): real { m.score }

  /** The best relevance score among a result's matches. */
  function TopScore(r: DocumentSearchResult): real
    requires |r.matches| > 0
  {
    MaxBy(r.matches, MatchedScore)
  }

  /** Two maxima of the same scores are equal. */
  lemma MaxByProjected(ms: seq<Match>)
    requires |ms| > 0
    ensures MaxBy(ProjectAll(ms), MatchedScore) == MaxBy(ms, MatchScore)
  {
    var ps := ProjectAll(ms);
    assert forall k :: 0 <= k < |ms| ==> MatchedScore(ps[k]) == MatchScore(ms[k]);
  }

  /** A result shows the matches of its row id and nothing else: the row is
      the one the id's first match came from, the matches are all the id's
      matches in rank order, each the reranker's entry at its rank. */
  ghost predicate ResultHoldsMatches(ms: seq<Match>, r: DocumentSearchResult) {
    && r.metadata.id in Ids(Docs(ms))
    && r.metadata == MetadataOf(ms[FirstIndex(Docs(ms), r.metadata.id)].doc)
    && r.matches == ProjectAll(MatchesOf(ms, r.metadata.id))
    && |r.matches| > 0
    && r.matches[0].rank == FirstIndex(Docs(ms), r.metadata.id) + 1
    && (forall a :: 0 <= a < |r.matches| ==>
          && 1 <= r.matches[a].rank <= |ms|
          && ms[r.matches[a].rank - 1].doc.id == r.metadata.id
          && r.matches[a] == Project(ms[r.matches[a].rank - 1]))
    && (forall a, b :: 0 <= a < b < |r.matches| ==> r.matches[a].rank < r.matches[b].rank)
  }

  predicate DistinctResults(rs: seq<DocumentSearchResult>) {
    forall i, j :: 0 <= i < j < |rs| ==> rs[i].metadata.id != rs[j].metadata.id
  }

  predicate NonEmptyResults(rs: seq<DocumentSearchResult>) {
    forall i :: 0 <= i < |rs| ==> |rs[i].matches| > 0
  }

  /** Results stand in order of best score, highest first; on equal best
      scores, the one whose first match ranks higher comes first. */
  predicate ByTopScore(rs: seq<DocumentSearchResult>)
    requires NonEmptyResults(rs)
  {
    && (forall i, j :: 0 <= i < j < |rs| ==> TopScore(rs[i]) >= TopScore(rs[j]))
    && (forall i, j :: 0 <= i < j < |rs| && TopScore(rs[i]) == TopScore(rs[j]) ==>
          rs[i].matches[0].rank < rs[j].matches[0].rank)
  }

  ghost predicate EveryMatchShown(ms: seq<Match>, rs: seq<DocumentSearchResult>) {
    forall k :: 0 <= k < |ms| ==>
      exists i :: 0 <= i < |rs| && rs[i].metadata.id == ms[k].doc.id && Project(ms[k]) in rs[i].matches
  }

  /** What `hybrid_search` returns about its matches: one result per row id,
      each holding exactly that id's matches; results ordered by their best
      score, highest first, and on equal best scores by their best-ranked
      match; every match shown in some result. */
  ghost predicate RankedFrom(ms: seq<Match>, rs: seq<DocumentSearchResult>) {
    && DistinctResults(rs)
    && (forall i :: 0 <= i < |rs| ==> ResultHoldsMatches(ms, rs[i]))
    && NonEmptyResults(rs)
    && ByTopScore(rs)
    && EveryMatchShown(ms, rs)
  }

  /** Projection keeps what `AtTheirRanks` and `AscendingRanks` say. */
  lemma ProjectedAtRanks(ms: seq<Match>, s: seq<Match>, id: int)
    requires AtTheirRanks(ms, s, id) && AscendingRanks(s)
    ensures var ps := ProjectAll(s);
            && (forall a :: 0 <= a < |ps| ==>
                  && 1 <= ps[a].rank <= |ms|
                  && ms[ps[a].rank - 1].doc.id == id
                  && ps[a] == Project(ms[ps[a].rank - 1]))
            && (forall a, b :: 0 <= a < b < |ps| ==> ps[a].rank < ps[b].rank)
  {
    var ps := ProjectAll(s);
    assert forall a :: 0 <= a < |ps| ==> ps[a] == Project(s[a]);
  }

  /** The result built from a group holding the matches of its id. */
  lemma ResultOfGroup(ms: seq<Match>, g: Group)
    requires RanksFromOne(ms) && g.doc.id in Ids(Docs(ms))
    requires g.matches == MatchesOf(ms, g.doc.id) && |g.matches| > 0 && g.doc == g.matches[0].doc
    requires g.bestScore == MaxBy(g.matches, MatchScore)
    ensures ResultOf(g).metadata.id == g.doc.id
    ensures ResultHoldsMatches(ms, ResultOf(g))
    ensures TopScore(ResultOf(g)) == g.bestScore
  {
    var id := g.doc.id;
    var r := ResultOf(g);
    GroupSortIsIdentity(ms, id);
    MatchesOfRanks(ms, id);
    MatchesOfFirst(ms, id);
    MaxByProjected(g.matches);
    ProjectedAtRanks(ms, g.matches, id);
    assert r.matches == ProjectAll(MatchesOf(ms, id));
    assert r.matches[0] == Project(g.matches[0]);
    assert ms[FirstIndex(Docs(ms), id)].rank == FirstIndex(Docs(ms), id) + 1;
  }

  // The facts of `GroupMatchesSpec`, one at a time.

  lemma GroupsDistinct(ms: seq<Match>)
    ensures DistinctBy(GroupMatches(ms), GroupTag)
  {
    GroupMatchesSpec(ms);
  }

  lemma GroupAt(ms: seq<Match>, p: int)
    requires 0 <= p < |GroupMatches(ms)|
    ensures var g := GroupMatches(ms)[p];
            && g.doc.id in Ids(Docs(ms))
            && g.matches == MatchesOf(ms, g.doc.id) && |g.matches| > 0 && g.doc == g.matches[0].doc
            && g.bestScore == MaxBy(g.matches, MatchScore)
  {
    GroupMatchesSpec(ms);
  }

  lemma GroupFor(ms: seq<Match>, id: int)
    requires id in Ids(Docs(ms))
    ensures exists p :: 0 <= p < |GroupMatches(ms)| && GroupMatches(ms)[p].doc.id == id
  {
    var gs := GroupMatches(ms);
    GroupMatchesSpec(ms);
    assert id in GroupIds(gs);
    var g :| g in gs && g.doc.id == id;
    var p :| 0 <= p < |gs| && gs[p] == g;
  }

  lemma GroupsOrdered(ms: seq<Match>, p: int, q: int)
    requires 0 <= p < q < |GroupMatches(ms)|
    ensures var gs := GroupMatches(ms);
            && gs[p].doc.id in Ids(Docs(ms)) && gs[q].doc.id in Ids(Docs(ms))
            && FirstIndex(Docs(ms), gs[p].doc.id) < FirstIndex(Docs(ms), gs[q].doc.id)
  {
    GroupMatchesSpec(ms);
  }

  /** The `i`-th result is built from the `i`-th group after sorting. */
  lemma RankedResultAt(ms: seq<Match>, i: int)
    requires RanksFromOne(ms) && 0 <= i < |RankResults(ms)|
    ensures var sorted := SortBy(GroupMatches(ms), BestScoreKey, true);
            && RankResults(ms)[i] == ResultOf(sorted[i])
            && RankResults(ms)[i].metadata.id == sorted[i].doc.id
            && ResultHoldsMatches(ms, RankResults(ms)[i])
            && TopScore(RankResults(ms)[i]) == sorted[i].bestScore
  {
    var gs := GroupMatches(ms);
    var sorted := SortBy(gs, BestScoreKey, true);
    SortedFromInput(gs, BestScoreKey, true, i);
    var p :| 0 <= p < |gs| && gs[p] == sorted[i];
    GroupAt(ms, p);
    ResultOfGroup(ms, gs[p]);
  }

  /** Results with equal best scores keep the order of their first matches. */
  lemma RankedTies(ms: seq<Match>, i: int, j: int)
    requires RanksFromOne(ms) && 0 <= i < j < |RankResults(ms)|
    requires SortBy(GroupMatches(ms), BestScoreKey, true)[i].bestScore
          == SortBy(GroupMatches(ms), BestScoreKey, true)[j].bestScore
    ensures var sorted := SortBy(GroupMatches(ms), BestScoreKey, true);
            && sorted[i].doc.id in Ids(Docs(ms)) && sorted[j].doc.id in Ids(Docs(ms))
            && FirstIndex(Docs(ms), sorted[i].doc.id) < FirstIndex(Docs(ms), sorted[j].doc.id)
  {
    var gs := GroupMatches(ms);
    var sorted := SortBy(gs, BestScoreKey, true);
    SortByTies(gs, BestScoreKey, true, i, j);
    var p, q :| 0 <= p < q < |gs| && gs[p] == sorted[i] && gs[q] == sorted[j];
    GroupsOrdered(ms, p, q);
  }

  /** Every match lands in the result of its row id. */
  lemma RankedComplete(ms: seq<Match>, k: int)
    requires RanksFromOne(ms) && 0 <= k < |ms|
    ensures exists i :: 0 <= i < |RankResults(ms)| && RankResults(ms)[i].metadata.id == ms[k].doc.id
                        && Project(ms[k]) in RankResults(ms)[i].matches
  {
    var id := ms[k].doc.id;
    assert Docs(ms)[k] in Docs(ms);
    var i := ResultFor(ms, id);
    MatchesOfMembers(ms, id);
    assert ms[k] in MatchesOf(ms, id);
    var a :| 0 <= a < |MatchesOf(ms, id)| && MatchesOf(ms, id)[a] == ms[k];
    assert RankResults(ms)[i].matches[a] == Project(ms[k]);
  }

  /** The position of the result for a row id that has matches. */
  lemma ResultFor(ms: seq<Match>, id: int) returns (i: int)
    requires RanksFromOne(ms) && id in Ids(Docs(ms))
    ensures 0 <= i < |RankResults(ms)| && RankResults(ms)[i].metadata.id == id
    ensures ResultHoldsMatches(ms, RankResults(ms)[i])
  {
    var gs := GroupMatches(ms);
    var sorted := SortBy(gs, BestScoreKey, true);
    GroupFor(ms, id);
    var p :| 0 <= p < |gs| && gs[p].doc.id == id;
    assert gs[p] in multiset(sorted);
    i :| 0 <= i < |sorted| && sorted[i] == gs[p];
    RankedResultAt(ms, i);
  }

  lemma RankedHold(ms: seq<Match>)
    requires RanksFromOne(ms)
    ensures forall i :: 0 <= i < |RankResults(ms)| ==> ResultHoldsMatches(ms, RankResults(ms)[i])
    ensures NonEmptyResults(RankResults(ms))
  {
    forall i | 0 <= i < |RankResults(ms)| ensures ResultHoldsMatches(ms, RankResults(ms)[i]) {
      RankedResultAt(ms, i);
    }
  }

  lemma RankedDistinct(ms: seq<Match>)
    requires RanksFromOne(ms)
    ensures DistinctResults(RankResults(ms))
  {
    var gs := GroupMatches(ms);
    var sorted := SortBy(gs, BestScoreKey, true);
    var rs := RankResults(ms);
    GroupsDistinct(ms);
    SortByDistinct(gs, BestScoreKey, true, GroupTag);
    forall i, j | 0 <= i < j < |rs| ensures rs[i].metadata.id != rs[j].metadata.id {
      RankedResultAt(ms, i);
      RankedResultAt(ms, j);
      assert GroupTag(sorted[i]) != GroupTag(sorted[j]);
    }
  }

  lemma RankedOrder(ms: seq<Match>)
    requires RanksFromOne(ms) && NonEmptyResults(RankResults(ms))
    ensures ByTopScore(RankResults(ms))
  {
    var gs := GroupMatches(ms);
    var sorted := SortBy(gs, BestScoreKey, true);
    var rs := RankResults(ms);
    SortBySorted(gs, BestScoreKey, true);
    forall i, j | 0 <= i < j < |rs| ensures TopScore(rs[i]) >= TopScore(rs[j]) {
      RankedResultAt(ms, i);
      RankedResultAt(ms, j);
      assert InOrder(BestScoreKey, true, sorted[i], sorted[j]);
    }
    forall i, j | 0 <= i < j < |rs| && TopScore(rs[i]) == TopScore(rs[j])
      ensures rs[i].matches[0].rank < rs[j].matches[0].rank
    {
      RankedResultAt(ms, i);
      RankedResultAt(ms, j);
      RankedTies(ms, i, j);
    }
  }

  /** The grouping and ordering stage of `hybrid_search` meets `RankedFrom`. */
  lemma RankResultsSpec(ms: seq<Match>)
    requires RanksFromOne(ms)
    ensures RankedFrom(ms, RankResults(ms))
  {
    RankedHold(ms);
    RankedDistinct(ms);
    RankedOrder(ms);
    RankedAllShown(ms);
  }

  lemma RankedAllShown(ms: seq<Match>)
    requires RanksFromOne(ms)
    ensures EveryMatchShown(ms, RankResults(ms))
  {
    forall k | 0 <= k < |ms|
      ensures exists i :: 0 <= i < |RankResults(ms)| && RankResults(ms)[i].metadata.id == ms[k].doc.id
                          && Project(ms[k]) in RankResults(ms)[i].matches
    {
      RankedComplete(ms, k);
    }
  }

  // ---------------------------------------------------------------------------
  // The whole search
  // ---------------------------------------------------------------------------

  /** `hybrid_search` after the two database searches: `semantic` and
      `keyword` are their rows in result order, `rerank(query, texts)` is the
      reranker's answer or the text of its exception, and precision mode
      without a single question/answer pair returns no results without
      calling the reranker. */
  function Search(query: string, semantic: seq<DocumentRow>, keyword: seq<DocumentRow>, precision: bool,
                  rerank: Reranker): Result<SearchRun, SearchError>
  {
    var cands := Candidates(MergeCandidates(semantic, keyword), precision);
    var texts := Texts(cands);
    if precision && |texts| == 0 then Success(SearchRun([], None))
    else
      match rerank(query, texts)
      case Failure(text) => Failure(RerankFailed(text))
      case Success(hits) =>
        match CollectMatches(cands, hits)
        case Failure(e) => Failure(e)
        case Success(ms) => Success(SearchRun(RankResults(ms), Some(texts)))
  }

  /** The search contract: the reranker is skipped exactly when precision mode
      finds no question/answer pair among the merged rows; otherwise it sees
      one text per candidate; the search fails exactly when the reranker call
      fails, carrying its text, or names an index outside the candidates; and
      a successful search's results meet `RankedFrom` for the matches built
      from the reranker's answer. */
  lemma SearchSpec(query: string, semantic: seq<DocumentRow>, keyword: seq<DocumentRow>, precision: bool,
                   rerank: Reranker)
    ensures var rows := MergeCandidates(semantic, keyword);
            var cands := Candidates(rows, precision);
            var answer := rerank(query, Texts(cands));
            var r := Search(query, semantic, keyword, precision, rerank);
            && ((r.Success? && r.value.rerankedTexts.None?) <==>
                  precision && forall i :: 0 <= i < |rows| ==> |rows[i].qaPairs| == 0)
            && (r.Success? && r.value.rerankedTexts.None? ==> r.value.results == [])
            && (r.Success? && r.value.rerankedTexts.Some? ==> r.value.rerankedTexts.value == Texts(cands))
            && (r.Failure? && r.error.RerankFailed? <==>
                  !(precision && |cands| == 0) && answer.Failure?)
            && (r.Failure? && r.error.RerankFailed? ==> r.error.text == answer.error)
            && (r.Failure? && r.error.RerankIndexOutOfRange? <==>
                  && !(precision && |cands| == 0) && answer.Success?
                  && exists k :: 0 <= k < |answer.value| && !Resolves(cands, answer.value[k]))
            && (r.Success? && r.value.rerankedTexts.Some? ==>
                  && answer.Success?
                  && CollectMatches(cands, answer.value).Success?
                  && RankedFrom(CollectMatches(cands, answer.value).value, r.value.results))
  {
    SearchSkips(query, semantic, keyword, precision, rerank);
    SearchFails(query, semantic, keyword, precision, rerank);
    SearchSucceeds(query, semantic, keyword, precision, rerank);
  }

  /** The reranker is skipped exactly when precision mode finds no pair, and
      then there are no results; otherwise it sees the candidates' texts. */
  lemma SearchSkips(query: string, semantic: seq<DocumentRow>, keyword: seq<DocumentRow>, precision: bool,
                    rerank: Reranker)
    ensures var rows := MergeCandidates(semantic, keyword);
            var cands := Candidates(rows, precision);
            var r := Search(query, semantic, keyword, precision, rerank);
            && ((r.Success? && r.value.rerankedTexts.None?) <==>
                  precision && forall i :: 0 <= i < |rows| ==> |rows[i].qaPairs| == 0)
            && (r.Success? && r.value.rerankedTexts.None? ==> r.value.results == [])
            && (r.Success? && r.value.rerankedTexts.Some? ==> r.value.rerankedTexts.value == Texts(cands))
  {
    var rows := MergeCandidates(semantic, keyword);
    PrecisionCandidatesEmpty(rows);
  }

  /** The two ways the search raises: the reranker call fails, or it names an
      index outside the candidates. */
  lemma SearchFails(query: string, semantic: seq<DocumentRow>, keyword: seq<DocumentRow>, precision: bool,
                    rerank: Reranker)
    ensures var cands := Candidates(MergeCandidates(semantic, keyword), precision);
            var answer := rerank(query, Texts(cands));
            var r := Search(query, semantic, keyword, precision, rerank);
            && (r.Failure? && r.error.RerankFailed? <==>
                  !(precision && |cands| == 0) && answer.Failure?)
            && (r.Failure? && r.error.RerankFailed? ==> r.error.text == answer.error)
            && (r.Failure? && r.error.RerankIndexOutOfRange? <==>
                  && !(precision && |cands| == 0) && answer.Success?
                  && exists k :: 0 <= k < |answer.value| && !Resolves(cands, answer.value[k]))
  {
    var cands := Candidates(MergeCandidates(semantic, keyword), precision);
    var answer := rerank(query, Texts(cands));
    if answer.Success? {
      var c := CollectMatches(cands, answer.value);
    }
  }

  /** A search that called the reranker and succeeded ranks the matches built
      from its answer as `RankedFrom` describes. */
  lemma SearchSucceeds(query: string, semantic: seq<DocumentRow>, keyword: seq<DocumentRow>, precision: bool,
                       rerank: Reranker)
    ensures var cands := Candidates(MergeCandidates(semantic, keyword), precision);
            var answer := rerank(query, Texts(cands));
            var r := Search(query, semantic, keyword, precision, rerank);
            r.Success? && r.value.rerankedTexts.Some? ==>
              && answer.Success?
              && CollectMatches(cands, answer.value).Success?
              && RankedFrom(CollectMatches(cands, answer.value).value, r.value.results)
  {
    var cands := Candidates(MergeCandidates(semantic, keyword), precision);
    var answer := rerank(query, Texts(cands));
    if !(precision && |cands| == 0) && answer.Success? {
      var c := CollectMatches(cands, answer.value);
      if c.Success? {
        RankResultsSpec(c.value);
      }
    }
  }

  /** A successful regular-mode search holds the ranked matches built from
      the reranker's answer. */
  lemma RegularSearchResults(query: string, semantic: seq<DocumentRow>, keyword: seq<DocumentRow>, rerank: Reranker)
    ensures var cands := RegularCandidates(MergeCandidates(semantic, keyword));
            var answer := rerank(query, Texts(cands));
            var r := Search(query, semantic, keyword, false, rerank);
            r.Success? ==>
              && answer.Success? && CollectMatches(cands, answer.value).Success?
              && r.value.results == RankResults(CollectMatches(cands, answer.value).value)
  {
  }

  /** Python's `match_info[index]` picks the same entry for the two hits. */
  predicate SameTarget(n: nat, a: RerankHit, b: RerankHit) {
    ResolveIndex(n, a.index) == ResolveIndex(n, b.index)
  }

  /** The reranker names every candidate at most once. */
  predicate DistinctTargets(n: nat, hits: seq<RerankHit>) {
    forall a, b :: 0 <= a < b < |hits| ==> !SameTarget(n, hits[a], hits[b])
  }

  lemma {:induction false} MatchesOfSingle(ms: seq<Match>, id: int)
    requires forall a, b :: 0 <= a < b < |ms| ==> ms[a].doc.id != ms[b].doc.id
    ensures |MatchesOf(ms, id)| <= 1
    decreases |ms|
  {
    if |ms| > 0 {
      var p := ms[..|ms| - 1];
      var m := ms[|ms| - 1];
      assert ms == p + [m];
      MatchesOfSingle(p, id);
      MatchesOfAppend(p, m, id);
      if m.doc.id == id {
        assert forall k :: 0 <= k < |p| ==> Docs(p)[k].id != id;
        assert id !in Ids(Docs(p));
        MatchesOfAbsent(p, id);
      }
    }
  }

  /** In regular mode each merged row is one candidate, so when the reranker
      names every candidate at most once, every result holds exactly one
      match. */
  lemma RegularSingleMatches(semantic: seq<DocumentRow>, keyword: seq<DocumentRow>, hits: seq<RerankHit>)
    requires var cands := RegularCandidates(MergeCandidates(semantic, keyword));
             CollectMatches(cands, hits).Success? && DistinctTargets(|cands|, hits)
    ensures var ms := CollectMatches(RegularCandidates(MergeCandidates(semantic, keyword)), hits).value;
            forall i :: 0 <= i < |RankResults(ms)| ==> |RankResults(ms)[i].matches| == 1
  {
    var rows := MergeCandidates(semantic, keyword);
    var cands := RegularCandidates(rows);
    var ms := CollectMatches(cands, hits).value;
    MergeSemanticFirst(semantic, keyword);
    forall a, b | 0 <= a < b < |ms| ensures ms[a].doc.id != ms[b].doc.id {
      var x := ResolveIndex(|cands|, hits[a].index).value;
      var y := ResolveIndex(|cands|, hits[b].index).value;
      assert !SameTarget(|cands|, hits[a], hits[b]);
      assert ms[a].doc == rows[x] && ms[b].doc == rows[y];
    }
    assert RanksFromOne(ms);
    RankedHold(ms);
    forall i | 0 <= i < |RankResults(ms)| ensures |RankResults(ms)[i].matches| == 1 {
      MatchesOfSingle(ms, RankResults(ms)[i].metadata.id);
    }
  }

  // ---------------------------------------------------------------------------
  // The metadata conversion as written
  // ---------------------------------------------------------------------------

  /** The validation error `from_orm` raises for a row without `file_id`. */
  const MissingFileIdText: string := "file_id: field required"

  /** `DocumentMetadata.from_orm(doc)` as the code has it: the schema
      declares a required `file_id`, and a stored row has no attribute of
      that name, so validation fails for every row. */
  function MetadataAsWritten(row: DocumentRow): Result<DocumentMetadata, string>
  {
    Failure(MissingFileIdText)
  }

  /** The `final_results` loop with a given metadata conversion: the first
      group whose conversion fails raises. */
  function ResultsWith(groups: seq<Group>, convert: DocumentRow -> Result<DocumentMetadata, string>)
    : Result<seq<DocumentSearchResult>, string>
    decreases |groups|
  {
    if |groups| == 0 then Success([])
    else
      match convert(groups[0].doc)
      case Failure(text) => Failure(text)
      case Success(metadata) =>
        match ResultsWith(groups[1..], convert)
        case Failure(text) => Failure(text)
        case Success(rest) =>
          Success([DocumentSearchResult(metadata, ProjectAll(SortBy(groups[0].matches, RankKey, false)))] + rest)
  }

  /** The conversion the search evidently intends: the row's own fields. */
  function MetadataIntended(row: DocumentRow): Result<DocumentMetadata, string>
  {
    Success(MetadataOf(row))
  }

  /** With a conversion that accepts every row, the loop builds one result
      per group, in group order. */
  lemma {:induction false} ResultsWithIntended(groups: seq<Group>)
    ensures var r := ResultsWith(groups, MetadataIntended);
            && r.Success? && |r.value| == |groups|
            && forall i :: 0 <= i < |groups| ==> r.value[i] == ResultOf(groups[i])
    decreases |groups|
  {
    if |groups| > 0 {
      var tail := groups[1..];
      ResultsWithIntended(tail);
      var rest := ResultsWith(tail, MetadataIntended).value;
      assert MetadataIntended(groups[0].doc) == Success(MetadataOf(groups[0].doc));
      var all := [ResultOf(groups[0])] + rest;
      assert ResultsWith(groups, MetadataIntended) == Success(all);
      forall i | 0 < i < |groups| ensures all[i] == ResultOf(groups[i]) {
        assert all[i] == rest[i - 1] && tail[i - 1] == groups[i];
      }
    }
  }

  /** The corrected `Search` is the same loop with the intended conversion. */
  lemma IntendedIsRankResults(ms: seq<Match>)
    ensures ResultsWith(SortBy(GroupMatches(ms), BestScoreKey, true), MetadataIntended) == Success(RankResults(ms))
  {
    var sorted := SortBy(GroupMatches(ms), BestScoreKey, true);
    ResultsWithIntended(sorted);
    assert ResultsWith(sorted, MetadataIntended).value == RankResults(ms);
  }

  /** `hybrid_search` as written: `Search` with the conversion above in
      place of `MetadataOf`. */
  function SearchAsWritten(query: string, semantic: seq<DocumentRow>, keyword: seq<DocumentRow>, precision: bool,
                           rerank: Reranker): Result<SearchRun, SearchError>
  {
    var cands := Candidates(MergeCandidates(semantic, keyword), precision);
    var texts := Texts(cands);
    if precision && |texts| == 0 then Success(SearchRun([], None))
    else
      match rerank(query, texts)
      case Failure(text) => Failure(RerankFailed(text))
      case Success(hits) =>
        match CollectMatches(cands, hits)
        case Failure(e) => Failure(e)
        case Success(ms) =>
          match ResultsWith(SortBy(GroupMatches(ms), BestScoreKey, true), MetadataAsWritten)
          case Failure(text) => Failure(MetadataInvalid(text))
          case Success(results) => Success(SearchRun(results, Some(texts)))
  }

  /** The conversion as written fails on the first group there is. */
  lemma ResultsAsWrittenFail(groups: seq<Group>)
    ensures |groups| > 0 <==> ResultsWith(groups, MetadataAsWritten) == Failure(MissingFileIdText)
    ensures |groups| == 0 ==> ResultsWith(groups, MetadataAsWritten) == Success([])
  {
  }

  /** With the code as written, a search that would return any result raises
      the validation error instead; only searches with no result, or that
      fail earlier, come out as the corrected `Search` says. */
  lemma AsWrittenLosesResults(query: string, semantic: seq<DocumentRow>, keyword: seq<DocumentRow>, precision: bool,
                              rerank: Reranker)
    ensures var r := Search(query, semantic, keyword, precision, rerank);
            var w := SearchAsWritten(query, semantic, keyword, precision, rerank);
            && (r.Success? && |r.value.results| > 0 ==> w == Failure(MetadataInvalid(MissingFileIdText)))
            && (r.Success? && |r.value.results| == 0 ==> w == r)
            && (r.Failure? ==> w == r)
            && (w.Success? ==> w.value.results == [])
  {
    var cands := Candidates(MergeCandidates(semantic, keyword), precision);
    var texts := Texts(cands);
    if !(precision && |texts| == 0) && rerank(query, texts).Success? {
      var hits := rerank(query, texts).value;
      if CollectMatches(cands, hits).Success? {
        var ms := CollectMatches(cands, hits).value;
        ResultsAsWrittenFail(SortBy(GroupMatches(ms), BestScoreKey, true));
      }
    }
  }
}

=== FILE: keyphrase.dfy ===
/** `extract_highlight_keyphrase` and `generate_query_match_explanation`:
    choosing the words to highlight in a matched page, and the short match
    explanation. The chat model is a parameter: it receives the query, the
    CONTEXT section and the RAW TEXT section (the prompt wording around them
    is not modelled) and returns the message content, or `None` when the call
    raises or the content is missing. */
module Keyphrase {
  import opened Wrappers
  import opened Strings
  import opened Sequences

  const MetadataMarker: string := "METADATA:"
  const ContextMarker: string := "CONTEXT:"
  const RawTextMarker: string := "RAW TEXT:"
  const NoMatchReply: string := "NO_MATCH_FOUND"
  const ExplanationFallback: string := "Unable to generate explanation."

  /** The words the first-sentence fallback never picks. */
  const StopWords: seq<string> := ["this", "that", "with", "from", "have", "been", "were", "their", "there"]

  /** The chat model: `(query, context, raw text)` to the reply content. */
  type ChatModel = (string, string, string) -> Option<string>

  // ---------------------------------------------------------------------------
  // Explanation
  // ---------------------------------------------------------------------------

  /** `generate_query_match_explanation`: the stripped reply, or the fixed
      fallback when the call fails. */
  function Explanation(reply: Option<string>): (r: string)
    ensures reply.None? ==> r == ExplanationFallback
    ensures reply.Some? ==> Contains(reply.value, r) && (|r| > 0 ==> NotSpace(r[0]) && NotSpace(r[|r| - 1]))
  {
    match reply
    case None => ExplanationFallback
    case Some(content) => Strip(content)
  }

  // ---------------------------------------------------------------------------
  // Sections of a chunk
  // ---------------------------------------------------------------------------

  datatype Sections = Sections(rawText: string, contextInfo: string)

  /** The text between the first `marker` and the next one (or the end). */
  function AfterFirst(s: string, marker: string): string
    requires |marker| > 0
  {
    var parts := Split(s, marker);
    if |parts| > 1 then parts[1] else ""
  }

  /** The RAW TEXT and CONTEXT sections of a chunk; the raw text falls back
      to the whole chunk when the section is missing or blank. */
  function ExtractSections(chunk: string): Sections
  {
    var structured := Contains(chunk, MetadataMarker);
    var raw := if structured then Strip(AfterFirst(chunk, RawTextMarker)) else "";
    var context :=
      if structured && |Split(chunk, ContextMarker)| > 1 then
        var section := AfterFirst(chunk, ContextMarker);
        Strip(if Contains(section, RawTextMarker) then Split(section, RawTextMarker)[0] else section)
      else "";
    Sections(if raw == "" then chunk else raw, context)
  }

  /** The text after the first `marker`, up to its next occurrence. */
  function Section(s: string, marker: string): string
    requires |marker| > 0 && Contains(s, marker)
  {
    CutAt(s[IndexOf(s, marker) + |marker|..], marker)
  }

  /** The text before the first `marker`, or all of it. */
  function CutAt(s: string, marker: string): string
  {
    var j := IndexOf(s, marker);
    if j < 0 then s else s[..j]
  }

  /** The stripped text after the first `marker`, up to its next occurrence. */
  function SegmentAfter(s: string, marker: string): string
    requires |marker| > 0 && Contains(s, marker)
  {
    Strip(Section(s, marker))
  }

  /** What the raw text is: the whole chunk without the METADATA marker, a
      RAW TEXT marker or a non-blank segment after it; otherwise the stripped
      segment after the first RAW TEXT marker, up to any second one. Either
      way it is a substring of the chunk. */
  lemma RawTextSpec(chunk: string)
    ensures var raw := ExtractSections(chunk).rawText;
            && (!Contains(chunk, MetadataMarker) || !Contains(chunk, RawTextMarker) ==> raw == chunk)
            && (Contains(chunk, MetadataMarker) && Contains(chunk, RawTextMarker) ==>
                  raw == if SegmentAfter(chunk, RawTextMarker) == "" then chunk else SegmentAfter(chunk, RawTextMarker))
            && Contains(chunk, raw)
  {
    RawTextValue(chunk);
    RawTextContained(chunk);
  }

  /** The raw text's value, case by case. */
  lemma RawTextValue(chunk: string)
    ensures var raw := ExtractSections(chunk).rawText;
            && (!Contains(chunk, MetadataMarker) || !Contains(chunk, RawTextMarker) ==> raw == chunk)
            && (Contains(chunk, MetadataMarker) && Contains(chunk, RawTextMarker) ==>
                  raw == if SegmentAfter(chunk, RawTextMarker) == "" then chunk else SegmentAfter(chunk, RawTextMarker))
  {
    SplitCount(chunk, RawTextMarker);
    if Contains(chunk, RawTextMarker) {
      SecondPiece(chunk, RawTextMarker);
    }
  }

  /** The raw text is a substring of the chunk. */
  lemma RawTextContained(chunk: string)
    ensures Contains(chunk, ExtractSections(chunk).rawText)
  {
    var pieces := Split(chunk, RawTextMarker);
    if |pieces| > 1 {
      SplitPiecesContained(chunk, RawTextMarker);
      assert pieces[1] in pieces;
      StripContained(pieces[1]);
      ContainsTrans(chunk, pieces[1], Strip(pieces[1]));
    }
    SliceContained(chunk, 0, |chunk|);
    assert chunk[0..|chunk|] == chunk;
  }

  /** The context is empty without the METADATA and CONTEXT markers;
      otherwise it is the segment after the first CONTEXT marker, cut at the
      first RAW TEXT marker in it, stripped. */
  lemma ContextSpec(chunk: string)
    ensures var context := ExtractSections(chunk).contextInfo;
            && (!Contains(chunk, MetadataMarker) || !Contains(chunk, ContextMarker) ==> context == "")
            && (Contains(chunk, MetadataMarker) && Contains(chunk, ContextMarker) ==>
                  context == Strip(CutAt(Section(chunk, ContextMarker), RawTextMarker)))
  {
    SplitCount(chunk, ContextMarker);
    if Contains(chunk, ContextMarker) {
      SecondPiece(chunk, ContextMarker);
    }
  }

  // ---------------------------------------------------------------------------
  // The reply's keywords
  // ---------------------------------------------------------------------------

  /** The check each reply keyword must pass. */
  predicate IsValidKeyword(k: string, raw: string) {
    k != "" && Contains(raw, k) && |Strip(k)| >= 3
  }

  function StripAll(xs: seq<string>): (r: seq<string>)
    ensures |r| == |xs| && forall i :: 0 <= i < |xs| ==> r[i] == Strip(xs[i])
  {
    seq(|xs|, i requires 0 <= i < |xs| => Strip(xs[i]))
  }

  /** `[w.strip() for w in reply.split(",")]`. */
  function ReplyKeywords(reply: string): seq<string>
  {
    StripAll(Split(reply, ","))
  }

  /** The keywords that pass the check, in reply order. */
  function ValidKeywords(keywords: seq<string>, raw: string): (r: seq<string>)
    ensures forall k :: k in r <==> k in keywords && IsValidKeyword(k, raw)
  {
    Filter(keywords, k => IsValidKeyword(k, raw))
  }

  /** Nothing valid is dropped and the order is kept: when every keyword
      passes, the validated list is the reply's list. */
  lemma ValidKeywordsAllPass(keywords: seq<string>, raw: string)
    requires forall i :: 0 <= i < |keywords| ==> IsValidKeyword(keywords[i], raw)
    ensures ValidKeywords(keywords, raw) == keywords
  {
    FilterAllPass(keywords, k => IsValidKeyword(k, raw));
  }

  /** No keyword, nothing valid. */
  lemma ValidKeywordsNone(raw: string)
    ensures ValidKeywords([], raw) == []
  {
  }

  /** The validated list grows with the reply: a further keyword is
      appended when it passes and changes nothing otherwise, so the kept
      keywords stand in reply order with their repeats. */
  lemma ValidKeywordsAppend(keywords: seq<string>, k: string, raw: string)
    ensures ValidKeywords(keywords + [k], raw) ==
              ValidKeywords(keywords, raw) + (if IsValidKeyword(k, raw) then [k] else [])
  {
    FilterAppend(keywords, [k], k => IsValidKeyword(k, raw));
    FilterOne(k, k => IsValidKeyword(k, raw));
  }

  // ---------------------------------------------------------------------------
  // The query-word fallback
  // ---------------------------------------------------------------------------

  /** `[w.lower() for w in query.split() if len(w) > 3]`. */
  function QueryWords(query: string): seq<string>
  {
    LongLowered(Words(query))
  }

  function LongLowered(ws: seq<string>): (r: seq<string>)
    ensures forall q :: q in r ==> |q| > 3
    decreases |ws|
  {
    if |ws| == 0 then []
    else (if |ws[0]| > 3 then [Lower(ws[0])] else []) + LongLowered(ws[1..])
  }

  /** Each query word is the lowered form of a word of the query longer
      than 3 characters, and each such word contributes one. */
  lemma {:induction false} LongLoweredSpec(ws: seq<string>)
    ensures forall i :: 0 <= i < |LongLowered(ws)| ==>
              exists j :: 0 <= j < |ws| && |ws[j]| > 3 && LongLowered(ws)[i] == Lower(ws[j])
    ensures forall j :: 0 <= j < |ws| && |ws[j]| > 3 ==> Lower(ws[j]) in LongLowered(ws)
    decreases |ws|
  {
    if |ws| > 0 {
      LongLoweredSpec(ws[1..]);
      var head := if |ws[0]| > 3 then [Lower(ws[0])] else [];
      var rest := LongLowered(ws[1..]);
      assert LongLowered(ws) == head + rest;
      forall i | 0 <= i < |LongLowered(ws)|
        ensures exists j :: 0 <= j < |ws| && |ws[j]| > 3 && LongLowered(ws)[i] == Lower(ws[j])
      {
        if i < |head| {
          assert |ws[0]| > 3 && LongLowered(ws)[i] == Lower(ws[0]);
        } else {
          assert LongLowered(ws)[i] == rest[i - |head|];
          var j :| 0 <= j < |ws[1..]| && |ws[1..][j]| > 3 && rest[i - |head|] == Lower(ws[1..][j]);
          assert ws[1..][j] == ws[j + 1];
          assert |ws[j + 1]| > 3 && LongLowered(ws)[i] == Lower(ws[j + 1]);
        }
      }
      forall j | 0 <= j < |ws| && |ws[j]| > 3 ensures Lower(ws[j]) in LongLowered(ws) {
        if j > 0 {
          assert ws[j] == ws[1..][j - 1];
        }
      }
    } else {
      assert LongLowered(ws) == [];
    }
  }

  /** The text's own spelling of `word` at the first place where it occurs
      in the lowered text. */
  function Spelling(raw: string, word: string): (r: string)
    requires Contains(Lower(raw), word)
    ensures OccursAt(raw, r, IndexOf(Lower(raw), word))
    ensures Contains(raw, r) && Lower(r) == word
  {
    var start := IndexOf(Lower(raw), word);
    LowerSlice(raw, start, start + |word|);
    SliceContained(raw, start, start + |word|);
    raw[start..start + |word|]
  }

  /** For each lowered query word found in the lowered text, the text's own
      spelling, when it has at least 3 characters. */
  function FoundWords(words: seq<string>, raw: string): (r: seq<string>)
    ensures forall w :: w in r ==> Contains(raw, w) && |w| >= 3
    decreases |words|
  {
    if |words| == 0 then []
    else
      var rest := FoundWords(words[1..], raw);
      if Contains(Lower(raw), words[0]) && |Spelling(raw, words[0])| >= 3 then [Spelling(raw, words[0])] + rest
      else rest
  }

  /** Each found word lower-cases to one of the query words. */
  lemma {:induction false} FoundWordsLowered(words: seq<string>, raw: string)
    ensures forall w :: w in FoundWords(words, raw) ==> Lower(w) in words
    decreases |words|
  {
    if |words| > 0 {
      FoundWordsLowered(words[1..], raw);
    }
  }

  // ---------------------------------------------------------------------------
  // The first-sentence fallback
  // ---------------------------------------------------------------------------

  function Min(a: int, b: int): int { if a < b then a else b }

  /** `raw_text.find(".", 0, 100)`. */
  function FirstPeriod(raw: string): (r: int)
    ensures -1 <= r < Min(100, |raw|)
    ensures r >= 0 ==> raw[r] == '.'
  {
    var prefix := raw[..Min(100, |raw|)];
    var r := IndexOf(prefix, ".");
    assert r >= 0 ==> prefix[r..r + 1] == "." && raw[r] == prefix[r];
    r
  }

  function SentenceCandidates(ws: seq<string>): (r: seq<string>)
    ensures forall w :: w in r ==> w in ws && |w| > 3 && Lower(w) !in StopWords
    decreases |ws|
  {
    if |ws| == 0 then []
    else (if |ws[0]| > 3 && Lower(ws[0]) !in StopWords then [ws[0]] else []) + SentenceCandidates(ws[1..])
  }

  /** The long, non-stop words of the first sentence when a period sits at
      an index from 6 to 99; none otherwise. */
  function SentenceWords(raw: string): seq<string>
  {
    var p := FirstPeriod(raw);
    if p != -1 && p > 5 then SentenceCandidates(Words(Strip(raw[..p + 1]))) else []
  }

  /** The first-sentence words occur in the raw text, are longer than 3
      characters and are not stop words; there are none unless the first
      period within the first 100 characters is past index 5. */
  lemma SentenceWordsSpec(raw: string)
    ensures forall w :: w in SentenceWords(raw) ==> Contains(raw, w) && |w| > 3 && Lower(w) !in StopWords
    ensures |SentenceWords(raw)| > 0 ==> 5 < FirstPeriod(raw) < 100 && raw[FirstPeriod(raw)] == '.'
  {
    var p := FirstPeriod(raw);
    if p != -1 && p > 5 {
      var sentence := Strip(raw[..p + 1]);
      WordsContained(sentence);
      SliceContained(raw, 0, p + 1);
      assert raw[0..p + 1] == raw[..p + 1];
      ContainsTrans(raw, raw[..p + 1], sentence);
      forall w | w in SentenceWords(raw) ensures Contains(raw, w) {
        ContainsTrans(raw, sentence, w);
      }
    }
  }

  // ---------------------------------------------------------------------------
  // The whole choice
  // ---------------------------------------------------------------------------

  /** `raw_text[: min(30, len(raw_text))]`. */
  function Head(raw: string): (r: string)
    ensures |r| == Min(30, |raw|) && r == raw[..|r|]
  {
    raw[..Min(30, |raw|)]
  }

  /** The choice once the reply had no keyword that passed the check: query
      words found in the text, else up to 5 first-sentence words, else the
      stripped head of the text. */
  function Fallback(query: string, raw: string): string
  {
    var found := FoundWords(QueryWords(query), raw);
    if |found| > 0 then Join(found, ",") else SentenceChoice(raw)
  }

  /** Up to 5 first-sentence words, else the stripped head of the text. */
  function SentenceChoice(raw: string): string
  {
    var words := SentenceWords(raw);
    if |words| > 0 then Join(words[..Min(5, |words|)], ",") else Strip(Head(raw))
  }

  /** The choice given the stripped reply. */
  function FromReply(query: string, raw: string, reply: string): string
  {
    if reply == NoMatchReply then Head(raw)
    else
      var valid := ValidKeywords(ReplyKeywords(reply), raw);
      if |valid| > 0 then Join(valid, ",") else Fallback(query, raw)
  }

  /** `extract_highlight_keyphrase`. */
  function ExtractKeyphrase(query: string, chunk: string, chat: ChatModel): string
  {
    var sections := ExtractSections(chunk);
    match chat(query, sections.contextInfo, sections.rawText)
    case None => Head(sections.rawText)
    case Some(content) => FromReply(query, sections.rawText, Strip(content))
  }

  /** The reply the chat model gives for a chunk. */
  function ReplyFor(query: string, chunk: string, chat: ChatModel): Option<string>
  {
    var sections := ExtractSections(chunk);
    chat(query, sections.contextInfo, sections.rawText)
  }

  /** A failed call and a NO_MATCH_FOUND reply both give the first
      `min(30, |raw|)` characters of the raw text. */
  lemma KeyphraseOnNoMatch(query: string, chunk: string, chat: ChatModel)
    requires ReplyFor(query, chunk, chat).None? || Strip(ReplyFor(query, chunk, chat).value) == NoMatchReply
    ensures var raw := ExtractSections(chunk).rawText;
            var r := ExtractKeyphrase(query, chunk, chat);
            |r| == Min(30, |raw|) && r == raw[..|r|]
  {
  }

  /** When the reply has a keyword that passes the check, the choice is the
      passing keywords joined with "," in reply order; each is at least 3
      characters, a substring of the raw text, free of "," and of
      surrounding whitespace. */
  lemma FromReplyKeywords(query: string, raw: string, reply: string)
    requires reply != NoMatchReply && |ValidKeywords(ReplyKeywords(reply), raw)| > 0
    ensures var valid := ValidKeywords(ReplyKeywords(reply), raw);
            && FromReply(query, raw, reply) == Join(valid, ",")
            && forall k :: k in valid ==>
                 && |k| >= 3 && Contains(raw, k) && !Contains(k, ",") && Strip(k) == k
  {
    var keywords := ReplyKeywords(reply);
    var valid := ValidKeywords(keywords, raw);
    SplitPiecesFree(reply, ",");
    forall k | k in valid ensures |k| >= 3 && !Contains(k, ",") && Strip(k) == k {
      var i :| 0 <= i < |keywords| && keywords[i] == k;
      var piece := Split(reply, ",")[i];
      assert piece in Split(reply, ",");
      StrippedPiece(piece, raw);
    }
  }

  /** A valid keyword stripped from a comma-free piece is itself comma-free,
      stripped and at least 3 characters long. */
  lemma StrippedPiece(piece: string, raw: string)
    requires !Contains(piece, ",") && IsValidKeyword(Strip(piece), raw)
    ensures var k := Strip(piece);
            |k| >= 3 && !Contains(k, ",") && Strip(k) == k
  {
    var k := Strip(piece);
    StripIdempotent(piece);
    StripContained(piece);
    if Contains(k, ",") {
      ContainsTrans(piece, k, ",");
    }
  }

  /** The query fallback's words occur in the raw text and lower-case to
      query words longer than 3 characters. */
  lemma FallbackFromQuery(query: string, raw: string)
    requires |FoundWords(QueryWords(query), raw)| > 0
    ensures var found := FoundWords(QueryWords(query), raw);
            && Fallback(query, raw) == Join(found, ",")
            && forall w :: w in found ==> Contains(raw, w) && |w| > 3 && Lower(w) in QueryWords(query)
  {
    var found := FoundWords(QueryWords(query), raw);
    FoundWordsLowered(QueryWords(query), raw);
    forall w | w in found ensures |w| > 3 {
      assert |Lower(w)| > 3;
    }
  }

  /** The first-sentence choice joins at most 5 of the sentence words; only
      without them is it the stripped head of the text. */
  lemma SentenceChoiceSpec(raw: string)
    ensures var words := SentenceWords(raw);
            var five := words[..Min(5, |words|)];
            && (|words| > 0 ==>
                  && SentenceChoice(raw) == Join(five, ",")
                  && 5 < FirstPeriod(raw) < 100
                  && forall w :: w in five ==> Contains(raw, w) && |w| > 3 && Lower(w) !in StopWords)
            && (|words| == 0 ==> SentenceChoice(raw) == Strip(Head(raw)))
  {
    var words := SentenceWords(raw);
    SentenceWordsSpec(raw);
    assert forall w :: w in words[..Min(5, |words|)] ==> w in words;
  }

  /** Without found query words the fallback is the first-sentence choice. */
  lemma FallbackFromSentence(query: string, raw: string)
    requires |FoundWords(QueryWords(query), raw)| == 0
    ensures Fallback(query, raw) == SentenceChoice(raw)
  {
  }

  /** Every piece of `s.split(",")` is a substring of `raw` when `s` is. */
  lemma PiecesOfContained(raw: string, s: string)
    requires Contains(raw, s)
    ensures forall p :: p in Split(s, ",") ==> Contains(raw, p)
  {
    SplitPiecesContained(s, ",");
    forall p | p in Split(s, ",") ensures Contains(raw, p) {
      ContainsTrans(raw, s, p);
    }
  }

  /** The head of the text is a substring of it. */
  lemma HeadContained(raw: string)
    ensures Contains(raw, Head(raw)) && Contains(raw, Strip(Head(raw)))
  {
    SliceContained(raw, 0, |Head(raw)|);
    assert raw[0..|Head(raw)|] == Head(raw);
    ContainsTrans(raw, Head(raw), Strip(Head(raw)));
  }

  lemma SentenceChoicePieces(raw: string)
    ensures forall p :: p in Split(SentenceChoice(raw), ",") ==> Contains(raw, p)
  {
    var words := SentenceWords(raw);
    SentenceChoiceSpec(raw);
    if |words| > 0 {
      JoinPiecesContained(words[..Min(5, |words|)], ",", raw);
    } else {
      HeadContained(raw);
      PiecesOfContained(raw, Strip(Head(raw)));
    }
  }

  lemma FallbackPiecesInText(query: string, raw: string)
    ensures forall p :: p in Split(Fallback(query, raw), ",") ==> Contains(raw, p)
  {
    var found := FoundWords(QueryWords(query), raw);
    if |found| > 0 {
      JoinPiecesContained(found, ",", raw);
    } else {
      SentenceChoicePieces(raw);
    }
  }

  /** Whatever branch is taken, every ","-separated piece of the keyphrase
      is a substring of the raw text. */
  lemma KeyphrasePiecesInText(query: string, chunk: string, chat: ChatModel)
    ensures var raw := ExtractSections(chunk).rawText;
            forall p :: p in Split(ExtractKeyphrase(query, chunk, chat), ",") ==> Contains(raw, p)
  {
    var raw := ExtractSections(chunk).rawText;
    var reply := ReplyFor(query, chunk, chat);
    HeadContained(raw);
    if reply.None? || Strip(reply.value) == NoMatchReply {
      PiecesOfContained(raw, Head(raw));
    } else {
      var valid := ValidKeywords(ReplyKeywords(Strip(reply.value)), raw);
      if |valid| > 0 {
        JoinPiecesContained(valid, ",", raw);
      } else {
        FallbackPiecesInText(query, raw);
      }
    }
  }
}

=== FILE: numerals.dfy ===
/** Python's `int(text)` in base 10 and `str(n)` for integers, with the
    round trip that ties them together. */
module Numerals {
  import opened Wrappers
  import opened Strings

  predicate IsDigit(c: char) {
    '0' <= c <= '9'
  }

  function DigitValue(c: char): nat
    requires IsDigit(c)
  {
    c as int - '0' as int
  }

  function DigitChar(d: nat): (c: char)
    requires d < 10
    ensures IsDigit(c) && DigitValue(c) == d
  {
    ('0' as int + d) as char
  }

  predicate AllDigits(s: string) {
    forall i :: 0 <= i < |s| ==> IsDigit(s[i])
  }

  /** Whitespace `int()` skips around the number: the ASCII space and
      `\t`..`\r`, and the non-ASCII characters `str.isspace()` accepts
      (the ASCII separators 0x1c..0x1f are not skipped). */
  predicate IsIntSpace(c: char) {
    IsSpace(c) && !('\U{1c}' <= c <= '\U{1f}')
  }

  /** A base-10 digit body as `int()` accepts it: digits, with single
      underscores allowed between two digits. */
  predicate WellFormedDigits(s: string) {
    && |s| > 0 && IsDigit(s[0]) && IsDigit(s[|s| - 1])
    && forall i :: 0 <= i < |s| ==> IsDigit(s[i]) || (s[i] == '_' && i + 1 < |s| && IsDigit(s[i + 1]))
  }

  /** The value of a digit body, underscores ignored. */
  function BodyValue(s: string): nat
    decreases |s|
  {
    if |s| == 0 then 0
    else if IsDigit(s[|s| - 1]) then BodyValue(s[..|s| - 1]) * 10 + DigitValue(s[|s| - 1])
    else BodyValue(s[..|s| - 1])
  }

  /** Python's `int(text)`: `None` where Python raises `ValueError`.
      Only ASCII digits are modelled. */
  function ParseInt(text: string): Option<int>
  {
    var t := StripBy(text, IsIntSpace);
    if |t| > 0 && (t[0] == '+' || t[0] == '-') then
      if WellFormedDigits(t[1..]) then
        var v: int := BodyValue(t[1..]);
        Some(if t[0] == '-' then -v else v)
      else None
    else if WellFormedDigits(t) then Some(BodyValue(t))
    else None
  }

  /** The decimal digits of a natural number, without leading zeros. */
  function NatDigits(n: nat): (s: string)
    ensures |s| > 0 && AllDigits(s)
    decreases n
  {
    if n < 10 then [DigitChar(n)] else NatDigits(n / 10) + [DigitChar(n % 10)]
  }

  /** Python's `str(n)` for an integer. */
  function FormatInt(n: int): string
  {
    if n < 0 then "-" + NatDigits(-n) else NatDigits(n)
  }

  lemma {:induction false} NatDigitsValue(n: nat)
    ensures BodyValue(NatDigits(n)) == n
    decreases n
  {
    var s := NatDigits(n);
    if n >= 10 {
      NatDigitsValue(n / 10);
      assert s[..|s| - 1] == NatDigits(n / 10);
    }
  }

  /** `int(str(n)) == n`. */
  lemma ParseFormat(n: int)
    ensures ParseInt(FormatInt(n)) == Some(n)
  {
    var s := FormatInt(n);
    var m: nat := if n < 0 then -n else n;
    var d := NatDigits(m);
    NatDigitsValue(m);
    DigitsWellFormed(d);
    assert s == (if n < 0 then "-" + d else d);
    assert s[|s| - 1] == d[|d| - 1];
    DigitNotSpace(d[|d| - 1]);
    if n < 0 {
      assert s[0] == '-' && s[1..] == d;
    } else {
      DigitNotSpace(d[0]);
    }
    StripByClean(s, IsIntSpace);
  }

  lemma DigitNotSpace(c: char)
    requires IsDigit(c)
    ensures !IsIntSpace(c)
  {
  }

  lemma DigitsWellFormed(s: string)
    requires |s| > 0 && AllDigits(s)
    ensures WellFormedDigits(s)
  {
  }

  /** A text with no digit at all is never an integer. */
  lemma ParseNeedsDigit(text: string)
    requires forall i :: 0 <= i < |text| ==> !IsDigit(text[i])
    ensures ParseInt(text) == None
  {
    var t := StripBy(text, IsIntSpace);
    var k := |text| - |TrimStart(text, IsIntSpace)|;
    assert t == text[k..k + |t|];
    assert |t| > 1 ==> t[1..][0] == text[k + 1];
    assert |t| > 0 ==> t[0] == text[k];
  }
}

=== FILE: pdf_highlight.dfy ===
/** `get_highlighted_pdf` and the highlight planning behind it: the cache
    key and public URL, the choice between page-specific and all-pages
    highlighting, the page-key filter, the term list and the short-term skip.
    PyMuPDF is reduced to a page count and a search function giving the
    number of hits of a term on a page; md5 and `json.dumps` are parameters. */
module PdfHighlight {
  import opened Wrappers
  import opened Strings
  import opened Numerals
  import opened Http
  import Keyphrase

  const PublicRoute: string := "/highlighted_pdfs/"
  const PagedMarker: string := "_paged_"
  const RenderFailurePrefix: string := "Failed to create highlighted PDF: "
  const HighlightFailurePrefix: string := "Failed to add highlights: "

  /** One entry of `page_keywords`: the 1-based page key, as given, and the
      keywords for that page. */
  datatype PageEntry = PageEntry(key: string, keywords: seq<string>)

  datatype HighlightRequest = HighlightRequest(
    pdfUrl: string,
    searchTerm: string,
    bucketPrefix: Option<string>,
    pageKeywords: seq<PageEntry>)

  /** One highlight annotation: the 0-based page, the term and which of the
      term's hits on that page it covers. */
  datatype Annotation = Annotation(page: nat, term: string, hit: nat)

  /** An opened PDF: its page count and the number of hits of a term on a page. */
  datatype PdfDoc = PdfDoc(pageCount: nat, hits: (nat, string) -> nat)

  /** The download: the HTTP status and, when the body opens as a PDF, the document. */
  datatype Download = Download(status: int, document: Result<PdfDoc, string>)

  /** Why a render failed: the request raised, the status was not 200, or
      the body could not be opened or annotated. */
  datatype RenderFailure = Unreachable(message: string) | BadStatus(status: int) | Unreadable(message: string)

  /** The highlighted file written to `path`. */
  datatype Rendered = Rendered(path: string, annotations: seq<Annotation>)

  /** The returned URL, and the render when one was started. */
  datatype Outcome = Outcome(url: string, rendered: Option<Rendered>)

  /** The collaborators: md5 hex digest, `json.dumps(..., sort_keys=True)`,
      `os.path.exists`, the HTTP GET, and the highlight directory. */
  datatype Services = Services(
    md5: string -> string,
    dumps: seq<PageEntry> -> string,
    fileExists: string -> bool,
    fetch: string -> Result<Download, string>,
    highlightDir: string)

  // ---------------------------------------------------------------------------
  // Cache key and URL
  // ---------------------------------------------------------------------------

  function CacheKey(req: HighlightRequest, md5: string -> string, dumps: seq<PageEntry> -> string): string
  {
    if |req.pageKeywords| > 0 then req.pdfUrl + PagedMarker + md5(dumps(req.pageKeywords))
    else req.pdfUrl + "_" + req.searchTerm
  }

  /** With page keywords the key ignores the search term and depends on the
      keywords only through their serialisation; without them it is the URL
      and the term joined by "_". */
  lemma CacheKeySpec(a: HighlightRequest, b: HighlightRequest, md5: string -> string, dumps: seq<PageEntry> -> string)
    ensures a.pdfUrl == b.pdfUrl && |a.pageKeywords| > 0 && |b.pageKeywords| > 0
            && dumps(a.pageKeywords) == dumps(b.pageKeywords)
            ==> CacheKey(a, md5, dumps) == CacheKey(b, md5, dumps)
    ensures |a.pageKeywords| == 0 ==> CacheKey(a, md5, dumps) == a.pdfUrl + "_" + a.searchTerm
  {
  }

  /** Two different term requests can share a key, and so a cached file: an
      underscore can move between the URL and the term. */
  lemma TermKeysCanCollide(md5: string -> string, dumps: seq<PageEntry> -> string)
    ensures var a := HighlightRequest("doc_a", "b", None, []);
            var b := HighlightRequest("doc", "a_b", None, []);
            a != b && CacheKey(a, md5, dumps) == CacheKey(b, md5, dumps)
  {
    assert "doc_a" + "_" + "b" == "doc" + "_" + "a_b";
  }

  function FileName(key: string, md5: string -> string): string
  {
    md5(key) + ".pdf"
  }

  /** `os.path.join(directory, name)` for a relative `name`. */
  function PathJoin(directory: string, name: string): (r: string)
    ensures |name| <= |r| && r[|r| - |name|..] == name
  {
    if directory == "" || directory[|directory| - 1] == '/' then directory + name
    else directory + "/" + name
  }

  /** The public URL: under the static route without a (non-empty) bucket
      prefix, else under the prefix. */
  function PublicUrl(prefix: Option<string>, fileName: string): (r: string)
    ensures prefix.None? || prefix.value == "" ==> r == PublicRoute + fileName
    ensures prefix.Some? && prefix.value != "" ==> r == prefix.value + "/" + fileName
  {
    if prefix.None? || prefix.value == "" then PublicRoute + fileName
    else prefix.value + "/" + fileName
  }

  // ---------------------------------------------------------------------------
  // Planning the annotations
  // ---------------------------------------------------------------------------

  /** A term worth searching: `not term or len(term) < 2` skips it. */
  predicate Searchable(term: string) {
    |term| >= 2
  }

  function HitsOf(page: nat, term: string, count: nat): (r: seq<Annotation>)
    ensures forall a :: a in r <==> a.page == page && a.term == term && a.hit < count
  {
    var r := seq(count, q requires 0 <= q < count => Annotation(page, term, q));
    assert forall a: Annotation :: a.page == page && a.term == term && a.hit < count ==> r[a.hit] == a;
    r
  }

  /** The annotations for one page: every hit of every searchable term, in
      term order. */
  function PageAnnotations(page: nat, terms: seq<string>, hits: (nat, string) -> nat): (r: seq<Annotation>)
    ensures forall a :: a in r <==> a.page == page && a.term in terms && Searchable(a.term) && a.hit < hits(page, a.term)
    decreases |terms|
  {
    if |terms| == 0 then []
    else
      (if Searchable(terms[0]) then HitsOf(page, terms[0], hits(page, terms[0])) else [])
      + PageAnnotations(page, terms[1..], hits)
  }

  /** `_add_highlights`: the terms on every page from `from` on, page by page. */
  function AllPagesFrom(from: nat, doc: PdfDoc, terms: seq<string>): (r: seq<Annotation>)
    ensures forall a :: a in r <==>
              from <= a.page < doc.pageCount && a.term in terms && Searchable(a.term) && a.hit < doc.hits(a.page, a.term)
    ensures forall i, j :: 0 <= i < j < |r| ==> r[i].page <= r[j].page
    decreases doc.pageCount - from
  {
    if from >= doc.pageCount then []
    else
      var here := PageAnnotations(from, terms, doc.hits);
      var rest := AllPagesFrom(from + 1, doc, terms);
      assert forall i :: 0 <= i < |rest| ==> rest[i] in rest;
      here + rest
  }

  function AllPagesPlan(doc: PdfDoc, terms: seq<string>): seq<Annotation>
  {
    AllPagesFrom(0, doc, terms)
  }

  /** The 0-based page a key names when `int(key)` parses and lies within
      1..page count; `None` when the key is skipped. */
  function PageIndex(key: string, pageCount: nat): (r: Option<nat>)
    ensures r.Some? <==> ParseInt(key).Some? && 1 <= ParseInt(key).value <= pageCount
    ensures r.Some? ==> r.value < pageCount && r.value + 1 == ParseInt(key).value
  {
    match ParseInt(key)
    case None => None
    case Some(n) => if n - 1 < 0 || n - 1 >= pageCount then None else Some(n - 1)
  }

  /** `_add_page_specific_highlights`: entry by entry, the keywords on the
      page the key names; entries with other keys add nothing. */
  function PagePlan(entries: seq<PageEntry>, doc: PdfDoc): seq<Annotation>
    decreases |entries|
  {
    if |entries| == 0 then []
    else EntryAnnotations(entries[0], doc) + PagePlan(entries[1..], doc)
  }

  /** One entry's share of the page-specific plan. */
  function EntryAnnotations(e: PageEntry, doc: PdfDoc): seq<Annotation>
  {
    match PageIndex(e.key, doc.pageCount)
    case None => []
    case Some(page) => PageAnnotations(page, e.keywords, doc.hits)
  }

  /** What the page-specific plan holds: exactly the hits of the searchable
      keywords of entries whose key names a page in range, on that page. */
  lemma {:induction false} PagePlanSpec(entries: seq<PageEntry>, doc: PdfDoc, a: Annotation)
    ensures a in PagePlan(entries, doc) <==>
              exists i :: 0 <= i < |entries| && PageIndex(entries[i].key, doc.pageCount) == Some(a.page)
                          && a.term in entries[i].keywords && Searchable(a.term) && a.hit < doc.hits(a.page, a.term)
    decreases |entries|
  {
    if |entries| > 0 {
      PagePlanSpec(entries[1..], doc, a);
      var tail := entries[1..];
      if a in PagePlan(tail, doc) {
        var i :| 0 <= i < |tail| && PageIndex(tail[i].key, doc.pageCount) == Some(a.page)
                 && a.term in tail[i].keywords && Searchable(a.term) && a.hit < doc.hits(a.page, a.term);
        assert tail[i] == entries[i + 1];
      }
      if exists i :: 0 <= i < |entries| && PageIndex(entries[i].key, doc.pageCount) == Some(a.page)
                    && a.term in entries[i].keywords && Searchable(a.term) && a.hit < doc.hits(a.page, a.term) {
        var i :| 0 <= i < |entries| && PageIndex(entries[i].key, doc.pageCount) == Some(a.page)
                 && a.term in entries[i].keywords && Searchable(a.term) && a.hit < doc.hits(a.page, a.term);
        if i > 0 {
          assert entries[i] == tail[i - 1];
        }
      }
    }
  }

  /** Every planned annotation is a real hit of a searchable term on a page
      of the document. */
  lemma PagePlanSound(entries: seq<PageEntry>, doc: PdfDoc)
    ensures forall a :: a in PagePlan(entries, doc) ==>
              a.page < doc.pageCount && Searchable(a.term) && a.hit < doc.hits(a.page, a.term)
  {
    forall a | a in PagePlan(entries, doc)
      ensures a.page < doc.pageCount && Searchable(a.term) && a.hit < doc.hits(a.page, a.term)
    {
      PagePlanSpec(entries, doc, a);
    }
  }

  /** A key that is not an integer, or names no page of the document, adds
      no annotation. */
  lemma {:induction false} SkippedKeyAddsNothing(entries: seq<PageEntry>, doc: PdfDoc, e: PageEntry)
    requires PageIndex(e.key, doc.pageCount).None?
    ensures PagePlan(entries + [e], doc) == PagePlan(entries, doc)
    decreases |entries|
  {
    assert EntryAnnotations(e, doc) == [];
    if |entries| == 0 {
      assert [] + [e] == [e];
      assert PagePlan([e], doc) == [] + PagePlan([], doc);
    } else {
      var longer := entries + [e];
      assert longer[0] == entries[0];
      assert longer[1..] == entries[1..] + [e];
      SkippedKeyAddsNothing(entries[1..], doc, e);
      assert PagePlan(longer[1..], doc) == PagePlan(entries[1..], doc);
    }
  }

  /** `search_term.split(",")` with each piece stripped when it holds a
      ",", else the whole term. */
  function TermsList(term: string): (r: seq<string>)
    ensures |r| >= 1
    ensures Contains(term, ",") ==> |r| == |Split(term, ",")| && forall i :: 0 <= i < |r| ==> r[i] == Strip(Split(term, ",")[i])
    ensures !Contains(term, ",") ==> r == [term]
  {
    if Contains(term, ",") then Keyphrase.StripAll(Split(term, ",")) else [term]
  }

  /** Splitting terms that were joined with "," gives them back, when none
      holds a "," or surrounding whitespace. */
  lemma TermsOfJoin(xs: seq<string>)
    requires |xs| >= 1
    requires forall x :: x in xs ==> !Contains(x, ",") && Strip(x) == x
    ensures TermsList(Join(xs, ",")) == xs
  {
    var joined := Join(xs, ",");
    SplitJoin(xs, ",");
    if Contains(joined, ",") {
      forall i | 0 <= i < |xs| ensures Strip(xs[i]) == xs[i] {
        assert xs[i] in xs;
      }
    }
  }

  /** The terms of a keyphrase from the validated branch are exactly its
      keywords, and every one is searchable. */
  lemma TermsOfValidKeyphrase(query: string, raw: string, reply: string)
    requires reply != Keyphrase.NoMatchReply && |Keyphrase.ValidKeywords(Keyphrase.ReplyKeywords(reply), raw)| > 0
    ensures var valid := Keyphrase.ValidKeywords(Keyphrase.ReplyKeywords(reply), raw);
            && TermsList(Keyphrase.FromReply(query, raw, reply)) == valid
            && forall t :: t in valid ==> Searchable(t)
  {
    var valid := Keyphrase.ValidKeywords(Keyphrase.ReplyKeywords(reply), raw);
    Keyphrase.FromReplyKeywords(query, raw, reply);
    TermsOfJoin(valid);
  }

  /** Every term highlighted for a keyphrase is a substring of the chunk's
      raw text. */
  lemma KeyphraseTermsInText(query: string, chunk: string, chat: Keyphrase.ChatModel)
    ensures var raw := Keyphrase.ExtractSections(chunk).rawText;
            forall t :: t in TermsList(Keyphrase.ExtractKeyphrase(query, chunk, chat)) ==> Contains(raw, t)
  {
    var raw := Keyphrase.ExtractSections(chunk).rawText;
    var phrase := Keyphrase.ExtractKeyphrase(query, chunk, chat);
    var pieces := Split(phrase, ",");
    Keyphrase.KeyphrasePiecesInText(query, chunk, chat);
    if Contains(phrase, ",") {
      forall t | t in TermsList(phrase) ensures Contains(raw, t) {
        var i :| 0 <= i < |pieces| && t == Strip(pieces[i]);
        assert pieces[i] in pieces;
        ContainsTrans(raw, pieces[i], t);
      }
    } else {
      SplitCount(phrase, ",");
      assert pieces[0] in pieces;
      assert pieces == [phrase] by {
        assert IndexOf(phrase, ",") < 0;
      }
    }
  }

  // ---------------------------------------------------------------------------
  // The request
  // ---------------------------------------------------------------------------

  /** `_add_page_specific_highlights` with keywords, else `_add_highlights`
      over the term list. */
  function Plan(req: HighlightRequest, doc: PdfDoc): seq<Annotation>
  {
    if |req.pageKeywords| > 0 then PagePlan(req.pageKeywords, doc)
    else AllPagesPlan(doc, TermsList(req.searchTerm))
  }

  /** `_process_and_highlight_pdf`: download, check the status, annotate and
      write the output whether or not any highlight was added. */
  function Render(req: HighlightRequest, path: string, fetch: string -> Result<Download, string>): Result<Rendered, RenderFailure>
  {
    match fetch(req.pdfUrl)
    case Failure(message) => Failure(Unreachable(message))
    case Success(download) =>
      if download.status != 200 then Failure(BadStatus(download.status))
      else match download.document
        case Failure(message) => Failure(Unreadable(message))
        case Success(doc) => Success(Rendered(path, Plan(req, doc)))
  }

  /** `str(e)` of what the render raised. An `HTTPException` prints as
      "<status>: <detail>". */
  function Describe(f: RenderFailure): string
  {
    match f
    case Unreachable(message) => message
    case BadStatus(status) => FormatInt(status) + ": Failed to download PDF: HTTP " + FormatInt(status)
    case Unreadable(message) => HighlightFailurePrefix + message
  }

  /** `get_highlighted_pdf`. */
  function GetHighlightedPdf(req: HighlightRequest, services: Services): Result<Outcome, HttpError>
  {
    var key := CacheKey(req, services.md5, services.dumps);
    var name := FileName(key, services.md5);
    var path := PathJoin(services.highlightDir, name);
    var url := PublicUrl(req.bucketPrefix, name);
    if services.fileExists(path) then Success(Outcome(url, None))
    else match Render(req, path, services.fetch)
      case Failure(f) => Failure(HttpError(500, RenderFailurePrefix + Describe(f)))
      case Success(rendered) => Success(Outcome(url, Some(rendered)))
  }

  /** The URL is the same on a cache hit and after a render; a cache hit
      starts no render, so its outcome does not depend on the download. */
  lemma CacheHitSpec(req: HighlightRequest, services: Services, fetch: string -> Result<Download, string>)
    ensures var name := FileName(CacheKey(req, services.md5, services.dumps), services.md5);
            var r := GetHighlightedPdf(req, services);
            && (r.Success? ==> r.value.url == PublicUrl(req.bucketPrefix, name))
            && (services.fileExists(PathJoin(services.highlightDir, name)) ==>
                  r == Success(Outcome(PublicUrl(req.bucketPrefix, name), None))
                  && r == GetHighlightedPdf(req, services.(fetch := fetch)))
  {
  }

  /** Every render failure, a bad download status included, reaches the
      caller as status 500 with the fixed prefix. */
  lemma FailureIs500(req: HighlightRequest, services: Services)
    ensures var r := GetHighlightedPdf(req, services);
            r.Failure? ==> r.error.status == 500 && r.error.detail[..|RenderFailurePrefix|] == RenderFailurePrefix
  {
  }

  /** A successful download of a readable PDF is always written to the
      highlight path, with the page-specific plan when there are page
      keywords and the all-pages plan over the term list otherwise, even
      when no annotation was found. */
  lemma RenderWritesOutput(req: HighlightRequest, services: Services, doc: PdfDoc)
    requires services.fetch(req.pdfUrl) == Success(Download(200, Success(doc)))
    ensures var name := FileName(CacheKey(req, services.md5, services.dumps), services.md5);
            var path := PathJoin(services.highlightDir, name);
            var r := GetHighlightedPdf(req, services);
            !services.fileExists(path) ==>
              && r.Success? && r.value.rendered.Some? && r.value.rendered.value.path == path
              && (forall a :: a in r.value.rendered.value.annotations ==>
                    a.page < doc.pageCount && Searchable(a.term) && a.hit < doc.hits(a.page, a.term))
              && (|req.pageKeywords| > 0 ==> r.value.rendered.value.annotations == PagePlan(req.pageKeywords, doc))
              && (|req.pageKeywords| == 0 ==> r.value.rendered.value.annotations == AllPagesPlan(doc, TermsList(req.searchTerm)))
  {
    PagePlanSound(req.pageKeywords, doc);
  }
}

=== FILE: search_router.dfy ===
/** `search_documents`, the POST /search/ endpoint: it rejects a blank
    query, runs the hybrid search in regular mode and picks the response
    message. The embedding call and the two database searches are one
    parameter, `retrieve`, returning the semantic and keyword rows or the
    text of the exception they raised; the reranker is another, with the
    same choice of answer or exception text. */
module SearchRouter {
  import opened Wrappers
  import opened Strings
  import opened Http
  import opened HybridSearch

  const EmptyQueryDetail: string := "Query cannot be empty."
  const NoMatchMessage: string := "No matching documents found."
  const FoundMessage: string := "Search completed successfully."

  /** `str(e)` of the `IndexError` a reranked index outside the candidate
      list raises. */
  const IndexErrorText: string := "list index out of range"

  datatype SearchRequest = SearchRequest(query: string, topK: int, precision: bool)

  datatype SearchResponse = SearchResponse(query: string, results: seq<DocumentSearchResult>, message: string)

  type Retrieve = (string, int) -> Result<(seq<DocumentRow>, seq<DocumentRow>), string>

  type Rerank = Reranker

  function SearchDocuments(req: SearchRequest, retrieve: Retrieve, rerank: Rerank): Result<SearchResponse, HttpError>
  {
    if Strip(req.query) == "" then Failure(HttpError(400, EmptyQueryDetail))
    else match retrieve(req.query, req.topK)
      case Failure(text) => Failure(HttpError(500, text))
      case Success(rows) => Respond(req.query, Search(req.query, rows.0, rows.1, false, rerank))
  }

  /** The answer to a search's outcome: an exception becomes a 500 carrying
      its text; results, or none, become the response with its message. */
  function Respond(query: string, outcome: Result<SearchRun, SearchError>): Result<SearchResponse, HttpError>
  {
    match outcome
    case Failure(RerankFailed(text)) => Failure(HttpError(500, text))
    case Failure(RerankIndexOutOfRange(_)) => Failure(HttpError(500, IndexErrorText))
    case Failure(MetadataInvalid(text)) => Failure(HttpError(500, text))
    case Success(run) =>
      if |run.results| == 0 then Success(SearchResponse(query, [], NoMatchMessage))
      else Success(SearchResponse(query, run.results, FoundMessage))
  }

  /** A query that is blank after stripping is answered with 400 before any
      search, so the answer does not depend on the search at all; a query
      with content never gets a 400. */
  lemma BlankQueryRejected(req: SearchRequest, retrieve: Retrieve, rerank: Rerank, retrieve2: Retrieve, rerank2: Rerank)
    ensures var r := SearchDocuments(req, retrieve, rerank);
            && (r == Failure(HttpError(400, EmptyQueryDetail)) <==> Strip(req.query) == "")
            && (Strip(req.query) == "" ==> r == SearchDocuments(req, retrieve2, rerank2))
            && (r.Failure? ==> r.error.status == 400 || r.error.status == 500)
  {
    if Strip(req.query) != "" {
      match retrieve(req.query, req.topK)
      case Failure(_) =>
      case Success(rows) =>
        RespondStatus(req.query, Search(req.query, rows.0, rows.1, false, rerank));
    }
  }

  /** A search's exception is always answered with 500, carrying the
      reranker's exception text, the `IndexError` text or the validation
      error's text. */
  lemma RespondStatus(query: string, outcome: Result<SearchRun, SearchError>)
    ensures Respond(query, outcome).Failure? <==> outcome.Failure?
    ensures Respond(query, outcome).Failure? ==> Respond(query, outcome).error.status == 500
    ensures outcome.Failure? && outcome.error.RerankFailed? ==>
              Respond(query, outcome).error.detail == outcome.error.text
    ensures outcome.Failure? && outcome.error.RerankIndexOutOfRange? ==>
              Respond(query, outcome).error.detail == IndexErrorText
    ensures outcome.Failure? && outcome.error.MetadataInvalid? ==>
              Respond(query, outcome).error.detail == outcome.error.text
  {
  }

  /** A successful answer echoes the query as sent, carries the regular-mode
      search results unchanged, and says whether there were any. */
  lemma ResponseSpec(req: SearchRequest, retrieve: Retrieve, rerank: Rerank)
    ensures var r := SearchDocuments(req, retrieve, rerank);
            r.Success? ==>
              && r.value.query == req.query
              && retrieve(req.query, req.topK).Success?
              && var rows := retrieve(req.query, req.topK).value;
                 var run := Search(req.query, rows.0, rows.1, false, rerank);
                 && run.Success?
                 && r.value.results == run.value.results
                 && (r.value.message == NoMatchMessage <==> |r.value.results| == 0)
                 && (r.value.message == FoundMessage <==> |r.value.results| > 0)
  {
    if Strip(req.query) != "" && retrieve(req.query, req.topK).Success? {
      var rows := retrieve(req.query, req.topK).value;
      RespondResults(req.query, Search(req.query, rows.0, rows.1, false, rerank));
    }
  }

  /** The `precision` field is never forwarded: the answer is the same
      whatever it says. */
  lemma PrecisionIgnored(req: SearchRequest, retrieve: Retrieve, rerank: Rerank)
    ensures SearchDocuments(req, retrieve, rerank) == SearchDocuments(req.(precision := !req.precision), retrieve, rerank)
  {
  }

  /** The endpoint's results come from the regular-mode search: each
      document result holds exactly one match when the reranker names each
      candidate at most once, since every row is one page. */
  lemma OneMatchPerResult(req: SearchRequest, retrieve: Retrieve, rerank: Rerank)
    requires retrieve(req.query, req.topK).Success?
    requires var rows := retrieve(req.query, req.topK).value;
             var cands := RegularCandidates(MergeCandidates(rows.0, rows.1));
             var answer := rerank(req.query, Texts(cands));
             answer.Success? ==> DistinctTargets(|cands|, answer.value)
    ensures var r := SearchDocuments(req, retrieve, rerank);
            r.Success? ==> forall i :: 0 <= i < |r.value.results| ==> |r.value.results[i].matches| == 1
  {
    var rows := retrieve(req.query, req.topK).value;
    var cands := RegularCandidates(MergeCandidates(rows.0, rows.1));
    var r := SearchDocuments(req, retrieve, rerank);
    var outcome := Search(req.query, rows.0, rows.1, false, rerank);
    if r.Success? {
      RespondResults(req.query, outcome);
      RegularSearchResults(req.query, rows.0, rows.1, rerank);
      RegularSingleMatches(rows.0, rows.1, rerank(req.query, Texts(cands)).value);
    }
  }

  /** A successful answer carries the search's results unchanged. */
  lemma RespondResults(query: string, outcome: Result<SearchRun, SearchError>)
    ensures Respond(query, outcome).Success? ==>
              outcome.Success? && Respond(query, outcome).value.results == outcome.value.results
  {
  }

  /** The endpoint over the search as written, whose metadata conversion
      rejects every row. */
  function SearchDocumentsAsWritten(req: SearchRequest, retrieve: Retrieve, rerank: Rerank): Result<SearchResponse, HttpError>
  {
    if Strip(req.query) == "" then Failure(HttpError(400, EmptyQueryDetail))
    else match retrieve(req.query, req.topK)
      case Failure(text) => Failure(HttpError(500, text))
      case Success(rows) => Respond(req.query, SearchAsWritten(req.query, rows.0, rows.1, false, rerank))
  }

  /** With the code as written, "Search completed successfully." is never
      sent: where the corrected endpoint answers with results, the endpoint
      as written answers 500 with the validation error; every other answer
      is the same. */
  lemma AsWrittenNeverFinds(req: SearchRequest, retrieve: Retrieve, rerank: Rerank)
    ensures var r := SearchDocuments(req, retrieve, rerank);
            var w := SearchDocumentsAsWritten(req, retrieve, rerank);
            && (w.Success? ==> w.value.results == [] && w.value.message == NoMatchMessage)
            && (r.Success? && |r.value.results| > 0 ==> w == Failure(HttpError(500, MissingFileIdText)))
            && (r.Failure? || |r.value.results| == 0 ==> w == r)
  {
    if Strip(req.query) != "" && retrieve(req.query, req.topK).Success? {
      var rows := retrieve(req.query, req.topK).value;
      AsWrittenLosesResults(req.query, rows.0, rows.1, false, rerank);
      RespondResults(req.query, Search(req.query, rows.0, rows.1, false, rerank));
    }
  }
}

=== FILE: sequences.dfy ===
/** Keeping the present entries of a sequence in order, the shape of every
    "skip this one and carry on" loop in the ingestion code. */
module Sequences {
  import opened Wrappers

  /** The values of the `Some` entries, in order. */
  function Somes<T>(xs: seq<Option<T>>): (r: seq<T>)
    ensures |r| <= |xs|
    decreases |xs|
  {
    if |xs| == 0 then []
    else (if xs[0].Some? then [xs[0].value] else []) + Somes(xs[1..])
  }

  /** The positions of the `Some` entries from `from` on, ascending. */
  function SomeIndices<T>(xs: seq<Option<T>>, from: nat): (r: seq<nat>)
    requires from <= |xs|
    ensures forall k :: 0 <= k < |r| ==> from <= r[k] < |xs| && xs[r[k]].Some?
    ensures forall k, l :: 0 <= k < l < |r| ==> r[k] < r[l]
    decreases |xs| - from
  {
    if from == |xs| then []
    else (if xs[from].Some? then [from] else []) + SomeIndices(xs, from + 1)
  }

  /** Every `Some` position from `from` on is listed. */
  lemma {:induction false} SomeIndicesComplete<T>(xs: seq<Option<T>>, from: nat, i: nat)
    requires from <= i < |xs| && xs[i].Some?
    ensures i in SomeIndices(xs, from)
    decreases i - from
  {
    if from < i {
      SomeIndicesComplete(xs, from + 1, i);
    }
  }

  lemma {:induction false} SomeIndicesShift<T>(xs: seq<Option<T>>, d: nat, j: nat)
    requires d + j <= |xs|
    ensures var a := SomeIndices(xs, d + j);
            var b := SomeIndices(xs[d..], j);
            |a| == |b| && forall k :: 0 <= k < |a| ==> a[k] == b[k] + d
    decreases |xs| - d - j
  {
    if d + j < |xs| {
      SomeIndicesShift(xs, d, j + 1);
      assert xs[d..][j] == xs[d + j];
    }
  }

  /** The kept values are exactly the entries at the `Some` positions. */
  lemma {:induction false} SomesSpec<T>(xs: seq<Option<T>>)
    ensures var idx := SomeIndices(xs, 0);
            |Somes(xs)| == |idx| && forall k :: 0 <= k < |idx| ==> Somes(xs)[k] == xs[idx[k]].value
    decreases |xs|
  {
    if |xs| > 0 {
      SomesSpec(xs[1..]);
      SomeIndicesShift(xs, 1, 0);
      var idx := SomeIndices(xs, 0);
      var tail := SomeIndices(xs[1..], 0);
      var head: seq<nat> := if xs[0].Some? then [0] else [];
      assert idx == head + SomeIndices(xs, 1);
      var r := Somes(xs);
      var rest := Somes(xs[1..]);
      assert r == (if xs[0].Some? then [xs[0].value] else []) + rest;
      forall k | 0 <= k < |idx| ensures r[k] == xs[idx[k]].value {
        if k >= |head| {
          assert idx[k] == tail[k - |head|] + 1;
          assert xs[idx[k]] == xs[1..][tail[k - |head|]];
        }
      }
    }
  }

  /** A property of every present value holds of every kept value. */
  lemma SomesAll<T>(xs: seq<Option<T>>, p: T -> bool)
    requires forall i :: 0 <= i < |xs| && xs[i].Some? ==> p(xs[i].value)
    ensures forall k :: 0 <= k < |Somes(xs)| ==> p(Somes(xs)[k])
  {
    SomesSpec(xs);
  }

  /** A present entry is kept, at some position of the result. */
  lemma SomesAt<T>(xs: seq<Option<T>>, i: int) returns (k: int)
    requires 0 <= i < |xs| && xs[i].Some?
    ensures 0 <= k < |Somes(xs)| && Somes(xs)[k] == xs[i].value
  {
    SomesSpec(xs);
    SomeIndicesComplete(xs, 0, i);
    var idx := SomeIndices(xs, 0);
    k :| 0 <= k < |idx| && idx[k] == i;
  }

  /** Every kept value comes from a present entry. */
  lemma SomesFrom<T>(xs: seq<Option<T>>, k: int) returns (i: int)
    requires 0 <= k < |Somes(xs)|
    ensures 0 <= i < |xs| && xs[i].Some? && Somes(xs)[k] == xs[i].value
  {
    SomesSpec(xs);
    i := SomeIndices(xs, 0)[k];
  }

  /** Nothing is kept exactly when every entry is `None`. */
  lemma SomesEmpty<T>(xs: seq<Option<T>>)
    ensures |Somes(xs)| == 0 <==> forall i :: 0 <= i < |xs| ==> xs[i].None?
  {
    SomesSpec(xs);
    if exists i :: 0 <= i < |xs| && xs[i].Some? {
      var i :| 0 <= i < |xs| && xs[i].Some?;
      SomeIndicesComplete(xs, 0, i);
    }
  }

  /** Python's `xs.index(x)`, with -1 where `x` is absent: the first position
      holding `x`. */
  function FirstIndex<T(==)>(xs: seq<T>, x: T): (r: int)
    ensures -1 <= r < |xs|
    ensures r >= 0 ==> xs[r] == x && forall j :: 0 <= j < r ==> xs[j] != x
    ensures r < 0 <==> x !in xs
    decreases |xs|
  {
    if |xs| == 0 then -1
    else if xs[0] == x then 0
    else var i := FirstIndex(xs[1..], x); if i < 0 then -1 else i + 1
  }

  /** Looking past a prefix that does not hold `x`. */
  lemma FirstIndexAfter<T>(xs: seq<T>, ys: seq<T>, x: T)
    requires x !in xs
    ensures FirstIndex(xs + ys, x) == if x in ys then |xs| + FirstIndex(ys, x) else -1
  {
    assert forall j :: 0 <= j < |xs| ==> (xs + ys)[j] == xs[j];
    assert forall j :: |xs| <= j < |xs| + |ys| ==> (xs + ys)[j] == ys[j - |xs|];
    if x in ys {
      assert (xs + ys)[|xs| + FirstIndex(ys, x)] == x;
    }
  }

  /** Looking inside a prefix that holds `x`. */
  lemma FirstIndexWithin<T>(xs: seq<T>, ys: seq<T>, x: T)
    requires x in xs
    ensures FirstIndex(xs + ys, x) == FirstIndex(xs, x)
  {
    assert forall j :: 0 <= j < |xs| ==> (xs + ys)[j] == xs[j];
    assert (xs + ys)[FirstIndex(xs, x)] == x;
  }

  /** Python's `[x for x in xs if p(x)]`. */
  function Filter<T(!new)>(xs: seq<T>, p: T -> bool): (r: seq<T>)
    ensures forall x :: x in r <==> x in xs && p(x)
    decreases |xs|
  {
    if |xs| == 0 then []
    else (if p(xs[0]) then [xs[0]] else []) + Filter(xs[1..], p)
  }

  /** A non-empty list is its head in front of its tail. */
  lemma HeadTail<T>(xs: seq<T>, tail: seq<T>)
    requires |xs| > 0 && tail == xs[1..]
    ensures [xs[0]] + tail == xs
  {
  }

  /** Filtering distributes over concatenation, so the kept elements stay
      in input order with their repeats. */
  lemma {:induction false} FilterAppend<T(!new)>(a: seq<T>, b: seq<T>, p: T -> bool)
    ensures Filter(a + b, p) == Filter(a, p) + Filter(b, p)
    decreases |a|
  {
    if |a| == 0 {
      assert a + b == b;
    } else {
      assert (a + b)[1..] == a[1..] + b;
      FilterAppend(a[1..], b, p);
    }
  }

  /** A one-element list is kept exactly when its element passes. */
  lemma FilterOne<T(!new)>(x: T, p: T -> bool)
    ensures Filter([x], p) == if p(x) then [x] else []
  {
    assert [x][1..] == [];
  }

  /** A filter that every element passes keeps the whole list, in order. */
  lemma {:induction false} FilterAllPass<T(!new)>(xs: seq<T>, p: T -> bool)
    requires forall i :: 0 <= i < |xs| ==> p(xs[i])
    ensures Filter(xs, p) == xs
    decreases |xs|
  {
    if |xs| > 0 {
      var tail := xs[1..];
      assert forall i :: 0 <= i < |tail| ==> p(tail[i]) by {
        assert forall i :: 0 <= i < |tail| ==> tail[i] == xs[i + 1];
      }
      FilterAllPass(tail, p);
      assert Filter(xs, p) == [xs[0]] + Filter(tail, p);
      HeadTail(xs, tail);
    }
  }
}

=== FILE: stable_sort.dfy ===
/** Python's `sorted(xs, key=k)` and `sorted(xs, key=k, reverse=True)`: a
    stable sort by a key, as an insertion sort, with the three facts a caller
    relies on: the output is ordered, it is a permutation, and elements with
    equal keys keep their input order. */
module StableSort {

  /** `a` may stand before `b` in the output. */
  predicate InOrder<T>(key: T -> real, descending: bool, a: T, b: T) {
    if descending then key(a) >= key(b) else key(a) <= key(b)
  }

  predicate Sorted<T>(s: seq<T>, key: T -> real, descending: bool) {
    forall i, j :: 0 <= i < j < |s| ==> InOrder(key, descending, s[i], s[j])
  }

  /** The elements of `s` whose key is `k`, in order. */
  function WithKey<T>(s: seq<T>, key: T -> real, k: real): seq<T>
  {
    if |s| == 0 then []
    else (if key(s[0]) == k then [s[0]] else []) + WithKey(s[1..], key, k)
  }

  /** Inserts `x` before the first element it may precede, so that `x`
      stays ahead of the elements with the same key. */
  function Insert<T>(x: T, s: seq<T>, key: T -> real, descending: bool): seq<T>
  {
    if |s| == 0 || InOrder(key, descending, x, s[0]) then [x] + s
    else [s[0]] + Insert(x, s[1..], key, descending)
  }

  /** Inserting adds `x` and nothing else. */
  lemma {:induction false} InsertPerm<T>(x: T, s: seq<T>, key: T -> real, descending: bool)
    ensures multiset(Insert(x, s, key, descending)) == multiset(s) + multiset{x}
    ensures |Insert(x, s, key, descending)| == |s| + 1
    decreases |s|
  {
    if |s| > 0 && !InOrder(key, descending, x, s[0]) {
      InsertPerm(x, s[1..], key, descending);
      assert s == [s[0]] + s[1..];
    }
  }

  /** The stable sort. */
  function SortBy<T>(s: seq<T>, key: T -> real, descending: bool): (r: seq<T>)
    ensures multiset(r) == multiset(s)
    ensures |r| == |s|
  {
    if |s| == 0 then []
    else
      assert s == [s[0]] + s[1..];
      InsertPerm(s[0], SortBy(s[1..], key, descending), key, descending);
      Insert(s[0], SortBy(s[1..], key, descending), key, descending)
  }

  lemma {:induction false} InsertSorted<T>(x: T, s: seq<T>, key: T -> real, descending: bool)
    requires Sorted(s, key, descending)
    ensures Sorted(Insert(x, s, key, descending), key, descending)
    decreases |s|
  {
    if |s| > 0 && !InOrder(key, descending, x, s[0]) {
      var tail := Insert(x, s[1..], key, descending);
      InsertSorted(x, s[1..], key, descending);
      InsertPerm(x, s[1..], key, descending);
      assert forall y :: y in multiset(tail) ==> y == x || y in multiset(s[1..]);
      forall j | 0 <= j < |tail|
        ensures InOrder(key, descending, s[0], tail[j])
      {
        assert tail[j] in multiset(tail);
        if tail[j] != x {
          var k :| 0 <= k < |s[1..]| && s[1..][k] == tail[j];
          assert s[k + 1] == tail[j];
        }
      }
    }
  }

  /** The output of `SortBy` is ordered by the key. */
  lemma {:induction false} SortBySorted<T>(s: seq<T>, key: T -> real, descending: bool)
    ensures Sorted(SortBy(s, key, descending), key, descending)
    decreases |s|
  {
    if |s| > 0 {
      SortBySorted(s[1..], key, descending);
      InsertSorted(s[0], SortBy(s[1..], key, descending), key, descending);
    }
  }

  lemma WithKeyCons<T>(y: T, s: seq<T>, key: T -> real, k: real)
    ensures WithKey([y] + s, key, k) == (if key(y) == k then [y] else []) + WithKey(s, key, k)
  {
    assert ([y] + s)[1..] == s;
  }

  /** `x` passes only elements with other keys, so among the elements with
      its key it comes first. */
  lemma {:induction false} InsertWithKey<T>(x: T, s: seq<T>, key: T -> real, descending: bool, k: real)
    ensures WithKey(Insert(x, s, key, descending), key, k)
         == (if key(x) == k then [x] else []) + WithKey(s, key, k)
    decreases |s|
  {
    if |s| > 0 && !InOrder(key, descending, x, s[0]) {
      var tail := Insert(x, s[1..], key, descending);
      WithKeyCons(s[0], tail, key, k);
      InsertWithKey(x, s[1..], key, descending, k);
      WithKeyCons(s[0], s[1..], key, k);
      assert s == [s[0]] + s[1..];
      assert key(s[0]) != key(x);
    } else {
      WithKeyCons(x, s, key, k);
    }
  }

  /** Stability: elements sharing a key appear in the output in input order. */
  lemma {:induction false} SortByStable<T>(s: seq<T>, key: T -> real, descending: bool, k: real)
    ensures WithKey(SortBy(s, key, descending), key, k) == WithKey(s, key, k)
    decreases |s|
  {
    if |s| > 0 {
      SortByStable(s[1..], key, descending, k);
      InsertWithKey(s[0], SortBy(s[1..], key, descending), key, descending, k);
    }
  }

  /** Sorting input that is already in order changes nothing. */
  lemma {:induction false} SortBySortedInput<T>(s: seq<T>, key: T -> real, descending: bool)
    requires Sorted(s, key, descending)
    ensures SortBy(s, key, descending) == s
    decreases |s|
  {
    if |s| > 0 {
      assert Sorted(s[1..], key, descending);
      SortBySortedInput(s[1..], key, descending);
      assert s == [s[0]] + s[1..];
    }
  }

  /** No two elements of `s` share a tag. */
  predicate DistinctBy<T>(s: seq<T>, tag: T -> int) {
    forall i, j :: 0 <= i < j < |s| ==> tag(s[i]) != tag(s[j])
  }

  lemma InsertDistinct<T>(x: T, s: seq<T>, key: T -> real, descending: bool, tag: T -> int)
    requires DistinctBy(s, tag) && forall y :: y in s ==> tag(y) != tag(x)
    ensures DistinctBy(Insert(x, s, key, descending), tag)
  {
    var t := InsertPos(x, s, key, descending);
    InsertShape(x, s, key, descending);
    var r := s[..t] + [x] + s[t..];
    forall i, j | 0 <= i < j < |r| ensures tag(r[i]) != tag(r[j]) {
      Spliced(s, x, t, i);
      Spliced(s, x, t, j);
      if i == t {
        assert r[j] == s[j - 1] && s[j - 1] in s;
      } else if j == t {
        assert r[i] == s[i] && s[i] in s;
      }
    }
  }

  /** Sorting never brings two elements with the same tag together from
      distinct ones: distinct tags stay distinct. */
  lemma {:induction false} SortByDistinct<T>(s: seq<T>, key: T -> real, descending: bool, tag: T -> int)
    requires DistinctBy(s, tag)
    ensures DistinctBy(SortBy(s, key, descending), tag)
    decreases |s|
  {
    if |s| > 0 {
      var rest := SortBy(s[1..], key, descending);
      SortByDistinct(s[1..], key, descending, tag);
      forall y | y in rest ensures tag(y) != tag(s[0]) {
        assert y in multiset(rest);
        var k :| 0 <= k < |s[1..]| && s[1..][k] == y;
        assert s[k + 1] == y;
      }
      InsertDistinct(s[0], rest, key, descending, tag);
    }
  }

  /** Where `Insert` puts `x`. */
  function InsertPos<T>(x: T, s: seq<T>, key: T -> real, descending: bool): (t: nat)
    ensures t <= |s|
    decreases |s|
  {
    if |s| == 0 || InOrder(key, descending, x, s[0]) then 0
    else InsertPos(x, s[1..], key, descending) + 1
  }

  /** `Insert` puts `x` after every element it may not precede, and before the rest. */
  lemma {:induction false} InsertShape<T>(x: T, s: seq<T>, key: T -> real, descending: bool)
    ensures var t := InsertPos(x, s, key, descending);
            && Insert(x, s, key, descending) == s[..t] + [x] + s[t..]
            && forall u :: 0 <= u < t ==> !InOrder(key, descending, x, s[u])
    decreases |s|
  {
    if |s| > 0 && !InOrder(key, descending, x, s[0]) {
      var t := InsertPos(x, s[1..], key, descending);
      InsertShape(x, s[1..], key, descending);
      assert s[..t + 1] == [s[0]] + s[1..][..t];
      assert s[t + 1..] == s[1..][t..];
      assert forall u :: 0 < u <= t ==> s[u] == s[1..][u - 1];
    }
  }

  lemma Spliced<T>(a: seq<T>, x: T, t: nat, u: nat)
    requires t <= |a| && u <= |a|
    ensures (a[..t] + [x] + a[t..])[u] == if u < t then a[u] else if u == t then x else a[u - 1]
  {
  }

  /** Every element of the sorted output comes from the input. */
  lemma SortedFromInput<T>(s: seq<T>, key: T -> real, descending: bool, u: int)
    requires 0 <= u < |s|
    ensures exists q :: 0 <= q < |s| && s[q] == SortBy(s, key, descending)[u]
  {
    var r := SortBy(s, key, descending);
    assert r[u] in multiset(r);
    assert r[u] in multiset(s);
  }

  /** Two elements with equal keys come out of the sort in the order they went in. */
  lemma {:induction false} SortByTies<T>(s: seq<T>, key: T -> real, descending: bool, i: int, j: int)
    requires 0 <= i < j < |s|
    requires key(SortBy(s, key, descending)[i]) == key(SortBy(s, key, descending)[j])
    ensures exists p, q :: 0 <= p < q < |s| && s[p] == SortBy(s, key, descending)[i]
                                           && s[q] == SortBy(s, key, descending)[j]
    decreases |s|
  {
    var tail := s[1..];
    var rest := SortBy(tail, key, descending);
    var r := SortBy(s, key, descending);
    var t := InsertPos(s[0], rest, key, descending);
    InsertShape(s[0], rest, key, descending);
    assert r == rest[..t] + [s[0]] + rest[t..];
    Spliced(rest, s[0], t, i);
    Spliced(rest, s[0], t, j);
    if i == t {
      SortedFromInput(tail, key, descending, j - 1);
      var q :| 0 <= q < |tail| && tail[q] == rest[j - 1];
      assert s[0] == r[i] && s[q + 1] == r[j];
    } else {
      assert j != t by {
        if i < t {
          assert InOrder(key, descending, s[0], rest[i]) ==> j != t;
        }
      }
      var i' := if i < t then i else i - 1;
      var j' := if j < t then j else j - 1;
      SortByTies(tail, key, descending, i', j');
      var p, q :| 0 <= p < q < |tail| && tail[p] == rest[i'] && tail[q] == rest[j'];
      assert s[p + 1] == r[i] && s[q + 1] == r[j];
    }
  }
}

=== FILE: strings.dfy ===
/** Python `str` operations the retrieval code relies on: `in`, `find`,
    `split(sep)`, `split()`, `strip()`, `lower()` and `sep.join(...)`, each
    with the contract that says what the Python operation returns. */
module Strings {
  import Sequences

  /** Characters Python's `str.isspace()` accepts (used by `strip()` and `split()`). */
  predicate IsSpace(c: char) {
    c == ' ' || '\t' <= c <= '\r' || '\U{1c}' <= c <= '\U{1f}'
    || c == '\U{85}' || c == '\U{a0}' || c == '\U{1680}' || '\U{2000}' <= c <= '\U{200a}'
    || c == '\U{2028}' || c == '\U{2029}' || c == '\U{202f}' || c == '\U{205f}' || c == '\U{3000}'
  }

  predicate NotSpace(c: char) {
    !IsSpace(c)
  }

  // ---------------------------------------------------------------------------
  // Substring search: `sub in s` and `s.find(sub)`
  // ---------------------------------------------------------------------------

  /** `sub` occurs in `s` starting at index `i`. */
  predicate OccursAt(s: string, sub: string, i: int) {
    0 <= i && i + |sub| <= |s| && s[i..i + |sub|] == sub
  }

  /** First occurrence of `sub` at or after `k`, or -1. */
  function IndexFrom(s: string, sub: string, k: nat): (r: int)
    ensures r == -1 || (k <= r && OccursAt(s, sub, r))
    ensures r >= 0 ==> forall j :: k <= j < r ==> !OccursAt(s, sub, j)
    ensures r < 0 ==> forall j {:trigger OccursAt(s, sub, j)} :: k <= j ==> !OccursAt(s, sub, j)
    decreases |s| - k
  {
    if k + |sub| > |s| then -1
    else if s[k..k + |sub|] == sub then k
    else IndexFrom(s, sub, k + 1)
  }

  /** Python's `s.find(sub)`: the first index where `sub` occurs, or -1. */
  function IndexOf(s: string, sub: string): (r: int)
    ensures r == -1 || OccursAt(s, sub, r)
    ensures r >= 0 ==> forall j :: 0 <= j < r ==> !OccursAt(s, sub, j)
    ensures r < 0 ==> forall j {:trigger OccursAt(s, sub, j)} :: !OccursAt(s, sub, j)
  {
    IndexFrom(s, sub, 0)
  }

  /** Python's `sub in s`. */
  predicate Contains(s: string, sub: string) {
    IndexOf(s, sub) >= 0
  }

  lemma ContainsAt(s: string, sub: string, i: int)
    requires OccursAt(s, sub, i)
    ensures Contains(s, sub)
  {
  }

  /** A slice of `s` is contained in `s`. */
  lemma SliceContained(s: string, i: int, j: int)
    requires 0 <= i <= j <= |s|
    ensures Contains(s, s[i..j])
  {
    assert OccursAt(s, s[i..j], i);
  }

  /** An occurrence in a suffix of `s` is an occurrence in `s`. */
  lemma ContainsInSuffix(s: string, k: int, u: string)
    requires 0 <= k <= |s| && Contains(s[k..], u)
    ensures Contains(s, u)
  {
    var j := IndexOf(s[k..], u);
    assert s[k..][j..j + |u|] == s[k + j..k + j + |u|];
    assert OccursAt(s, u, k + j);
  }

  /** Containment is transitive: a substring of a substring of `s` is a substring of `s`. */
  lemma ContainsTrans(s: string, t: string, u: string)
    requires Contains(s, t) && Contains(t, u)
    ensures Contains(s, u)
  {
    var i := IndexOf(s, t);
    var j := IndexOf(t, u);
    assert t == s[i..i + |t|];
    assert t[j..j + |u|] == s[i..i + |t|][j..j + |u|] == s[i + j..i + j + |u|];
    assert OccursAt(s, u, i + j);
  }

  // ---------------------------------------------------------------------------
  // `sep.join(xs)` and `s.split(sep)`
  // ---------------------------------------------------------------------------

  /** Python's `sep.join(xs)`. */
  function Join(xs: seq<string>, sep: string): string
  {
    if |xs| == 0 then ""
    else if |xs| == 1 then xs[0]
    else xs[0] + sep + Join(xs[1..], sep)
  }

  /** Python's `s.split(sep)` for a non-empty separator: the pieces between
      non-overlapping occurrences scanned left to right. */
  function Split(s: string, sep: string): (r: seq<string>)
    requires |sep| > 0
    ensures |r| >= 1
    decreases |s|
  {
    var i := IndexOf(s, sep);
    if i < 0 then [s] else [s[..i]] + Split(s[i + |sep|..], sep)
  }

  /** Joining the pieces of a split with the same separator gives back the string. */
  lemma {:induction false} JoinSplit(s: string, sep: string)
    requires |sep| > 0
    ensures Join(Split(s, sep), sep) == s
    decreases |s|
  {
    var i := IndexOf(s, sep);
    if i >= 0 {
      var rest := s[i + |sep|..];
      var tail := Split(rest, sep);
      JoinSplit(rest, sep);
      assert Split(s, sep) == [s[..i]] + tail;
      JoinCons(s[..i], tail, sep);
      assert s == s[..i] + sep + rest;
    }
  }

  /** Joining a non-empty tail after a head puts one separator between them. */
  lemma JoinCons(x: string, xs: seq<string>, sep: string)
    requires |xs| >= 1
    ensures Join([x] + xs, sep) == x + sep + Join(xs, sep)
  {
    assert ([x] + xs)[1..] == xs;
  }

  /** No piece of a split contains the separator. */
  lemma {:induction false} SplitPiecesFree(s: string, sep: string)
    requires |sep| > 0
    ensures forall p :: p in Split(s, sep) ==> !Contains(p, sep)
    decreases |s|
  {
    var i := IndexOf(s, sep);
    if i >= 0 {
      var rest := s[i + |sep|..];
      SplitPiecesFree(rest, sep);
      var head := s[..i];
      if Contains(head, sep) {
        OccursInPrefix(s, i, sep, IndexOf(head, sep));
      }
    }
  }

  /** An occurrence in a prefix of `s` is an occurrence in `s`. */
  lemma OccursInPrefix(s: string, n: int, sub: string, j: int)
    requires 0 <= n <= |s| && OccursAt(s[..n], sub, j)
    ensures OccursAt(s, sub, j)
  {
    assert s[j..j + |sub|] == s[..n][j..j + |sub|];
  }

  /** The first piece of a split is a prefix free of the separator that
      ends at the end or at the first separator. */
  lemma FirstPieceShape(s: string, sep: string)
    requires |sep| > 0
    ensures var r := Split(s, sep)[0];
            && |r| <= |s| && r == s[..|r|] && !Contains(r, sep)
            && (|r| == |s| || OccursAt(s, sep, |r|))
  {
    var i := IndexOf(s, sep);
    if i >= 0 {
      var r := s[..i];
      if Contains(r, sep) {
        OccursInPrefix(s, i, sep, IndexOf(r, sep));
      }
    } else {
      assert s[..|s|] == s;
    }
  }

  /** The split has more than one piece exactly when the separator occurs. */
  lemma SplitCount(s: string, sep: string)
    requires |sep| > 0
    ensures |Split(s, sep)| > 1 <==> Contains(s, sep)
  {
  }

  /** The first piece after the first separator runs up to the next separator. */
  lemma SecondPiece(s: string, sep: string)
    requires |sep| > 0 && Contains(s, sep)
    ensures var rest := s[IndexOf(s, sep) + |sep|..];
            var j := IndexOf(rest, sep);
            Split(s, sep)[1] == if j < 0 then rest else rest[..j]
  {
  }

  /** Where `a` has no occurrence of a one-character separator and `b` starts
      with it, the first occurrence in `a + b` is at `|a|`. */
  lemma IndexAfterFree(a: string, b: string, sep: string)
    requires |sep| == 1 && !Contains(a, sep) && |b| > 0 && b[0] == sep[0]
    ensures IndexOf(a + b, sep) == |a|
  {
    var s := a + b;
    assert s[|a|..|a| + 1] == sep;
    assert OccursAt(s, sep, |a|);
    var r := IndexOf(s, sep);
    if r < |a| {
      assert s[r..r + 1] == a[r..r + 1];
      assert OccursAt(a, sep, r);
      assert false;
    }
  }

  /** Splitting a join on a one-character separator recovers the pieces,
      provided no piece contains the separator. */
  lemma {:induction false} SplitJoin(xs: seq<string>, sep: string)
    requires |sep| == 1 && |xs| >= 1
    requires forall x :: x in xs ==> !Contains(x, sep)
    ensures Split(Join(xs, sep), sep) == xs
    decreases |xs|
  {
    if |xs| == 1 {
      assert Join(xs, sep) == xs[0];
      assert !Contains(xs[0], sep);
    } else {
      var tail := Join(xs[1..], sep);
      var s := xs[0] + (sep + tail);
      assert Join(xs, sep) == s;
      IndexAfterFree(xs[0], sep + tail, sep);
      assert s[..|xs[0]|] == xs[0];
      assert s[|xs[0]| + 1..] == tail;
      SplitJoin(xs[1..], sep);
      assert Split(s, sep) == [xs[0]] + Split(tail, sep);
      assert xs == [xs[0]] + xs[1..];
    }
  }

  /** An occurrence inside `a` is still the first one once `t` is appended. */
  lemma IndexOfPrefix(a: string, t: string, sep: string)
    requires IndexOf(a, sep) >= 0
    ensures IndexOf(a + t, sep) == IndexOf(a, sep)
  {
    var i := IndexOf(a, sep);
    var s := a + t;
    assert s[i..i + |sep|] == a[i..i + |sep|];
    assert OccursAt(s, sep, i);
    var r := IndexOf(s, sep);
    if r < i {
      assert s[r..r + |sep|] == a[r..r + |sep|];
      assert OccursAt(a, sep, r);
      assert false;
    }
  }

  /** Splitting on a one-character separator distributes over a join at that
      separator: the pieces of `a + sep + b` are those of `a`, then those of `b`. */
  lemma {:induction false} SplitConcat(a: string, b: string, sep: string)
    requires |sep| == 1
    ensures Split(a + sep + b, sep) == Split(a, sep) + Split(b, sep)
    decreases |a|
  {
    var s := a + sep + b;
    var i := IndexOf(a, sep);
    if i < 0 {
      assert !Contains(a, sep);
      assert a + sep + b == a + (sep + b);
      IndexAfterFree(a, sep + b, sep);
      assert s[..|a|] == a;
      assert s[|a| + 1..] == b;
    } else {
      assert s == a + (sep + b);
      IndexOfPrefix(a, sep + b, sep);
      var rest := a[i + 1..];
      assert s[..i] == a[..i];
      assert s[i + 1..] == rest + sep + b;
      SplitConcat(rest, b, sep);
    }
  }

  /** Every piece of a split is a substring of the input. */
  lemma {:induction false} SplitPiecesContained(s: string, sep: string)
    requires |sep| > 0
    ensures forall p :: p in Split(s, sep) ==> Contains(s, p)
    decreases |s|
  {
    var i := IndexOf(s, sep);
    if i < 0 {
      SliceContained(s, 0, |s|);
      assert s[0..|s|] == s;
    } else {
      var k := i + |sep|;
      SplitPiecesContained(s[k..], sep);
      SliceContained(s, 0, i);
      assert s[0..i] == s[..i];
      forall p | p in Split(s[k..], sep) ensures Contains(s, p) {
        ContainsInSuffix(s, k, p);
      }
    }
  }

  /** Each piece of a split join is a piece of one of the joined strings. */
  lemma {:induction false} SplitJoinPieces(xs: seq<string>, sep: string)
    requires |sep| == 1 && |xs| >= 1
    ensures forall p :: p in Split(Join(xs, sep), sep) ==> exists x :: x in xs && p in Split(x, sep)
    decreases |xs|
  {
    if |xs| > 1 {
      SplitConcat(xs[0], Join(xs[1..], sep), sep);
      SplitJoinPieces(xs[1..], sep);
      assert forall x :: x in xs[1..] ==> x in xs;
    }
  }

  /** When every joined string occurs in `t`, so does every piece of the
      join's split on the same one-character separator. */
  lemma JoinPiecesContained(xs: seq<string>, sep: string, t: string)
    requires |sep| == 1 && |xs| >= 1
    requires forall x :: x in xs ==> Contains(t, x)
    ensures forall p :: p in Split(Join(xs, sep), sep) ==> Contains(t, p)
  {
    SplitJoinPieces(xs, sep);
    forall p | p in Split(Join(xs, sep), sep) ensures Contains(t, p) {
      var x :| x in xs && p in Split(x, sep);
      SplitPiecesContained(x, sep);
      ContainsTrans(t, x, p);
    }
  }

  /** A character that is not part of any piece is not part of their join. */
  lemma {:induction false} JoinFree(xs: seq<string>, sep: string, c: char)
    requires c !in sep
    requires forall x :: x in xs ==> c !in x
    ensures c !in Join(xs, sep)
    decreases |xs|
  {
    if |xs| > 1 {
      JoinFree(xs[1..], sep, c);
    }
  }

  // ---------------------------------------------------------------------------
  // `strip()`
  // ---------------------------------------------------------------------------

  /** Drops leading characters satisfying `drop`. */
  function TrimStart(s: string, drop: char -> bool): (r: string)
    ensures |r| <= |s| && r == s[|s| - |r|..]
    ensures forall i :: 0 <= i < |s| - |r| ==> drop(s[i])
    ensures |r| > 0 ==> !drop(r[0])
    decreases |s|
  {
    if |s| > 0 && drop(s[0]) then TrimStart(s[1..], drop) else s
  }

  /** Drops trailing characters satisfying `drop`. */
  function TrimEnd(s: string, drop: char -> bool): (r: string)
    ensures |r| <= |s| && r == s[..|r|]
    ensures forall i :: |r| <= i < |s| ==> drop(s[i])
    ensures |r| > 0 ==> !drop(r[|r| - 1])
    decreases |s|
  {
    if |s| > 0 && drop(s[|s| - 1]) then TrimEnd(s[..|s| - 1], drop) else s
  }

  /** Python's `s.strip(chars)`, with the character set given as a predicate:
      the slice of `s` left once leading and trailing `drop` characters are gone. */
  function StripBy(s: string, drop: char -> bool): (r: string)
    ensures OccursAt(s, r, |s| - |TrimStart(s, drop)|)
    ensures |r| > 0 ==> !drop(r[0]) && !drop(r[|r| - 1])
  {
    var t := TrimStart(s, drop);
    var r := TrimEnd(t, drop);
    InnerSlice(s, t, r, drop);
    r
  }

  /** A prefix `r` of a suffix `t` of `s` occurs in `s` where `t` starts, and
      keeps the undropped ends. */
  lemma InnerSlice(s: string, t: string, r: string, drop: char -> bool)
    requires |t| <= |s| && t == s[|s| - |t|..] && (|t| > 0 ==> !drop(t[0]))
    requires |r| <= |t| && r == t[..|r|] && (|r| > 0 ==> !drop(r[|r| - 1]))
    ensures OccursAt(s, r, |s| - |t|)
    ensures |r| > 0 ==> !drop(r[0]) && !drop(r[|r| - 1])
  {
    assert |r| > 0 ==> r[0] == t[0];
    PrefixOfSuffix(s, |s| - |t|, r);
  }

  /** What `StripBy` removes: only a run of dropped characters at each end. */
  lemma StripByShape(s: string, drop: char -> bool)
    ensures exists a, b :: 0 <= a <= b <= |s| && StripBy(s, drop) == s[a..b]
              && (forall i :: 0 <= i < a ==> drop(s[i]))
              && (forall i :: b <= i < |s| ==> drop(s[i]))
  {
    var t := TrimStart(s, drop);
    var r := TrimEnd(t, drop);
    assert StripBy(s, drop) == r;
    InnerSliceShape(s, t, r, drop);
  }

  /** A prefix `r` of a suffix `t` of `s`, with only dropped characters cut
      at either end, is a slice of `s` between two runs of them. */
  lemma InnerSliceShape(s: string, t: string, r: string, drop: char -> bool)
    requires |t| <= |s| && t == s[|s| - |t|..] && forall i :: 0 <= i < |s| - |t| ==> drop(s[i])
    requires |r| <= |t| && r == t[..|r|] && forall i :: |r| <= i < |t| ==> drop(t[i])
    ensures exists a, b :: 0 <= a <= b <= |s| && r == s[a..b]
              && (forall i :: 0 <= i < a ==> drop(s[i]))
              && (forall i :: b <= i < |s| ==> drop(s[i]))
  {
    var a := |s| - |t|;
    var b := a + |r|;
    PrefixOfSuffix(s, a, r);
    assert r == s[a..b];
    forall i | b <= i < |s| ensures drop(s[i]) {
      assert s[i] == t[i - a];
    }
    assert 0 <= a <= b <= |s| && r == s[a..b]
           && (forall i :: 0 <= i < a ==> drop(s[i]))
           && (forall i :: b <= i < |s| ==> drop(s[i]));
  }

  /** Python's `s.strip()`: the input without its leading and trailing
      whitespace, and nothing else removed. */
  function Strip(s: string): (r: string)
    ensures |r| > 0 ==> NotSpace(r[0]) && NotSpace(r[|r| - 1])
    ensures exists a, b :: 0 <= a <= b <= |s| && r == s[a..b]
              && (forall i :: 0 <= i < a ==> IsSpace(s[i]))
              && (forall i :: b <= i < |s| ==> IsSpace(s[i]))
  {
    StripByShape(s, IsSpace);
    StripBy(s, IsSpace)
  }

  /** `s.strip()` is a substring of `s`. */
  lemma StripContained(s: string)
    ensures Contains(s, Strip(s))
  {
    ContainsAt(s, Strip(s), |s| - |TrimStart(s, IsSpace)|);
  }

  /** The characters of an occurrence are characters of the string. */
  lemma OccursChars(s: string, r: string, i: int, c: char)
    requires OccursAt(s, r, i) && c in r
    ensures c in s
  {
    var k :| 0 <= k < |r| && r[k] == c;
    assert s[i + k] == r[k];
  }

  /** A stripped string's characters all come from the input. */
  lemma StripChars(s: string, c: char)
    requires c in Strip(s)
    ensures c in s
  {
    assert Strip(s) == StripBy(s, IsSpace);
    OccursChars(s, StripBy(s, IsSpace), |s| - |TrimStart(s, IsSpace)|, c);
  }

  /** Stripping a string whose ends are not dropped characters leaves it unchanged. */
  lemma StripByClean(s: string, drop: char -> bool)
    requires |s| > 0 ==> !drop(s[0]) && !drop(s[|s| - 1])
    ensures StripBy(s, drop) == s
  {
  }

  /** Stripping a string that neither starts nor ends with whitespace leaves it unchanged. */
  lemma StripClean(s: string)
    requires |s| > 0 ==> NotSpace(s[0]) && NotSpace(s[|s| - 1])
    ensures Strip(s) == s
  {
  }

  /** `strip()` is idempotent. */
  lemma StripIdempotent(s: string)
    ensures Strip(Strip(s)) == Strip(s)
  {
    StripClean(Strip(s));
  }

  /** The string is empty after `strip()` exactly when it is all whitespace. */
  lemma StripEmpty(s: string)
    ensures Strip(s) == "" <==> forall i :: 0 <= i < |s| ==> IsSpace(s[i])
  {
    var t := TrimStart(s, IsSpace);
    assert |t| > 0 ==> t[0] == s[|s| - |t|];
  }

  // ---------------------------------------------------------------------------
  // `split()` without a separator
  // ---------------------------------------------------------------------------

  /** The longest prefix of `s` free of whitespace. */
  function LeadingWord(s: string): (w: string)
    ensures |w| <= |s| && w == s[..|w|]
    ensures forall i :: 0 <= i < |w| ==> NotSpace(w[i])
    ensures |w| < |s| ==> IsSpace(s[|w|])
    decreases |s|
  {
    if |s| == 0 || IsSpace(s[0]) then "" else [s[0]] + LeadingWord(s[1..])
  }

  /** Python's `s.split()`: the maximal runs of non-whitespace characters. */
  function Words(s: string): (r: seq<string>)
    ensures forall w :: w in r ==> |w| > 0 && forall i :: 0 <= i < |w| ==> NotSpace(w[i])
    decreases |s|
  {
    var t := TrimStart(s, IsSpace);
    if |t| == 0 then []
    else
      var w := LeadingWord(t);
      [w] + Words(t[|w|..])
  }

  /** The leading word of the trimmed input is a substring of the input. */
  lemma LeadingWordContained(s: string)
    requires |TrimStart(s, IsSpace)| > 0
    ensures Contains(s, LeadingWord(TrimStart(s, IsSpace)))
  {
    var t := TrimStart(s, IsSpace);
    var w := LeadingWord(t);
    PrefixOfSuffix(s, |s| - |t|, w);
    ContainsAt(s, w, |s| - |t|);
  }

  /** A prefix of the suffix from `k` occurs at `k`. */
  lemma PrefixOfSuffix(s: string, k: int, w: string)
    requires 0 <= k <= |s| && |w| <= |s| - k && w == s[k..][..|w|]
    ensures OccursAt(s, w, k)
  {
    assert s[k..k + |w|] == s[k..][..|w|];
  }

  /** Every word of `s.split()` is a substring of `s`. */
  lemma {:induction false} WordsContained(s: string)
    ensures forall w :: w in Words(s) ==> Contains(s, w)
    decreases |s|
  {
    var t := TrimStart(s, IsSpace);
    if |t| > 0 {
      var w := LeadingWord(t);
      var k := |s| - |t| + |w|;
      var rest := t[|w|..];
      assert rest == s[k..];
      LeadingWordContained(s);
      WordsContained(rest);
      forall v | v in Words(rest)
        ensures Contains(s, v)
      {
        ContainsInSuffix(s, k, v);
      }
    }
  }

  /** The characters of `s` that are not whitespace, in order. */
  function NonSpaces(s: string): string
    decreases |s|
  {
    if |s| == 0 then "" else (if IsSpace(s[0]) then "" else [s[0]]) + NonSpaces(s[1..])
  }

  /** The words of a list, run together. */
  function Concat(ws: seq<string>): string
    decreases |ws|
  {
    if |ws| == 0 then "" else ws[0] + Concat(ws[1..])
  }

  lemma {:induction false} NonSpacesAppend(a: string, b: string)
    ensures NonSpaces(a + b) == NonSpaces(a) + NonSpaces(b)
    decreases |a|
  {
    if |a| > 0 {
      assert (a + b)[1..] == a[1..] + b;
      NonSpacesAppend(a[1..], b);
    } else {
      assert a + b == b;
    }
  }

  lemma {:induction false} NonSpacesOfSpaces(a: string)
    requires forall i :: 0 <= i < |a| ==> IsSpace(a[i])
    ensures NonSpaces(a) == ""
    decreases |a|
  {
    if |a| > 0 {
      NonSpacesOfSpaces(a[1..]);
    }
  }

  lemma {:induction false} NonSpacesOfWord(w: string)
    requires forall i :: 0 <= i < |w| ==> NotSpace(w[i])
    ensures NonSpaces(w) == w
    decreases |w|
  {
    if |w| > 0 {
      NonSpacesOfWord(w[1..]);
      assert w == [w[0]] + w[1..];
    }
  }

  lemma ConcatCons(w: string, ws: seq<string>)
    ensures Concat([w] + ws) == w + Concat(ws)
  {
    assert ([w] + ws)[1..] == ws;
  }

  /** One step of `split()`: the leading word of the trimmed text, then the
      words of what follows it. */
  lemma WordsStep(s: string)
    requires |TrimStart(s, IsSpace)| > 0
    ensures var t := TrimStart(s, IsSpace);
            Words(s) == [LeadingWord(t)] + Words(t[|LeadingWord(t)|..])
  {
  }

  /** Leading whitespace contributes no non-whitespace characters. */
  lemma NonSpacesTrim(s: string)
    ensures NonSpaces(s) == NonSpaces(TrimStart(s, IsSpace))
  {
    var t := TrimStart(s, IsSpace);
    NonSpacesSkip(s, |s| - |t|, t);
  }

  /** Skipping a prefix of whitespace keeps the non-whitespace characters. */
  lemma NonSpacesSkip(s: string, k: nat, t: string)
    requires k <= |s| && t == s[k..] && forall i :: 0 <= i < k ==> IsSpace(s[i])
    ensures NonSpaces(s) == NonSpaces(t)
  {
    var a := s[..k];
    assert s == a + t;
    assert forall i :: 0 <= i < |a| ==> a[i] == s[i];
    NonSpacesOfSpaces(a);
    NonSpacesAppend(a, t);
  }

  /** Putting a word in front of a text puts it in front of the text's
      non-whitespace characters. */
  lemma NonSpacesCons(w: string, rest: string, ws: seq<string>)
    requires forall i :: 0 <= i < |w| ==> NotSpace(w[i])
    requires Concat(ws) == NonSpaces(rest)
    ensures Concat([w] + ws) == NonSpaces(w + rest)
  {
    ConcatCons(w, ws);
    NonSpacesOfWord(w);
    NonSpacesAppend(w, rest);
  }

  /** The first word of a text with non-whitespace, and the text after it:
      the words continue with the rest's, and so do the non-whitespace
      characters. */
  lemma WordsFront(s: string) returns (w: string, rest: string)
    requires |TrimStart(s, IsSpace)| > 0
    ensures |rest| < |s| && forall i :: 0 <= i < |w| ==> NotSpace(w[i])
    ensures Words(s) == [w] + Words(rest) && NonSpaces(s) == NonSpaces(w + rest)
  {
    var t := TrimStart(s, IsSpace);
    NonSpacesTrim(s);
    w := LeadingWord(t);
    rest := t[|w|..];
    assert t == w + rest;
    WordsStep(s);
  }

  /** `s.split()` loses only whitespace: its words, run together, are the
      non-whitespace characters of `s`, in order. */
  lemma {:induction false} WordsCover(s: string)
    ensures Concat(Words(s)) == NonSpaces(s)
    decreases |s|
  {
    if |TrimStart(s, IsSpace)| == 0 {
      NonSpacesTrim(s);
    } else {
      var w, rest := WordsFront(s);
      WordsCover(rest);
      NonSpacesCons(w, rest, Words(rest));
    }
  }

  /** `s.split()` is empty exactly when `s` is all whitespace. */
  lemma WordsEmpty(s: string)
    ensures Words(s) == [] <==> forall i :: 0 <= i < |s| ==> IsSpace(s[i])
  {
    var t := TrimStart(s, IsSpace);
    if |t| > 0 {
      WordsStep(s);
      assert t[0] == s[|s| - |t|];
    }
  }

  /** A non-empty run of non-whitespace characters. */
  predicate IsWord(w: string) {
    |w| > 0 && forall i :: 0 <= i < |w| ==> NotSpace(w[i])
  }

  /** The first word of a word followed by whitespace (or nothing) is that word. */
  lemma {:induction false} LeadingWordOf(w: string, u: string)
    requires forall i :: 0 <= i < |w| ==> NotSpace(w[i])
    requires |u| > 0 ==> IsSpace(u[0])
    ensures LeadingWord(w + u) == w
    decreases |w|
  {
    if |w| > 0 {
      assert (w + u)[1..] == w[1..] + u;
      LeadingWordOf(w[1..], u);
      assert w == [w[0]] + w[1..];
    } else {
      assert w + u == u;
    }
  }

  /** A non-empty word without whitespace splits to itself. */
  lemma WordsOfWord(w: string)
    requires IsWord(w)
    ensures Words(w) == [w]
  {
    LeadingWordOf(w, "");
    assert w + "" == w;
    assert TrimStart(w, IsSpace) == w;
    assert w[|w|..] == "";
  }

  /** A word, a space and more text split to the word and the rest's words. */
  lemma WordsOfCons(w: string, rest: string)
    requires IsWord(w)
    ensures Words(w + " " + rest) == [w] + Words(rest)
  {
    var u := " " + rest;
    var s := w + u;
    assert s == w + " " + rest;
    assert s[0] == w[0];
    assert TrimStart(s, IsSpace) == s;
    LeadingWordOf(w, u);
    assert s[|w|..] == u;
    assert u[1..] == rest;
    assert TrimStart(u, IsSpace) == TrimStart(rest, IsSpace);
  }

  /** A space-joined list with at least two parts starts with its first part and a space. */
  lemma JoinSpace(ws: seq<string>)
    requires |ws| > 1
    ensures Join(ws, " ") == ws[0] + " " + Join(ws[1..], " ")
  {
  }

  /** Words are kept when a word and a space are put in front. */
  lemma WordsOfJoinStep(ws: seq<string>, j: string)
    requires |ws| > 0 && IsWord(ws[0]) && Words(j) == ws[1..]
    ensures Words(ws[0] + " " + j) == ws
  {
    WordsOfCons(ws[0], j);
    Sequences.HeadTail(ws, Words(j));
  }

  /** `" ".join(ws).split() == ws` for non-empty words without whitespace. */
  lemma {:induction false} WordsOfJoin(ws: seq<string>)
    requires forall k :: 0 <= k < |ws| ==> IsWord(ws[k])
    ensures Words(Join(ws, " ")) == ws
    decreases |ws|
  {
    if |ws| == 1 {
      WordsOfWord(ws[0]);
    } else if |ws| > 1 {
      WordsOfJoin(ws[1..]);
      JoinSpace(ws);
      WordsOfJoinStep(ws, Join(ws[1..], " "));
    }
  }

  // ---------------------------------------------------------------------------
  // `lower()`
  // ---------------------------------------------------------------------------

  function LowerChar(c: char): char {
    if 'A' <= c <= 'Z' then (c as int + 32) as char else c
  }

  /** Python's `s.lower()` on the ASCII letters. */
  function Lower(s: string): (r: string)
    ensures |r| == |s|
    ensures forall i :: 0 <= i < |s| ==> r[i] == LowerChar(s[i])
  {
    seq(|s|, i requires 0 <= i < |s| => LowerChar(s[i]))
  }

  /** Lowering commutes with concatenation. */
  lemma LowerAppend(a: string, b: string)
    ensures Lower(a + b) == Lower(a) + Lower(b)
  {
  }

  /** Lowering commutes with slicing. */
  lemma LowerSlice(s: string, i: int, j: int)
    requires 0 <= i <= j <= |s|
    ensures Lower(s[i..j]) == Lower(s)[i..j]
  {
  }
}

=== FILE: wrappers.dfy ===
/** Failure-carrying values: `Option` stands for the source's `None`-or-value
    returns, `Result` for a computation that either returns or raises. */
module Wrappers {

  datatype Option<+T> = None | Some(value: T)

  datatype Result<+T, +E> = Success(value: T) | Failure(error: E)
}
